=== FILE: README.md ===
# OrchexPay money core in Dafny

This project models the money-handling core of OrchexPay's two Java services.

- **The wallet ledger (`user-wallet-service`).**
  - Values and entities: `Money`, `Currency`, `LedgerEntry`, `Wallet`, `User`.
  - The repository queries that derive a balance from CONFIRMED entries.
  - The transactional use cases: credit, debit, reserve, confirm, reverse, transfer, read a wallet, set a wallet's status, settlement reconciliation, and user, wallet and vendor provisioning.
  - The transactional outbox relay.
  - The role-set column converter.
  - The idempotency cache wrapped around the money-moving endpoints of `WalletController` and `LedgerController`.
- **The payout saga (`payout-orchestrator-service`).**
  - The `Payout` aggregate and its state machine CREATED → PROCESSING → SETTLED | FAILED.
  - `PayoutOrchestrationService` over an abstract wallet-service port.
  - The commission split.
  - The mock payment webhook, which credits escrow and splits an order between vendor and platform.

Conventions used throughout:

- **Amounts.** An amount is an integer number of units of 10^-4, because `Money` keeps every amount at scale 4 with `HALF_UP` rounding. A raw `BigDecimal` is kept as `Decimal(unscaled, scale)` only where the code handles one before it becomes a `Money`: a request amount, a transfer leg, a commission percentage, a payout amount.
- **Use cases.** A ledger use case is a pure function from a `LedgerState` to `Result<(LedgerState, output), Error>`. A `Failure` returns no state. This is the rollback of the `@Transactional` method: nothing the call wrote survives.
- **Ids, instants and the ISO table.** The state's `nextId` counter stands for `UUID.randomUUID()`: every new id is drawn from it, and `Valid` says every stored id is below it. Instants are `now` parameters. The JDK table of ISO 4217 codes is the state's `iso` set, which nothing changes.
- **The wallet-service port.** The orchestrator's calls are recorded as `PortCall` values. The reply to each call is an input, so every answer the remote service could give is covered. An operation returns `Attempt(result, calls)`, and the calls stay recorded after a failure, because a local rollback does not undo a remote effect.
- **Corrected definitions.** For each defect under "## Findings", the model keeps the use case as written, with its own lemmas, next to a corrected definition. The transfer and reverse endpoints (`WalletController.TransferFunds`, `LedgerController.Reverse`) are composed with the corrected transfer and release; "## Left out" says what that changes. The other use cases keep calling the code as written.

Some behaviour of the code is easy to misread; the model follows the code:

- Credit, reserve and transfer load the wallet and check its status, currency and balance before the idempotency lookup by reference (`user-wallet-service/src/main/java/com/orchexpay/walletledger/services/CreditWalletUseCase.java:38-47`, `user-wallet-service/src/main/java/com/orchexpay/walletledger/services/ReserveWalletUseCase.java:37-49`, `user-wallet-service/src/main/java/com/orchexpay/walletledger/services/TransferUseCase.java:47-56`). A replay against a wallet frozen since the first call therefore fails.
- Debit makes no idempotency lookup at all (`user-wallet-service/src/main/java/com/orchexpay/walletledger/services/DebitWalletUseCase.java:40-55`): a second debit with the same reference is refused by the unique index.
- An idempotent replay through the controllers answers 200 with the cached body, where the first call answered 201 (`user-wallet-service/src/main/java/com/orchexpay/walletledger/controllers/WalletController.java:107` against `:114`).
- Reversing an entry that is already REVERSED answers with the stored reversal credit, or with the entry itself when there is none (`user-wallet-service/src/main/java/com/orchexpay/walletledger/services/ReverseReservationUseCase.java:33-39`).
- `requestPayout` moves the payout to PROCESSING before it calls reserve (`payout-orchestrator-service/src/main/java/com/orchexpay/payoutorchestrator/services/PayoutOrchestrationService.java:64-67`), although the method's own comment at line 38 puts the step after the call.

## Model

| member | source | states |
|---|---|---|
| Monetary.RoundHalfUp | user-wallet-service/src/main/java/com/orchexpay/walletledger/models/Money.java:28 | The result is the integer nearest to n/d, with ties rounded away from zero, for both signs of n. |
| Monetary.SetScale4 | user-wallet-service/src/main/java/com/orchexpay/walletledger/models/Money.java:28 | `setScale(4, HALF_UP)` gives the unit count within half a unit of the exact value, for both signs. A tie is rounded away from zero, a non-negative value never rounds below zero and a negative one never above it. |
| Monetary.SetScale4OfUnits | user-wallet-service/src/main/java/com/orchexpay/walletledger/models/Money.java:28 | A value already at scale 4 is kept exactly by the rounding. |
| Monetary.SetScale4Add | user-wallet-service/src/main/java/com/orchexpay/walletledger/models/Money.java:36-39 | For values of at most four decimals, rounding to scale 4 carries an exact sum over, so adding exactly and then rounding equals rounding each and adding. |
| Monetary.CompareExact | user-wallet-service/src/main/java/com/orchexpay/walletledger/services/TransferUseCase.java:52-55 | For values of at most four decimals, numeric equality under `compareTo` holds exactly when the unit counts are equal. |
| Monetary.RoundedNotAbove | user-wallet-service/src/main/java/com/orchexpay/walletledger/services/TransferUseCase.java:62-65 | A non-negative amount that a balance covers exactly is still covered once rounded to four decimals. |
| Monetary.CurrencyOf | user-wallet-service/src/main/java/com/orchexpay/walletledger/models/Currency.java:17-27 | A null code fails the `@NonNull` check. A code whose length is not 3 is refused. A three-letter code is accepted exactly when its upper-case form is a known ISO 4217 code, and is otherwise refused as unknown; an accepted code is stored upper-cased. |
| Monetary.CurrencyOfIgnoresCase | user-wallet-service/src/main/java/com/orchexpay/walletledger/models/Currency.java:21 | Two codes equal up to ASCII case give the same currency, or the same failure, so "inr" and "INR" are equal currencies. |
| Monetary.CurrencyOfNormalises | user-wallet-service/src/main/java/com/orchexpay/walletledger/models/Currency.java:12-22 | A validated currency's own code validates again to the same currency, so currency equality is equality of the stored code. |
| Monetary.NewMoney | user-wallet-service/src/main/java/com/orchexpay/walletledger/models/Money.java:24-30 | The constructor refuses exactly the negative amounts. It keeps the currency, and stores the amount rounded HALF_UP to the nearest 10^-4. |
| Monetary.MoneyOf | user-wallet-service/src/main/java/com/orchexpay/walletledger/models/Money.java:32-34 | `Money.of` validates the code first. An invalid code never yields a Money, and a valid one builds the Money in that currency. |
| Monetary.NewMoneyOfUnits | user-wallet-service/src/main/java/com/orchexpay/walletledger/models/Money.java:24-30 | An amount already at scale 4 makes a Money with exactly that amount. |
| Monetary.Add | user-wallet-service/src/main/java/com/orchexpay/walletledger/models/Money.java:36-39 | `add` fails with a currency mismatch exactly when the currencies differ. Otherwise it returns the exact sum in the shared currency. |
| Monetary.Subtract | user-wallet-service/src/main/java/com/orchexpay/walletledger/models/Money.java:41-54 | Different currencies give a mismatch. A result that would be negative is refused. Success holds exactly when the currencies agree and the subtrahend is not larger, and the difference added back gives the minuend. |
| Monetary.AddThenSubtract | user-wallet-service/src/main/java/com/orchexpay/walletledger/models/Money.java:36-48 | Subtracting what was added gives back the original money (inverse pair). |
| Monetary.IsZeroIsIdentity | user-wallet-service/src/main/java/com/orchexpay/walletledger/models/Money.java:56-58 | `isZero` holds exactly for the money that leaves any amount of its currency unchanged when added. |
| LedgerEntries.LedgerEntry.GetAmount | user-wallet-service/src/main/java/com/orchexpay/walletledger/models/LedgerEntry.java:86-88 | `getAmount` succeeds exactly when the stored code is a currency, and then gives the stored amount in that currency. |
| LedgerEntries.StatusStepTransitive | user-wallet-service/src/main/java/com/orchexpay/walletledger/models/LedgerEntry.java:28-30 | Permitted changes of a persisted entry compose: only PENDING entries ever change, and CONFIRMED and REVERSED are final. |
| LedgerEntries.StatusStepContribution | user-wallet-service/src/main/java/com/orchexpay/walletledger/models/LedgerEntry.java:25-30 | A permitted change keeps the entry's key, id and amount. It changes the entry's contribution to a balance only by confirming a PENDING entry of that wallet. |
| Wallets.Wallet.GetWalletType | user-wallet-service/src/main/java/com/orchexpay/walletledger/models/Wallet.java:64-67 | A stored type is returned as it is, and a null (legacy) type reads as MAIN. |
| Wallets.Wallet.Balance | user-wallet-service/src/main/java/com/orchexpay/walletledger/models/Wallet.java:78-83 | The computed balance is returned unchanged exactly when it is in the wallet's currency; a different currency is refused with a mismatch. |
| LedgerEntryFactory.CreateCredit | user-wallet-service/src/main/java/com/orchexpay/walletledger/utils/LedgerEntryFactory.java:23-40 | The entry is a CREDIT with the given id and instant. The wallet, merchant, vendor, amount and currency code are copied. An absent reference type reads ORDER, an absent reference id and description read "", and an absent status reads CONFIRMED. |
| LedgerEntryFactory.CreateDebit | user-wallet-service/src/main/java/com/orchexpay/walletledger/utils/LedgerEntryFactory.java:45-62 | The same as `createCredit`, but the entry is a DEBIT. |
| LedgerEntryFactory.CreditDebitDifferOnlyInType | user-wallet-service/src/main/java/com/orchexpay/walletledger/utils/LedgerEntryFactory.java:23-62 | The two factory methods build entries that differ in the entry type and in nothing else. |
| LedgerEntryFactory.GivenArgumentsKept | user-wallet-service/src/main/java/com/orchexpay/walletledger/utils/LedgerEntryFactory.java:34-37 | Defaults apply only to absent arguments; given ones are stored as they are. |
| LedgerEntryFactory.GetAmountRoundTrip | user-wallet-service/src/main/java/com/orchexpay/walletledger/models/LedgerEntry.java:86-88 | Reading back the amount of a built entry with `getAmount` gives back the Money it was built from. |
| LedgerRepository.BalanceDecomposition | user-wallet-service/src/main/java/com/orchexpay/walletledger/repositories/JpaLedgerEntryRepository.java:25-51 | The derived balance equals the confirmed credits less the confirmed debits of the four reference types. |
| LedgerRepository.BalanceCountsOnlyConfirmed | user-wallet-service/src/main/java/com/orchexpay/walletledger/repositories/JpaLedgerEntryRepository.java:25-32 | The balance equals the signed sum over the CONFIRMED entries alone. PENDING and REVERSED entries never count. |
| LedgerRepository.ConfirmedMembers | user-wallet-service/src/main/java/com/orchexpay/walletledger/repositories/JpaLedgerEntryRepository.java:28-32 | The entries the balance query selects are exactly the stored entries whose status is CONFIRMED. |
| LedgerRepository.LegacySumIsNotBalance | user-wallet-service/src/main/java/com/orchexpay/walletledger/repositories/JpaLedgerEntryRepository.java:34-39 | The legacy sum is the balance plus the signed amounts of the wallet's PENDING and REVERSED entries. When those are all debits, as reservations are, the legacy sum equals the balance exactly when each of them is for zero. |
| LedgerRepository.UnconfirmedDebits | user-wallet-service/src/main/java/com/orchexpay/walletledger/repositories/JpaLedgerEntryRepository.java:34-39 | A wallet's unconfirmed entries, when all are debits, sum to at most zero, and to zero exactly when each is for zero. |
| LedgerRepository.BalanceAppend | user-wallet-service/src/main/java/com/orchexpay/walletledger/repositories/LedgerEntryRepositoryAdapter.java:25-39 | Saving one more entry changes a wallet's balance by exactly that entry's contribution. |
| LedgerRepository.BalanceConcat | user-wallet-service/src/main/java/com/orchexpay/walletledger/repositories/LedgerEntryRepositoryAdapter.java:36-39 | The balance over two runs of entries is the sum of their balances. |
| LedgerRepository.BalanceOfOtherWallets | user-wallet-service/src/main/java/com/orchexpay/walletledger/repositories/JpaLedgerEntryRepository.java:25-32 | Entries of other wallets add nothing to a wallet's balance. |
| LedgerRepository.BalanceUpdate | user-wallet-service/src/main/java/com/orchexpay/walletledger/repositories/JpaLedgerEntryRepository.java:25-32 | Changing one entry changes the balance by the difference of its two contributions. |
| LedgerRepository.FindIndexById | user-wallet-service/src/main/java/com/orchexpay/walletledger/repositories/LedgerEntryRepositoryAdapter.java:31-33 | `findById` finds an entry carrying that id, and finds none exactly when no entry has it. |
| LedgerRepository.FindByKey | user-wallet-service/src/main/java/com/orchexpay/walletledger/repositories/LedgerEntryRepositoryAdapter.java:53-55 | The lookup by (wallet, reference id, reference type) finds a stored entry with that key, and finds none exactly when no entry has that key. |
| LedgerRepository.FindByKeyUnique | user-wallet-service/src/main/java/com/orchexpay/walletledger/models/LedgerEntry.java:36 | Under the unique index the key determines the entry: the lookup returns the one entry holding it. |
| LedgerRepository.FindFiltered | user-wallet-service/src/main/java/com/orchexpay/walletledger/repositories/LedgerEntryRepositoryAdapter.java:70-97 | `findFiltered` returns exactly the stored entries that satisfy the conjunction of the supplied criteria. |
| LedgerRepository.NoFilterReturnsAll | user-wallet-service/src/main/java/com/orchexpay/walletledger/repositories/LedgerEntryRepositoryAdapter.java:70-97 | With no criterion supplied, every entry is returned, in order. |
| LedgerRepository.BoundsInclusive | user-wallet-service/src/main/java/com/orchexpay/walletledger/repositories/LedgerEntryRepositoryAdapter.java:78-89 | The date and amount bounds include both ends. On any entries, bounds that pin one instant and one amount at both ends return exactly the entries created at that instant for that amount. |
| LedgerRepository.EqualityCriteria | user-wallet-service/src/main/java/com/orchexpay/walletledger/repositories/LedgerEntryRepositoryAdapter.java:72-95 | The wallet, reference-type and status criteria select exactly the entries equal to those values. |
| LedgerStore.EvolvesTransitive | user-wallet-service/src/main/java/com/orchexpay/walletledger/models/LedgerEntry.java:28-30 | The immutability rule composes over several calls: entries only accumulate, and each changes at most by permitted status steps. |
| LedgerStore.EvolvesByAppend | user-wallet-service/src/main/java/com/orchexpay/walletledger/repositories/LedgerEntryRepositoryAdapter.java:25-28 | Saving new entries changes none of the existing ones. |
| LedgerStore.FindWallet | user-wallet-service/src/main/java/com/orchexpay/walletledger/services/CreditWalletUseCase.java:38-39 | The wallet lookup by id finds a wallet with that id, and finds none exactly when none is stored. |
| LedgerStore.FindWalletByKey | user-wallet-service/src/main/java/com/orchexpay/walletledger/services/SettlementCalculationUseCase.java:32-33 | The single-row lookup by (merchant, currency, type, vendor), with a null argument matching a null column: it finds nothing exactly when no row has the key, finds the one row when exactly one has it, and fails with `IncorrectResultSizeDataAccessException` exactly when two rows have it. |
| LedgerStore.FindWalletUpdate | user-wallet-service/src/main/java/com/orchexpay/walletledger/services/UpdateWalletStatusUseCase.java:24-26 | After a wallet's row is saved, reading it by id gives the saved row, and reads of other ids are unaffected. |
| LedgerStore.FindUser | user-wallet-service/src/main/java/com/orchexpay/walletledger/services/CreateUserUseCase.java:56-58 | The lookup by username finds a user with that name, and finds none exactly when none is stored. |
| LedgerStore.FindUserById | user-wallet-service/src/main/java/com/orchexpay/walletledger/services/CreateWalletUseCase.java:48-52 | The lookup by id finds a user with that id, and finds none exactly when none is stored. |
| LedgerStore.LoadActiveWallet | user-wallet-service/src/main/java/com/orchexpay/walletledger/services/CreditWalletUseCase.java:38-45 | The opening checks, in order: an unknown wallet is WalletNotFound, an inactive one is refused, and success holds exactly when the wallet exists, is ACTIVE and is in the amount's currency. |
| LedgerStore.FreshIsNew | user-wallet-service/src/main/java/com/orchexpay/walletledger/utils/LedgerEntryFactory.java:27 | In a valid state the next id is held by no entry, wallet or user, and drawing it keeps the state valid. |
| LedgerStore.Fresh | user-wallet-service/src/main/java/com/orchexpay/walletledger/utils/LedgerEntryFactory.java:27 | Drawing an id changes nothing but the id source. In a valid state the id is held by no entry, wallet or user, and the state stays valid. |
| LedgerStore.InsertEntry | user-wallet-service/src/main/java/com/orchexpay/walletledger/models/LedgerEntry.java:36 | Saving a new entry fails exactly when its (wallet, reference id, reference type) is taken. Otherwise the entry is appended, and a valid ledger stays valid. |
| LedgerStore.SetStatus | user-wallet-service/src/main/java/com/orchexpay/walletledger/services/ConfirmReservationUseCase.java:38-40 | Saving an entry whose status was set rewrites that one entry and nothing else, and keeps the state valid. |
| LedgerStore.InsertWallet | user-wallet-service/src/main/java/com/orchexpay/walletledger/models/Wallet.java:26-28 | Saving a new wallet fails exactly when a stored wallet has the same key with a wallet type and a vendor: the unique constraint never clashes on NULL, so MAIN and ESCROW duplicates are stored. Otherwise the wallet is appended and validity is kept. |
| LedgerStore.UpdateWallet | user-wallet-service/src/main/java/com/orchexpay/walletledger/services/UpdateWalletStatusUseCase.java:24-26 | Saving a loaded wallet replaces its row only and keeps the state valid. |
| LedgerStore.InsertUser | user-wallet-service/src/main/java/com/orchexpay/walletledger/domain/model/User.java:39 | Saving a new user fails exactly when the username is taken. Otherwise the user is stored with its defaults filled, and the state stays valid. |
| LedgerStore.Publish | user-wallet-service/src/main/java/com/orchexpay/walletledger/services/CreditWalletUseCase.java:56-64 | Publishing an event appends exactly one unpublished outbox record carrying it, and keeps the state valid. |
| Users.EnsureDefaults | user-wallet-service/src/main/java/com/orchexpay/walletledger/domain/model/User.java:63-69 | Afterwards no field is null. Every non-null field is untouched, and null roles and status become the empty set and ACTIVE. |
| Users.EnsureDefaultsIdempotent | user-wallet-service/src/main/java/com/orchexpay/walletledger/domain/model/User.java:63-69 | Filling defaults twice equals filling them once, whatever id and instant the second call draws, and a complete user is left as it is. |
| Users.NoRolesNoRole | user-wallet-service/src/main/java/com/orchexpay/walletledger/domain/model/User.java:75-77 | `hasRole` is false when the roles are null, and stays false after the defaults fill them with the empty set. |
| RoleSetConverter.ValueOf | user-wallet-service/src/main/java/com/orchexpay/walletledger/infrastructure/persistence/converter/RoleSetConverter.java:26 | `Role.valueOf` accepts exactly a role's own name and fails otherwise. |
| RoleSetConverter.ValueOfName | user-wallet-service/src/main/java/com/orchexpay/walletledger/infrastructure/persistence/converter/RoleSetConverter.java:26 | Every role's name reads back as that role. |
| RoleSetConverter.Encode | user-wallet-service/src/main/java/com/orchexpay/walletledger/infrastructure/persistence/converter/RoleSetConverter.java:16-19 | The column is "" exactly for a null or empty set. |
| RoleSetConverter.Decode | user-wallet-service/src/main/java/com/orchexpay/walletledger/infrastructure/persistence/converter/RoleSetConverter.java:22-23 | A null or blank column reads as the empty set. |
| RoleSetConverter.DecodePieces | user-wallet-service/src/main/java/com/orchexpay/walletledger/infrastructure/persistence/converter/RoleSetConverter.java:24-27 | Reading the pieces succeeds exactly when every trimmed piece names a role, and then gives exactly the roles named. |
| RoleSetConverter.SplitJoinNames | user-wallet-service/src/main/java/com/orchexpay/walletledger/infrastructure/persistence/converter/RoleSetConverter.java:18-24 | Splitting the stored column on "," gives back exactly the names that were joined. |
| RoleSetConverter.DecodeJoinedNames | user-wallet-service/src/main/java/com/orchexpay/walletledger/infrastructure/persistence/converter/RoleSetConverter.java:18-27 | The column written for a non-empty listing reads back as exactly the roles listed. |
| RoleSetConverter.DecodeEncode | user-wallet-service/src/main/java/com/orchexpay/walletledger/infrastructure/persistence/converter/RoleSetConverter.java:16-28 | Round trip: whatever order the set's stream lists it in, reading back the written column gives the same role set. |
| Outbox.Unpublished | user-wallet-service/src/main/java/com/orchexpay/walletledger/events/OutboxKafkaRelay.java:32 | The positions listed are exactly the unpublished records, oldest first. |
| Outbox.Batch | user-wallet-service/src/main/java/com/orchexpay/walletledger/events/OutboxKafkaRelay.java:24-32 | A batch holds at most 100 unpublished records, oldest first. An unpublished record is left out only of a full batch, and only when it is newer than every record taken. |
| Outbox.Relay | user-wallet-service/src/main/java/com/orchexpay/walletledger/events/OutboxKafkaRelay.java:31-44 | The run hands the batch to `send` in order and marks a prefix of it published: every record before the stop was handed over without an exception, the first `send` that throws stops the run, and no other record changes. A record marked published need not have reached the broker. |
| Outbox.SendInOrder | user-wallet-service/src/main/java/com/orchexpay/walletledger/events/OutboxKafkaRelay.java:33-43 | The loop, for any increasing batch: the published records form a prefix whose sends succeeded, it stops at the first failure, and every other record is untouched. |
| Outbox.PublishedNotFetchedAgain | user-wallet-service/src/main/java/com/orchexpay/walletledger/events/OutboxKafkaRelay.java:32 | A record one run published is never in the next run's batch. |
| IdempotencyStore.GetIfPresent | user-wallet-service/src/main/java/com/orchexpay/walletledger/configs/IdempotencyStore.java:11-15 | A key is present exactly when a body is stored under it, and then that body is returned. |
| IdempotencyStore.Put | user-wallet-service/src/main/java/com/orchexpay/walletledger/configs/IdempotencyStore.java:17-20 | After `put`, the key reads back the new body, and every other key reads as before. |
| IdempotencyStore.Evict | user-wallet-service/src/main/java/com/orchexpay/walletledger/controllers/WalletController.java:113 | The TTL running out for a key makes it absent, and every other key reads as before. |
| CreditWallet.Execute | user-wallet-service/src/main/java/com/orchexpay/walletledger/services/CreditWalletUseCase.java:37-67 | A failed wallet check is returned first, and otherwise the credit succeeds. An existing entry for the key is returned whatever its amount, with nothing written. Otherwise exactly one CONFIRMED CREDIT and one WalletCredited event are added, and the balance rises by the amount. The ledger only grows and stays valid. |
| CreditWallet.AppendCredit | user-wallet-service/src/main/java/com/orchexpay/walletledger/services/CreditWalletUseCase.java:52-64 | The first call's writes under a free key: one confirmed credit of the amount, one event, and the balance raised by exactly the amount. |
| CreditWallet.ReplayIsIdempotent | user-wallet-service/src/main/java/com/orchexpay/walletledger/services/CreditWalletUseCase.java:47-51 | Repeating a successful credit returns the same entry and writes nothing, even with a different amount. |
| DebitWallet.Execute | user-wallet-service/src/main/java/com/orchexpay/walletledger/services/DebitWalletUseCase.java:39-68 | Wallet checks come first; a balance below the amount is InsufficientBalance. With funds, the call fails exactly when the key is taken (on the unique index). On success exactly one CONFIRMED DEBIT and one WalletDebited event are added, and the balance falls by the amount and stays non-negative. |
| DebitWallet.RetryFails | user-wallet-service/src/main/java/com/orchexpay/walletledger/services/DebitWalletUseCase.java:52-56 | Debit is not idempotent: a retry of a successful debit always fails, on the unique index while funds remain and on the balance check otherwise. |
| ReserveWallet.Execute | user-wallet-service/src/main/java/com/orchexpay/walletledger/services/ReserveWalletUseCase.java:36-64 | Wallet checks, then the funds check, and only then the lookup. An existing PENDING reservation is returned unchanged, and one in another status is refused. Otherwise one PENDING PAYOUT debit is appended with no event. No balance changes, and the ledger stays valid. |
| ReserveWallet.PendingReplay | user-wallet-service/src/main/java/com/orchexpay/walletledger/services/ReserveWalletUseCase.java:49-55 | Repeating a successful reservation returns the same entry and writes nothing. |
| ConfirmReservation.Execute | user-wallet-service/src/main/java/com/orchexpay/walletledger/services/ConfirmReservationUseCase.java:28-42 | An unknown entry is not found. A REVERSED entry, and only that, is refused. A CONFIRMED entry is returned unchanged. A PENDING entry alone becomes CONFIRMED, its wallet's balance moves by its signed amount with no funds check, and every other wallet is unchanged. |
| ConfirmReservation.ConfirmIdempotent | user-wallet-service/src/main/java/com/orchexpay/walletledger/services/ConfirmReservationUseCase.java:31-34 | Confirming again returns the confirmed entry and writes nothing. |
| ConfirmReservation.ReversedStaysReversed | user-wallet-service/src/main/java/com/orchexpay/walletledger/services/ConfirmReservationUseCase.java:35-37 | A reversed reservation can never be confirmed. |
| ReverseReservation.ReversalKeyDiffers | user-wallet-service/src/main/java/com/orchexpay/walletledger/services/ReverseReservationUseCase.java:43-51 | A reservation's key never equals the key of its own compensating credit. |
| ReverseReservation.ReverseFresh | user-wallet-service/src/main/java/com/orchexpay/walletledger/services/ReverseReservationUseCase.java:51-59 | A first reversal with no stored credit appends a CONFIRMED REVERSAL credit of the same amount under `<ref>-reversal` and flips the entry to REVERSED. This raises its wallet's balance by the amount and no other. It fails only when the amount cannot be read back as Money. |
| ReverseReservation.Execute | user-wallet-service/src/main/java/com/orchexpay/walletledger/services/ReverseReservationUseCase.java:30-60 | Not found, CONFIRMED refused, REVERSED answered with its stored credit (or itself) and nothing written, PENDING flipped with a stored credit reused or a new one appended. No other wallet's balance changes, and the ledger stays valid. |
| ReverseReservation.FlipKeepsBalances | user-wallet-service/src/main/java/com/orchexpay/walletledger/services/ReverseReservationUseCase.java:43-50 | Marking a PENDING entry REVERSED changes no balance. |
| ReverseReservation.ReverseIdempotent | user-wallet-service/src/main/java/com/orchexpay/walletledger/services/ReverseReservationUseCase.java:33-50 | On a valid ledger, reversing again returns the same entry and writes nothing, so at most one compensating credit is ever created. |
| GetWallet.Execute | user-wallet-service/src/main/java/com/orchexpay/walletledger/services/GetWalletUseCase.java:27-33 | An unknown wallet is not found. The read succeeds exactly when the wallet's code is a currency and its derived balance is not negative, and a negative balance fails in `Money.of`. The result is the stored wallet with its derived balance in the wallet's currency. |
| UpdateWalletStatus.Execute | user-wallet-service/src/main/java/com/orchexpay/walletledger/services/UpdateWalletStatusUseCase.java:21-27 | An unknown wallet is the only failure, so any status may be set from any status. Only that wallet's status and instant change, and other lookups are unaffected. |
| UpdateWalletStatus.InactiveRefusesMovements | user-wallet-service/src/main/java/com/orchexpay/walletledger/services/UpdateWalletStatusUseCase.java:24 | After a status other than ACTIVE is set, the wallet refuses both credits and debits. |
| Settlement.Execute | user-wallet-service/src/main/java/com/orchexpay/walletledger/services/SettlementCalculationUseCase.java:31-59 | With no ESCROW wallet the result is all zero and reconciled. With two ESCROW wallets under the key the call fails, as the single-row lookup throws. Otherwise the sums are the repository's for the one ESCROW wallet, and the expected balance is the net balance plus the confirmed ORDER and REVERSAL debits, which it leaves out. |
| Settlement.ReconciledIff | user-wallet-service/src/main/java/com/orchexpay/walletledger/services/SettlementCalculationUseCase.java:38-43 | When the reconciliation answers, the escrow is reconciled exactly when there is none, or it carries no confirmed ORDER or REVERSAL debit; any order split leaves it unreconciled. |
| Settlement.SettlesOnDistinctKeys | user-wallet-service/src/main/java/com/orchexpay/walletledger/services/SettlementCalculationUseCase.java:32-36 | While no two wallets share a key, the reconciliation always answers. |
| Settlement.DuplicateEscrowBlocksSettlement | user-wallet-service/src/main/java/com/orchexpay/walletledger/services/CreateWalletUseCase.java:53-69 | Creating an ESCROW wallet twice with a lower-case code succeeds twice, after which the reconciliation for that merchant and currency fails. |
| Transfer.LegCredit | user-wallet-service/src/main/java/com/orchexpay/walletledger/services/TransferUseCase.java:73-82 | One leg passes exactly when its wallet exists, is ACTIVE and its amount makes a Money; an unknown wallet is WalletNotFound. A passing leg yields a confirmed ORDER credit of the rounded amount under the shared reference, with the UUID drawn for it. |
| Transfer.CreditLegs | user-wallet-service/src/main/java/com/orchexpay/walletledger/services/TransferUseCase.java:72-86 | The loop succeeds exactly when every leg passes its checks, and then yields one credit per leg in leg order, each the leg's confirmed credit, with consecutive fresh ids. A taken key cannot fail the loop: the saves' INSERTs wait for the commit. |
| Transfer.RefusedLegFailsLoop | user-wallet-service/src/main/java/com/orchexpay/walletledger/services/TransferUseCase.java:72-86 | When every leg before leg k passes and leg k does not, the loop fails with leg k's own error, whatever the later legs are. |
| Transfer.Flush | user-wallet-service/src/main/java/com/orchexpay/walletledger/repositories/LedgerEntryRepositoryAdapter.java:25-28 | At the commit the pending INSERTs run in save order. The commit succeeds exactly when no pending entry's key is held by a stored entry or an earlier pending one, and then appends the entries in order; otherwise it fails with DataIntegrityViolation. |
| Transfer.FlushKeepsValid | user-wallet-service/src/main/java/com/orchexpay/walletledger/repositories/LedgerEntryRepositoryAdapter.java:25-28 | Flushing entries whose ids are consecutive fresh ids keeps the ledger valid. |
| Transfer.LegBatchFree | user-wallet-service/src/main/java/com/orchexpay/walletledger/services/TransferUseCase.java:72-86 | The legs' credits pass the flush against some entries exactly when no two legs share a wallet and none of the entries holds a leg's key. |
| Transfer.TransferBatchFree | user-wallet-service/src/main/java/com/orchexpay/walletledger/services/TransferUseCase.java:66-86 | The debit followed by the credits pass the flush exactly when the debit's key is free, no two legs share a wallet, no leg credits the source, and no stored entry holds a leg's key. |
| Transfer.TotalOfLegCredits | user-wallet-service/src/main/java/com/orchexpay/walletledger/services/TransferUseCase.java:72-86 | The credits add up to the legs' amounts as each is rounded. |
| Transfer.Settle | user-wallet-service/src/main/java/com/orchexpay/walletledger/services/TransferUseCase.java:56-88 | An existing ORDER debit of the source answers "reused" with nothing written. A balance below the total is refused. Otherwise the debit and credits described by `Settled` are written, and the ledger stays valid. |
| Transfer.SourceDebit | user-wallet-service/src/main/java/com/orchexpay/walletledger/services/TransferUseCase.java:66-70 | The source's debit is a CONFIRMED ORDER DEBIT of the total on the source wallet, under the transfer's reference. |
| Transfer.DebitThenCredit | user-wallet-service/src/main/java/com/orchexpay/walletledger/services/TransferUseCase.java:66-88 | A covered transfer is written exactly when the total makes a Money, every leg passes, no two legs share a wallet, no leg credits the source, and no stored entry holds the debit's key or a leg's key. Once the total and every leg pass, the only failure left is DataIntegrityViolation at the commit. A written transfer is the source's debit followed by the legs' credits; the ledger only grows and stays valid. |
| Transfer.RefusedLegBeforeClash | user-wallet-service/src/main/java/com/orchexpay/walletledger/services/TransferUseCase.java:71-88 | A refused leg is reported ahead of any key clash. When every earlier leg passes, an unknown destination gives WalletNotFound even if the earlier legs repeat a wallet or a key is already taken. |
| Transfer.SettleEffects | user-wallet-service/src/main/java/com/orchexpay/walletledger/services/TransferUseCase.java:66-86 | After the writes, the source's balance has fallen by the debit and stays non-negative. Every other wallet gains exactly its leg credits. |
| Transfer.Execute | user-wallet-service/src/main/java/com/orchexpay/walletledger/services/TransferUseCase.java:45-89 | An unknown source is not found and an inactive one is refused. A total that differs numerically from the exact sum of the legs is refused before anything else is looked at. A failing leg rolls everything back. |
| Transfer.ExactTransferConserves | user-wallet-service/src/main/java/com/orchexpay/walletledger/services/TransferUseCase.java:66-86 | When the total and the legs have at most four decimals, a transfer's debit equals the sum of its credits: it creates and destroys no money. |
| Transfer.SumLegsExact | user-wallet-service/src/main/java/com/orchexpay/walletledger/services/TransferUseCase.java:52-55 | For legs of at most four decimals the exact sum rounds to the sum of the rounded legs. |
| CreateUser.ReportDuplicate | user-wallet-service/src/main/java/com/orchexpay/walletledger/services/CreateUserUseCase.java:88-91 | A unique-index violation is reported as UserAlreadyExists; every other outcome passes through. |
| CreateUser.Precheck | user-wallet-service/src/main/java/com/orchexpay/walletledger/services/CreateUserUseCase.java:47-58 | No roles is refused first. The checks pass exactly when roles are given without VENDOR, a MERCHANT has a non-blank currency, and the username is free. |
| CreateUser.MerchantWallets | user-wallet-service/src/main/java/com/orchexpay/walletledger/services/CreateUserUseCase.java:77-82 | A merchant's MAIN and ESCROW wallets are both created, ACTIVE and in the upper-cased code, exactly when the currency is valid and neither key exists as given; the unique index never refuses a wallet without a vendor. |
| CreateUser.Execute | user-wallet-service/src/main/java/com/orchexpay/walletledger/services/CreateUserUseCase.java:46-92 | A failed check fails the whole call; a non-merchant always succeeds. The user is stored ACTIVE with exactly the requested roles. Exactly a MERCHANT gets a fresh merchant id and exactly one MAIN and one ESCROW wallet, in the trimmed upper-case currency, whose ids are returned. |
| CreateWallet.Execute | user-wallet-service/src/main/java/com/orchexpay/walletledger/services/CreateWalletUseCase.java:41-80 | Type and vendor must agree, and a VENDOR wallet's user must be a vendor of the merchant. A key that exists as given is refused. Success holds exactly when these pass, the code is a currency, and, for a VENDOR wallet, no stored wallet holds the upper-cased key. The wallet is ACTIVE, and one WalletCreated event is added. |
| CreateWallet.ExecuteMain | user-wallet-service/src/main/java/com/orchexpay/walletledger/services/CreateWalletUseCase.java:33-35 | The two-argument overload creates a MAIN wallet with no vendor. |
| CreateWallet.CreateAgain | user-wallet-service/src/main/java/com/orchexpay/walletledger/services/CreateWalletUseCase.java:53-69 | Creating the same wallet again fails exactly when the code is upper case (on the duplicate check) or the wallet is a VENDOR wallet (on the unique index). A MAIN or ESCROW wallet asked for in lower case is created again, and two rows then carry one key. |
| CreateWallet.ExecuteNormalised | user-wallet-service/src/main/java/com/orchexpay/walletledger/services/CreateWalletUseCase.java:53-57 | The corrected creation checks the key the wallet is stored under: it succeeds exactly when the arguments are admissible, the code is a currency and that key does not exist, and it keeps keys distinct. |
| CreateWallet.NormalisedAgreesOnUpperCase | user-wallet-service/src/main/java/com/orchexpay/walletledger/services/CreateUserUseCase.java:78-79 | On an upper-case code, which the service's callers always pass, the corrected and the written creation agree. |
| CreateWallet.CreateAgainNormalisedFails | user-wallet-service/src/main/java/com/orchexpay/walletledger/services/CreateWalletUseCase.java:53-55 | Under the corrected creation a second request for the same wallet always fails with WalletAlreadyExists, whatever the case of the code. |
| AddVendor.VendorCurrency | user-wallet-service/src/main/java/com/orchexpay/walletledger/services/AddVendorUseCase.java:31-41 | An absent or blank code defaults to INR. Otherwise the code is trimmed and upper-cased, so the result is always upper case. |
| AddVendor.SaveVendorUser | user-wallet-service/src/main/java/com/orchexpay/walletledger/services/AddVendorUseCase.java:47-57 | The vendor user is saved ACTIVE, with roles exactly {VENDOR} under the merchant, and is found by its id. |
| AddVendor.Execute | user-wallet-service/src/main/java/com/orchexpay/walletledger/services/AddVendorUseCase.java:38-66 | A taken username is UserAlreadyExists, and an invalid currency fails. On a valid ledger, success holds exactly when neither happens. Then one vendor user and exactly one VENDOR wallet for (merchant, currency, VENDOR, user) are added, and the wallet's id is returned. |
| WalletController.RefTypeValueOf | user-wallet-service/src/main/java/com/orchexpay/walletledger/controllers/WalletController.java:110 | `ReferenceType.valueOf` accepts exactly a constant's name. |
| WalletController.RequestedRefType | user-wallet-service/src/main/java/com/orchexpay/walletledger/controllers/WalletController.java:110 | An absent type is ORDER. A given one succeeds exactly when its upper-cased text names a constant, and then gives that constant. |
| WalletController.RequestedRefTypeOfName | user-wallet-service/src/main/java/com/orchexpay/walletledger/controllers/WalletController.java:110 | Every constant's own name is accepted as that constant. |
| WalletController.ToTransferResponse | user-wallet-service/src/main/java/com/orchexpay/walletledger/controllers/WalletController.java:190-199 | A reused transfer maps to the idempotent response with no debit and no credits. Any other keeps its entries. |
| WalletController.Credit | user-wallet-service/src/main/java/com/orchexpay/walletledger/controllers/WalletController.java:101-115 | A cached key answers 200 with the stored body and runs nothing. A fresh key succeeds exactly when the money, the type and the credit do, and then caches the entry and answers 201. |
| WalletController.Debit | user-wallet-service/src/main/java/com/orchexpay/walletledger/controllers/WalletController.java:119-133 | The same cache discipline around the debit. |
| WalletController.VendorMayReserve | user-wallet-service/src/main/java/com/orchexpay/walletledger/controllers/WalletController.java:147-155 | An anonymous caller passes. An unknown user fails. A VENDOR passes exactly when the wallet reads and is linked to their own user id, and is otherwise denied. |
| WalletController.Reserve | user-wallet-service/src/main/java/com/orchexpay/walletledger/controllers/WalletController.java:142-165 | The vendor check runs before the cache, so even a replay is refused to a vendor who does not own the wallet. Otherwise it follows the cache discipline around the reservation. |
| WalletController.TransferFunds | user-wallet-service/src/main/java/com/orchexpay/walletledger/controllers/WalletController.java:172-188 | The cache discipline around the transfer (with the corrected sum check); the response body is the mapped transfer result. |
| WalletController.DebitReplayIsCached | user-wallet-service/src/main/java/com/orchexpay/walletledger/controllers/WalletController.java:105-114 | A replayed debit answers 200 with the first body and writes nothing, while running the use case again would fail: the cache alone makes debit retry-safe. |
| WalletController.DebitRetryAfterEviction | user-wallet-service/src/main/java/com/orchexpay/walletledger/controllers/WalletController.java:113 | Once the key has expired, retrying the same debit fails. |
| WalletController.KeysNotScoped | user-wallet-service/src/main/java/com/orchexpay/walletledger/controllers/WalletController.java:105-125 | Keys are not scoped by endpoint or wallet. After a credit under a key, a debit of any wallet under that key answers with the credit's entry and moves no money. |
| WalletController.ReserveReplay | user-wallet-service/src/main/java/com/orchexpay/walletledger/controllers/WalletController.java:147-159 | A reservation replayed to the same caller passes the ownership check again and answers 200 with the first body. |
| LedgerController.Confirm | user-wallet-service/src/main/java/com/orchexpay/walletledger/controllers/LedgerController.java:44-55 | A cached key answers with the stored body. A fresh key succeeds or fails exactly as the confirm does, caches only after success, and answers 200. |
| LedgerController.Reverse | user-wallet-service/src/main/java/com/orchexpay/walletledger/controllers/LedgerController.java:62-73 | The same cache discipline around the (corrected) release; a fresh reverse answers 201. |
| LedgerController.ConfirmKeyAnswersReverse | user-wallet-service/src/main/java/com/orchexpay/walletledger/controllers/LedgerController.java:47-68 | Confirm and reverse share one key space. Reversing under an earlier confirm's key answers with the confirmed entry. |
| LedgerController.ReverseReplay | user-wallet-service/src/main/java/com/orchexpay/walletledger/controllers/LedgerController.java:65-72 | A reverse answers 201 the first time and 200 with the same body on replay, and the replay writes nothing. The first reverse changes no balance only because the endpoint is built on the corrected release `Findings.ReverseReleasing`: the program's reverse adds a compensating credit (see "## Findings"). |
| LedgerController.FreshKeyRetryIsHarmless | user-wallet-service/src/main/java/com/orchexpay/walletledger/controllers/LedgerController.java:51-54 | Even under a new key, a second confirm writes nothing and returns the same entry. |
| Findings.ReserveThenReverseMints | user-wallet-service/src/main/java/com/orchexpay/walletledger/services/ReverseReservationUseCase.java:16-59 | As written, reserving and then reversing leaves the wallet richer by the reserved amount. |
| Findings.ReverseReleasing | user-wallet-service/src/main/java/com/orchexpay/walletledger/services/ReverseReservationUseCase.java:16-20 | The corrected reversal has the same refusals and idempotent answers, only marks a PENDING entry REVERSED, and changes no balance. |
| Findings.ReserveThenReleaseIsNeutral | user-wallet-service/src/main/java/com/orchexpay/walletledger/services/ReverseReservationUseCase.java:16-20 | With the corrected reversal, reserve then reverse leaves every balance as it was, and the reservation stays on record as REVERSED. |
| Findings.ReleaseIdempotent | user-wallet-service/src/main/java/com/orchexpay/walletledger/services/ReverseReservationUseCase.java:33-39 | The corrected reversal is idempotent. |
| Findings.SubUnitLegsMint | user-wallet-service/src/main/java/com/orchexpay/walletledger/services/TransferUseCase.java:52-86 | As written, on any ledger where the transfer of 0.0003 as legs 0.00015 + 0.00015 succeeds, the sum check passes, the debit is 3 units and the credits are 4. |
| Findings.SubUnitLegsReachable | user-wallet-service/src/main/java/com/orchexpay/walletledger/services/TransferUseCase.java:45-89 | The counterexample is reachable: on a ledger whose active source wallet holds 0.0010 INR and whose two destinations are active, the transfer of 0.0003 as 0.00015 + 0.00015 succeeds, debits 3 units and credits 4. |
| Findings.SubUnitLegsArithmetic | user-wallet-service/src/main/java/com/orchexpay/walletledger/services/TransferUseCase.java:52-55 | The arithmetic of that input: the exact sum equals the total, while the legs round to one unit more. |
| Findings.HalfRoundsUp | user-wallet-service/src/main/java/com/orchexpay/walletledger/models/Money.java:28 | 0.00015 rounds HALF_UP to 0.0002. |
| Findings.TransferRounded | user-wallet-service/src/main/java/com/orchexpay/walletledger/services/TransferUseCase.java:45-89 | The corrected transfer compares the total with the legs as rounded. Every successful non-reused transfer debits exactly what it credits. |
| Findings.SubUnitLegsRefused | user-wallet-service/src/main/java/com/orchexpay/walletledger/services/TransferUseCase.java:52-55 | The corrected check refuses that input. |
| Scenarios.ReserveFresh | user-wallet-service/src/main/java/com/orchexpay/walletledger/services/ReserveWalletUseCase.java:58-61 | A covered reservation under a free key succeeds and appends exactly one pending debit of the wallet. |
| Scenarios.ConfirmDebit | user-wallet-service/src/main/java/com/orchexpay/walletledger/services/ConfirmReservationUseCase.java:38-40 | Confirming a pending debit takes its amount off the balance. |
| Scenarios.TwoReservations | user-wallet-service/src/main/java/com/orchexpay/walletledger/services/ReserveWalletUseCase.java:45-61 | Two reservations under two free keys both succeed against the same balance, which neither changes. |
| Scenarios.ConfirmBoth | user-wallet-service/src/main/java/com/orchexpay/walletledger/services/ConfirmReservationUseCase.java:38-40 | Confirming two pending debits one after the other takes both amounts off the balance. |
| Scenarios.Oversubscription | user-wallet-service/src/main/java/com/orchexpay/walletledger/services/GetWalletUseCase.java:31 | Two reservations that each fit the balance but not together are both accepted and both confirmed. The balance goes negative and the wallet can no longer be read. |
| Findings.ReserveHolding | user-wallet-service/src/main/java/com/orchexpay/walletledger/services/ReserveWalletUseCase.java:45-57 | The corrected reservation replays an open reservation, and refuses a new one exactly when the balance less what the wallet's open reservations hold is below the amount. It changes no balance and keeps every wallet's holds covered by its balance. |
| Findings.ConfirmKeepsHoldsCovered | user-wallet-service/src/main/java/com/orchexpay/walletledger/services/ConfirmReservationUseCase.java:28-41 | Confirming keeps every wallet's holds covered and, with the holds covered, leaves every balance at zero or above. The rows below prove coverage kept by the corrected reservation, debit, settlement and release, and by credit as written. A ledger written only through these and confirm never gets a negative balance from a confirmation. |
| Findings.HoldingRefusesOversubscription | user-wallet-service/src/main/java/com/orchexpay/walletledger/services/ReserveWalletUseCase.java:45-47 | Of two reservations that each fit the balance but not together, the corrected reservation accepts the first and refuses the second. |
| Findings.DebitBreaksHolds | user-wallet-service/src/main/java/com/orchexpay/walletledger/services/DebitWalletUseCase.java:48-50 | As written, a debit that the balance covers, but with too little room left by the open reservations, succeeds and leaves that wallet's holds above its balance. |
| Findings.DebitHolding | user-wallet-service/src/main/java/com/orchexpay/walletledger/services/DebitWalletUseCase.java:40-64 | The corrected debit refuses an amount above the balance less the wallet's holds with InsufficientBalance. It is otherwise the debit as written, and it keeps every wallet's holds covered. |
| Findings.SettleHolding | user-wallet-service/src/main/java/com/orchexpay/walletledger/services/TransferUseCase.java:56-65 | The corrected settlement replays an existing debit and refuses a total above the source's balance less its holds. It is otherwise the settlement as written, and it keeps every wallet's holds covered. |
| Findings.SettleWithinFreeBalance | user-wallet-service/src/main/java/com/orchexpay/walletledger/services/TransferUseCase.java:62-86 | A settlement whose total fits in the source's balance less its holds keeps the holds covered. |
| Findings.SettledKeepsHolds | user-wallet-service/src/main/java/com/orchexpay/walletledger/services/TransferUseCase.java:66-86 | A settled transfer within the free balance keeps the holds covered. All of its entries are confirmed, the source loses no more than it had free, and every other wallet only gains. |
| Findings.CreditKeepsHoldsCovered | user-wallet-service/src/main/java/com/orchexpay/walletledger/services/CreditWalletUseCase.java:46-55 | Crediting as written writes nothing or one confirmed credit, and keeps every wallet's holds covered. |
| Findings.ReleaseKeepsHoldsCovered | user-wallet-service/src/main/java/com/orchexpay/walletledger/services/ReverseReservationUseCase.java:16-20 | The corrected release only drops a hold, and keeps every wallet's holds covered. |
| PayoutStateMachine.Move | payout-orchestrator-service/src/main/java/com/orchexpay/payoutorchestrator/services/PayoutStateMachine.java:14-33 | A move succeeds exactly from its required status, changes only the status, and a refused move is IllegalState with the payout untouched. |
| PayoutStateMachine.ToProcessing | payout-orchestrator-service/src/main/java/com/orchexpay/payoutorchestrator/services/PayoutStateMachine.java:14-19 | Succeeds exactly along the CREATED → PROCESSING edge and sets PROCESSING, touching nothing else. |
| PayoutStateMachine.ToSettled | payout-orchestrator-service/src/main/java/com/orchexpay/payoutorchestrator/services/PayoutStateMachine.java:21-26 | Succeeds exactly along the PROCESSING → SETTLED edge and sets SETTLED. |
| PayoutStateMachine.ToFailed | payout-orchestrator-service/src/main/java/com/orchexpay/payoutorchestrator/services/PayoutStateMachine.java:28-33 | Succeeds exactly along the PROCESSING → FAILED edge and sets FAILED. |
| PayoutStateMachine.MovesAreEdges | payout-orchestrator-service/src/main/java/com/orchexpay/payoutorchestrator/services/PayoutStateMachine.java:14-33 | Some move succeeds into a status exactly when that is an edge of the lifecycle graph. |
| PayoutStateMachine.SettledAndFailedAreTerminal | payout-orchestrator-service/src/main/java/com/orchexpay/payoutorchestrator/services/PayoutStateMachine.java:14-33 | SETTLED and FAILED are terminal: every move from them is refused. |
| PayoutStateMachine.NoSecondOutcome | payout-orchestrator-service/src/main/java/com/orchexpay/payoutorchestrator/services/PayoutStateMachine.java:21-33 | A settled payout can never fail, and a failed one can never settle. |
| Payouts.Stored | payout-orchestrator-service/src/main/java/com/orchexpay/payoutorchestrator/models/Payout.java:36 | The stored amount is the given one rounded to scale 4, numerically equal when it had at most four decimals, with every other field kept. |
| Payouts.StoredIdempotent | payout-orchestrator-service/src/main/java/com/orchexpay/payoutorchestrator/models/Payout.java:36 | Reading back a stored row changes nothing. |
| Payouts.IdText | payout-orchestrator-service/src/main/java/com/orchexpay/payoutorchestrator/services/PayoutOrchestrationService.java:66 | The reference id text of a payout id is a non-empty string of digits. |
| Payouts.IdTextInjective | payout-orchestrator-service/src/main/java/com/orchexpay/payoutorchestrator/services/PayoutOrchestrationService.java:66 | Distinct payout ids give distinct reference ids. |
| Payouts.FindById | payout-orchestrator-service/src/main/java/com/orchexpay/payoutorchestrator/services/PayoutOrchestrationService.java:83 | `findById` finds a row with that id, or none when no row has it. |
| Payouts.FindByKey | payout-orchestrator-service/src/main/java/com/orchexpay/payoutorchestrator/services/PayoutOrchestrationService.java:46 | `findByIdempotencyKey` finds a row with that key, or none when no row has it. |
| Payouts.Insert | payout-orchestrator-service/src/main/java/com/orchexpay/payoutorchestrator/models/Payout.java:49 | Saving a new payout under a free key appends it at scale 4. It is then found by its id and key, and the table's constraints hold. |
| Payouts.Update | payout-orchestrator-service/src/main/java/com/orchexpay/payoutorchestrator/services/PayoutOrchestrationService.java:94 | Saving a loaded payout rewrites exactly its row and keeps the constraints when the key is unchanged. |
| Payouts.Replace | payout-orchestrator-service/src/main/java/com/orchexpay/payoutorchestrator/services/PayoutOrchestrationService.java:94 | Exactly the rows with the payout's id are rewritten, and nothing changes when none has it. |
| Payouts.ReplaceKeepsValid | payout-orchestrator-service/src/main/java/com/orchexpay/payoutorchestrator/models/Payout.java:49 | Rewriting the row of a payout, key unchanged, keeps the table's constraints. |
| PayoutOrchestration.RequestPayout | payout-orchestrator-service/src/main/java/com/orchexpay/payoutorchestrator/services/PayoutOrchestrationService.java:41-75 | A known key returns the stored payout and calls nothing. Otherwise exactly one reserve is made, on the vendor wallet under reference id = payout id and key `<key>-reserve`. The request succeeds exactly when the reserve does, storing a PROCESSING payout with the reserved entry. A failed reserve persists nothing. |
| PayoutOrchestration.StoredAtScale | payout-orchestrator-service/src/main/java/com/orchexpay/payoutorchestrator/models/Payout.java:36 | A row of a valid table is already at scale 4 and is the one found by its id. |
| PayoutOrchestration.Resolve | payout-orchestrator-service/src/main/java/com/orchexpay/payoutorchestrator/services/PayoutOrchestrationService.java:81-115 | Unknown ids are refused. A payout already in the final status is returned with no call. A payout without a ledger entry is refused. Otherwise the ledger call is made first, and success holds exactly when it passed and the payout was PROCESSING. |
| PayoutOrchestration.ConfirmPayout | payout-orchestrator-service/src/main/java/com/orchexpay/payoutorchestrator/services/PayoutOrchestrationService.java:81-95 | Confirm is the shared resolution towards SETTLED. It only ever makes confirm calls, and a success is SETTLED. |
| PayoutOrchestration.ReversePayout | payout-orchestrator-service/src/main/java/com/orchexpay/payoutorchestrator/services/PayoutOrchestrationService.java:101-115 | Reverse is the shared resolution towards FAILED. It only ever makes reverse calls, and a success is FAILED. |
| PayoutOrchestration.RequestReplay | payout-orchestrator-service/src/main/java/com/orchexpay/payoutorchestrator/services/PayoutOrchestrationService.java:46-50 | After a successful request, a repeat with the same key answers with the stored payout and makes no ledger call, whatever else it carries. |
| PayoutOrchestration.RetryAfterFailedReserve | payout-orchestrator-service/src/main/java/com/orchexpay/payoutorchestrator/services/PayoutOrchestrationService.java:41-69 | After a failed reserve, a retry with the same key sends the very same reserve again. |
| PayoutOrchestration.ReservationsDistinct | payout-orchestrator-service/src/main/java/com/orchexpay/payoutorchestrator/services/PayoutOrchestrationService.java:66-68 | Distinct payouts reserve under distinct reference ids. |
| PayoutOrchestration.ResolveIdempotent | payout-orchestrator-service/src/main/java/com/orchexpay/payoutorchestrator/services/PayoutOrchestrationService.java:84-87 | Once settled (or failed), a repeat returns the payout as it is and makes no ledger call. |
| PayoutOrchestration.RequestThenConfirmSettles | payout-orchestrator-service/src/main/java/com/orchexpay/payoutorchestrator/services/PayoutOrchestrationService.java:41-95 | The happy path: a request reserves, and confirming it calls the ledger's confirm for exactly the reserved entry and settles the payout. |
| PayoutOrchestration.LedgerCalledBeforeRefusal | payout-orchestrator-service/src/main/java/com/orchexpay/payoutorchestrator/services/PayoutOrchestrationService.java:91-112 | A payout with a ledger entry that is neither PROCESSING nor already in the final status reaches the ledger, and only then is refused. |
| WalletPort.ResolveWallet | payout-orchestrator-service/src/main/java/com/orchexpay/payoutorchestrator/services/MockWebhookService.java:85-87 | A given wallet id is used with no call. A missing one costs exactly one `getWalletByType` call, whose answer is the result. |
| Commission.PercentOf | payout-orchestrator-service/src/main/java/com/orchexpay/payoutorchestrator/services/CommissionService.java:46-50 | The percentage share is amount × pct / 100, rounded HALF_UP to the nearest 10^-4. |
| Commission.Compute | payout-orchestrator-service/src/main/java/com/orchexpay/payoutorchestrator/services/CommissionService.java:45-59 | The share is at scale 4. PERCENTAGE is the percentage share, and FIXED_PLUS_PERCENTAGE adds the fixed amount (zero when null). |
| Commission.PlatformShare | payout-orchestrator-service/src/main/java/com/orchexpay/payoutorchestrator/services/CommissionService.java:31-35 | Zero when the merchant has no configuration, otherwise the configured share. |
| Commission.VendorShare | payout-orchestrator-service/src/main/java/com/orchexpay/payoutorchestrator/services/CommissionService.java:40-43 | The vendor share is at scale 4. With the platform share it adds up to an amount of at most four decimals. |
| Commission.SubExact | payout-orchestrator-service/src/main/java/com/orchexpay/payoutorchestrator/services/CommissionService.java:42 | For operands of at most four decimals, rounding survives an exact subtraction. |
| Commission.PercentageShareBounded | payout-orchestrator-service/src/main/java/com/orchexpay/payoutorchestrator/services/CommissionService.java:46-50 | With a percentage from 0 to 100 and a non-negative amount, the platform share lies between zero and the amount. |
| Commission.SharesAddUp | payout-orchestrator-service/src/main/java/com/orchexpay/payoutorchestrator/services/CommissionService.java:31-43 | The platform share and the vendor share add up to any amount of at most four decimals, whatever the configuration. With no configuration the vendor gets the whole amount, and a non-negative platform share never leaves the vendor more than the amount. |
| Commission.FixedFeeAboveAmount | payout-orchestrator-service/src/main/java/com/orchexpay/payoutorchestrator/services/CommissionService.java:51-57 | Nothing bounds the fixed fee: one above the order amount makes the vendor share negative. |
| Commission.FixedFeeExample | payout-orchestrator-service/src/main/java/com/orchexpay/payoutorchestrator/services/CommissionService.java:51-57 | An illustration of the row above with concrete numbers: a fee of 5.0000 at 0% on 1.0000 leaves the vendor -4.0000. |
| MockWebhook.FindOrder | payout-orchestrator-service/src/main/java/com/orchexpay/payoutorchestrator/services/MockWebhookService.java:53 | The lookup by (merchant, order) finds the first matching row, or none when no row matches. |
| MockWebhook.OnlyMatch | payout-orchestrator-service/src/main/java/com/orchexpay/payoutorchestrator/services/MockWebhookService.java:53 | In a valid table the row found is the only one with that (merchant, order). |
| MockWebhook.RecordPayment | payout-orchestrator-service/src/main/java/com/orchexpay/payoutorchestrator/services/MockWebhookService.java:53-75 | An existing row takes the new vendor, amount and currency. Otherwise a new row with `splitDone` false is appended with a fresh id. |
| MockWebhook.RecordPaymentUpserts | payout-orchestrator-service/src/main/java/com/orchexpay/payoutorchestrator/services/MockWebhookService.java:53-75 | The upsert keeps the table's constraints, changes no other order's row, and leaves exactly one row for the order, with the new values and its earlier `splitDone`. |
| MockWebhook.HandlePaymentSuccess | payout-orchestrator-service/src/main/java/com/orchexpay/payoutorchestrator/services/MockWebhookService.java:39-76 | The escrow is resolved, then credited with reference type ORDER, reference id the order id and key `mock-payment-<orderId>`. Only a successful credit records the pending order. |
| MockWebhook.MarkSplit | payout-orchestrator-service/src/main/java/com/orchexpay/payoutorchestrator/services/MockWebhookService.java:101-105 | The order's row, if any, is marked split, and nothing else changes. |
| MockWebhook.HandleOrderComplete | payout-orchestrator-service/src/main/java/com/orchexpay/payoutorchestrator/services/MockWebhookService.java:82-108 | Success holds exactly when all three wallets resolve and the transfer passes. The last call is the split transfer, made after lookups only. The pending row is then marked split. |
| MockWebhook.ListPending | payout-orchestrator-service/src/main/java/com/orchexpay/payoutorchestrator/services/MockWebhookService.java:110-112 | Exactly the merchant's and vendor's rows whose split is not done. |
| MockWebhook.SplitSumMatches | payout-orchestrator-service/src/main/java/com/orchexpay/payoutorchestrator/services/MockWebhookService.java:89-98 | For an amount of at most four decimals the two legs add up to the amount, both exactly and as rounded. The ledger's sum check passes as written and as corrected. |
| MockWebhook.SplitKeysApart | payout-orchestrator-service/src/main/java/com/orchexpay/payoutorchestrator/services/MockWebhookService.java:41-93 | The split's reference id differs from its own order's payment reference. The payment and split idempotency keys never coincide. |
| MockWebhook.SplitReferenceShared | payout-orchestrator-service/src/main/java/com/orchexpay/payoutorchestrator/services/MockWebhookService.java:46-92 | The split of order `o` carries the same reference id as the payment of an order named `o-split`. |
| MockWebhook.PaymentListsOrder | payout-orchestrator-service/src/main/java/com/orchexpay/payoutorchestrator/services/MockWebhookService.java:53-75 | A successful payment lists the order as pending for its vendor, unless it was already split. |
| MockWebhook.SplitUnlistsOrder | payout-orchestrator-service/src/main/java/com/orchexpay/payoutorchestrator/services/MockWebhookService.java:101-112 | After a successful completion the order is listed as pending for no vendor. |

## Left out

- **Request binding and validation.** Bean validation of request bodies (`@Valid`, `@DecimalMin`, `@NotBlank`) is not modelled: the model accepts any request the DTO types allow.
- **Authentication and authorization.** `@PreAuthorize` role checks, JWT handling and principals are left out, except the vendor ownership check of `reserveWallet`.
- **Password hashing.** `PasswordEncoder` is a foreign library call. The encoded hash is an input of `CreateUser.Execute` and `AddVendor.Execute`.
- **Redis and serialisation.** The Redis TTL is a clock, so expiry is the separate `IdempotencyStore.Evict`. The JSON round trip of a cached body is not modelled: a replay on another endpoint returns the stored body as it is.
- **Kafka and the event payloads.** The call to `kafkaTemplate.send` is the `send` function given to `Outbox.Relay`; whether the broker later accepts the record is not modelled. Event payloads are the fields written, not their JSON.
- **Builders and null ids.** Lombok builders are datatype constructors. Every new entry gets a fresh id from the factory, so the null-id branch of `save` is not reached and is not modelled separately.
- **Ordering and paging.** The ordering and paging of `findFiltered` and of `listPendingOrdersByVendor` (newest first) are left out. Both return their rows in table order, and their contracts state membership.
- **SQL nulls.** A nullable column is an `Option`. The unique constraint on wallets follows SQL and never finds two NULLs equal (`LedgerStore.KeysClash`), while a derived query with a null argument matches a null column, as Spring's IS NULL translation does. Sums over no rows are 0, as the adapter's null-to-zero mapping makes them. Other NULL semantics are not modelled.
- **Character handling.** Upper-casing covers ASCII letters only: `toUpperCase` on other scripts is left out.
- **The currency argument of the commission calls.** `CommissionService` takes a currency argument it never uses, so the model drops it.
- **The CommissionType fallback.** The fallback `return BigDecimal.ZERO` at `CommissionService.java:58` cannot be reached, because the enum has two constants; it has no counterpart.
- **Fresh ids across rollbacks.** The id counter does not advance on a rolled-back call, which is equivalent to drawing fresh UUIDs.
- **Deferred INSERTs.** Entries get their UUID from the factory, so `save` merges them and their INSERTs wait for the commit. The transfer, whose later legs can still fail after a save, is modelled with a flush at the end (`Transfer.Flush`). Elsewhere an entry's INSERT is modelled at its save: in those use cases nothing between the save and the commit can fail, so the outcome is the same.
- **Column sizes.** The column limits are not enforced: amount precision 19 (`precision = 19, scale = 4`), a 3-character `currency_code`, a 500-character `description` and a 255-character `order_id`. A longer value, which the database would refuse at the INSERT, is stored as given.
- **Clock readings and event ids.** Where the source reads `Instant.now()` twice for one record (`createdAt` and `updatedAt` of a user or payout, an event's `occurredAt` and its outbox row's `createdAt`), the model uses one `now` for both. An outbox record takes one fresh id, where the source draws two UUIDs, one for the event and one for the outbox row.
- **Concurrency.** Concurrent requests, transaction isolation and races on unique constraints are out of scope: each use case is one atomic step.
- **Other endpoints and use cases.** Freeze and unfreeze, read-only wallet endpoints, and controllers other than the two cache wrappers are not modelled. `GetWalletByTypeUseCase` is seen only through the `Directory` function the orchestrator receives.
- **The caller token of confirm and reverse.** `confirmLedgerEntry` and `reverseLedgerEntry` declare no token (`WalletServiceClient.java:31`, `:34`), so the token passed at `PayoutOrchestrationService.java:91` and `:111` is a ghost parameter and is not recorded in the calls.
- **Transactions in the webhook.** `MockWebhookService` is not transactional in the source, and the model keeps it that way: a failed transfer leaves the pending row unmarked.
- Findings.ConfirmKeepsHoldsCovered: the coverage it relies on is proved for the corrected reservation, debit, settlement and release and for credit as written. The endpoints, the payout saga and the webhook call the reservation, debit and transfer as written, so their ledgers are not promised to keep the holds covered (the last two rows of "## Findings").
- RoleSetConverter.Encode: the contract states only the empty case. The format of a non-empty column (the names joined by ",") is stated through the round trip `DecodeEncode` and `DecodeJoinedNames`, because the set's iteration order is unspecified.
- Commission.Compute: the FIXED_PLUS_PERCENTAGE clause is stated for a fixed amount of at most four decimals, the scale of its column. A fixed amount with more decimals is computed the same way but not described.
- Commission.PercentageShareBounded: assumes the column scales, an amount at scale 4 and a percentage at scale 2.
- MockWebhook.ListPending: states which orders are listed, not their newest-first order.
- WalletController.TransferFunds: composed with the corrected `Findings.TransferRounded`, not with the `transferUseCase.execute` the controller calls (`WalletController.java:182`). The two sum checks differ only on legs with more than four decimals: the program compares the total with the exact sum and the model with the sum of the rounded legs. Such a request may be accepted by one and refused by the other, and where the program accepts it the debit can differ from the credits (the transfer row of "## Findings").
- LedgerController.Reverse: composed with the corrected `Findings.ReverseReleasing`, not with `reverseReservationUseCase.execute` (`LedgerController.java:69-70`). The program's reverse also writes a CONFIRMED compensating credit and answers with that credit, where the model answers with the released entry; a second reverse of a REVERSED entry under a new key likewise answers with the entry, where the program answers with the stored credit (the reversal row of "## Findings").
- LedgerController.ReverseReplay: inherits the difference above. Its "no balance changes" clause holds for the corrected release only; under the program the first reverse raises the wallet's balance by the reserved amount, and only the replay leaves balances alone.
- Outbox.Relay: `send` stands for the asynchronous `kafkaTemplate.send` call (`OutboxKafkaRelay.java:35-36`), and the record is marked published without waiting for its future. The contract therefore promises only that `send` returned without throwing for every published record, not delivery: a send that fails later on the broker leaves a published record that is never retried. The send is also a pure function of the record, so a send that throws once and returns on a retry in the same run is not modelled; a throw stops the run anyway.
- CreateWallet.Execute: takes a wallet type, where the four-argument Java `execute` also accepts a null `walletType` (it would pass the vendor checks, look up a NULL type and store a wallet that reads back as MAIN); no caller in the service passes null.
- Payouts.IdText: writes an id as its decimal digits, where `UUID.toString()` writes 32 hex digits with four dashes. Only the property the orchestrator relies on, that the text determines the id (`Payouts.IdTextInjective`), is kept.

## Findings

| source | as written | input that shows it | evidently intended | confidence | as-written member | corrected member |
|---|---|---|---|---|---|---|
| user-wallet-service/src/main/java/com/orchexpay/walletledger/services/ReverseReservationUseCase.java:51-59 | Reversing a PENDING reservation marks it REVERSED and also appends a CONFIRMED compensating credit of the same amount. The PENDING debit never lowered the balance, so the credit raises the balance above its level before the reservation. | A wallet with balance B reserves 10.0000 under a free reference, then reverses it: the balance is B + 10.0000. | The doc comment at lines 16-20 says the reservation is released and the balance restored: releasing only marks the entry REVERSED, and every balance is as before the reservation. | high (not executed) | Findings.ReserveThenReverseMints | Findings.ReverseReleasing |
| user-wallet-service/src/main/java/com/orchexpay/walletledger/services/TransferUseCase.java:52-55 | The total is compared with the exact `BigDecimal` sum of the legs, but each leg is credited after `Money.of` rounds it HALF_UP to four decimals, while the debit is the total rounded. | Total 0.0003 with legs 0.00015 and 0.00015: the check passes, the debit is 0.0003 and the credits are 0.0002 + 0.0002 = 0.0004. | The check compares the total with the amounts actually credited, so a transfer debits exactly what it credits. | high (not executed) | Findings.SubUnitLegsReachable | Findings.TransferRounded |
| user-wallet-service/src/main/java/com/orchexpay/walletledger/services/CreateWalletUseCase.java:53-57 | The duplicate check looks up the currency code as given, but the wallet is stored under the upper-cased code. The unique constraint behind it never clashes on the NULL vendor of a MAIN or ESCROW wallet. | `execute(m, "inr", MAIN, null)` twice on a ledger where INR is a currency: both calls succeed and m has two MAIN INR wallets. Done with ESCROW, the settlement of (m, "INR") then fails, because its single-row lookup matches two rows. | The duplicate check looks up the key the wallet is stored under, so a merchant has at most one wallet per currency, type and vendor. | medium (not executed): both callers in the service, `CreateUserUseCase` and `AddVendorUseCase`, pass an upper-cased code, so the duplicate needs another caller | CreateWallet.CreateAgain | CreateWallet.ExecuteNormalised |
| user-wallet-service/src/main/java/com/orchexpay/walletledger/services/ReserveWalletUseCase.java:45-47 | The funds check compares the amount with the confirmed balance, which open PENDING reservations do not lower, so earlier reservations are not counted. | A wallet with balance 15.0000 reserves 10.0000 under two references: both are accepted and both can be confirmed, leaving a balance of -5.0000, after which reading the wallet fails because `Money` refuses a negative amount. | A new reservation must fit in the balance less what the wallet's open reservations hold. Debits and transfers must count the holds too (next row); then confirming never takes a balance below zero. | medium (not executed): the class comment at line 24 names the confirmed balance as the rule, but the failing wallet read shows a negative balance is not meant to arise | Scenarios.Oversubscription | Findings.ReserveHolding |
| user-wallet-service/src/main/java/com/orchexpay/walletledger/services/DebitWalletUseCase.java:48-50 | The debit's funds check compares the amount with the confirmed balance only, and so does the transfer's (`TransferUseCase.java:62-65`), so money that open reservations hold can still be debited. | A wallet with balance 10.0000 reserves 10.0000, then is debited 10.0000: both succeed, the balance is 0 with 10.0000 still held, and confirming the reservation leaves -10.0000. | A debit or transfer must fit in the balance less what the wallet's open reservations hold, so the holds stay covered and confirming them never takes a balance below zero. | medium (not executed): the debit's comment (line 25) asks only that the confirmed balance not go negative, and the debit alone keeps that; it is the later confirmation of the reservation that breaks it | Findings.DebitBreaksHolds | Findings.DebitHolding |

=== FILE: add_vendor.dfy ===
/** `AddVendorUseCase`: adds a VENDOR user under a merchant together with the
    vendor's single VENDOR wallet, in one transaction. */
module AddVendor {
  import opened Wrappers
  import opened Base
  import opened Monetary
  import Text
  import opened Wallets
  import opened Users
  import opened LedgerStore
  import CreateWallet
  import CreateUser

  /** `DEFAULT_VENDOR_CURRENCY`. */
  const DefaultVendorCurrency: string := "INR"

  datatype AddVendorResult = AddVendorResult(user: User, vendorWalletId: Uuid)

  /** The wallet currency: the trimmed, upper-cased code when one is given and
      not blank, otherwise the default. */
  function VendorCurrency(currencyCode: Option<string>): (r: string)
    ensures currencyCode.None? ==> r == DefaultVendorCurrency
    ensures currencyCode.Some? && Text.IsBlank(currencyCode.value) ==> r == DefaultVendorCurrency
    ensures currencyCode.Some? && !Text.IsBlank(currencyCode.value) ==> r == Text.ToUpper(Text.Trim(currencyCode.value))
    ensures Text.ToUpper(r) == r
  {
    if currencyCode.Some? && !Text.IsBlank(currencyCode.value) then
      Text.ToUpperIdempotent(Text.Trim(currencyCode.value));
      Text.ToUpper(Text.Trim(currencyCode.value))
    else
      assert Text.ToUpper(DefaultVendorCurrency) == DefaultVendorCurrency;
      DefaultVendorCurrency
  }

  /** The vendor user as saved: the VENDOR role only, under `merchantId`. */
  function SaveVendorUser(s: LedgerState, merchantId: Uuid, username: string, passwordHash: string, now: Instant)
    : (r: (LedgerState, User))
    requires FindUser(s.users, username).None?
    ensures var (s', u) := r;
            && u == User(Some(s.nextId), username, passwordHash, Some({Role.VENDOR}), Some(merchantId),
                         Some(UserStatus.ACTIVE), Some(now), Some(now))
            && s' == s.(users := s.users + [u], nextId := s.nextId + 2)
            && FindUserById(s'.users, s.nextId) == Some(u)
    ensures Valid(s) ==> Valid(r.0)
  {
    var (userId, s1) := Fresh(s);
    var u := User(Some(userId), username, passwordHash, Some({Role.VENDOR}), Some(merchantId),
                  Some(UserStatus.ACTIVE), Some(now), Some(now));
    assert Valid(s) ==> Valid(s1) by {
      if Valid(s) { FreshIsNew(s); }
    }
    InsertUser(s1, u, now).value
  }

  /** Under a valid ledger no wallet names the new user as its vendor yet. */
  lemma VendorKeyFree(s: LedgerState, s2: LedgerState, merchantId: Uuid, currency: string)
    requires Valid(s) && s2.wallets == s.wallets
    ensures !WalletKeyExists(s2.wallets, WalletKey(merchantId, currency, Some(WalletType.VENDOR), Some(s.nextId)))
  {
    forall i | 0 <= i < |s2.wallets|
      ensures s2.wallets[i].Key() != WalletKey(merchantId, currency, Some(WalletType.VENDOR), Some(s.nextId))
    {
      assert s2.wallets[i].vendorUserId.Some? ==> s2.wallets[i].vendorUserId.value < s.nextId;
    }
  }

  /** `execute(merchantId, username, password, currencyCode)`. The merchant is not
      looked up: the caller is trusted to name an existing one. */
  function Execute(s: LedgerState, merchantId: Uuid, username: string, passwordHash: string,
                   currencyCode: Option<string>, now: Instant): (r: Result<(LedgerState, AddVendorResult), Error>)
    ensures FindUser(s.users, username).Some? ==> r == Failure(UserAlreadyExists(username))
    ensures CurrencyOf(s.iso, Some(VendorCurrency(currencyCode))).Failure? ==> r.Failure?
    ensures Valid(s) ==>
              (r.Success? <==> FindUser(s.users, username).None? && CurrencyOf(s.iso, Some(VendorCurrency(currencyCode))).Success?)
    ensures r.Success? ==>
              var (s', res) := r.value;
              var u := res.user;
              && u.Complete() && u.username == username && u.passwordHash == passwordHash
              && u.roles == Some({Role.VENDOR}) && u.merchantId == Some(merchantId)
              && u.status == Some(UserStatus.ACTIVE)
              && s'.users == s.users + [u]
              && |s'.wallets| == |s.wallets| + 1 && s'.wallets[..|s.wallets|] == s.wallets
              && var w := s'.wallets[|s.wallets|];
              && w.id == res.vendorWalletId
              && w.Key() == WalletKey(merchantId, VendorCurrency(currencyCode), Some(WalletType.VENDOR), u.id)
              && w.status == WalletStatus.ACTIVE
              && s'.entries == s.entries
    ensures r.Success? && Valid(s) ==> Valid(r.value.0)
  {
    var currency := VendorCurrency(currencyCode);
    if FindUser(s.users, username).Some? then Failure(UserAlreadyExists(username))
    else
      var (s2, user) := SaveVendorUser(s, merchantId, username, passwordHash, now);
      assert CreateWallet.Admissible(s2, merchantId, WalletType.VENDOR, Some(s.nextId));
      assert Valid(s) ==> !WalletKeyExists(s2.wallets, WalletKey(merchantId, currency, Some(WalletType.VENDOR), Some(s.nextId))) by {
        if Valid(s) { VendorKeyFree(s, s2, merchantId, currency); }
      }
      var created :- CreateUser.ReportDuplicate(
        CreateWallet.Execute(s2, merchantId, currency, WalletType.VENDOR, Some(s.nextId), now), username);
      Success((created.0, AddVendorResult(user, created.1.id)))
  }
}

=== FILE: base.dfy ===
/** Identifiers, instants and the error taxonomy shared by both services. */
module Base {

  /** A UUID. Fresh ones come from a per-service counter (see `LedgerState.nextId`),
      standing in for `UUID.randomUUID()`. */
  type Uuid = nat

  /** An `Instant`, as supplied by the caller in place of `Instant.now()`. */
  type Instant = int

  /** Why an `IllegalArgumentException` or `IllegalStateException` was thrown. */
  datatype Reason =
    | NegativeAmount           // Money constructor: amount < 0
    | NegativeResult           // Money.subtract: result < 0
    | CurrencyMismatch         // Money arithmetic, or use case: wallet vs amount currency
    | BadCurrencyLength        // Currency constructor: length != 3
    | UnknownCurrency          // Currency constructor: the JDK lookup fails
    | WalletNotActive          // use cases: wallet status is not ACTIVE
    | ReservationResolved      // reserve: existing entry for the key is not PENDING
    | NotPending               // confirm / reverse: entry is neither PENDING nor the idempotent status
    | TotalMismatch            // transfer: total debit differs from the sum of legs
    | VendorIdRequired         // create wallet: VENDOR without vendorUserId
    | VendorIdForbidden        // create wallet: MAIN or ESCROW with vendorUserId
    | VendorNotUnderMerchant   // create wallet: vendor user missing, not VENDOR, or other merchant
    | RolesRequired            // create user: null or empty role set
    | VendorRoleForbidden      // create user: VENDOR must be added by a merchant
    | MerchantCurrencyRequired // create user: MERCHANT without a currency code
    | UnknownEnumName          // Enum.valueOf on an unknown name
    | PayoutNotFound           // orchestrator: no payout with that id
    | NoLedgerEntry            // orchestrator: payout has no ledger entry yet
    | IllegalPayoutTransition  // payout state machine

  datatype Error =
    | IllegalArgument(reason: Reason)
    | IllegalState(reason: Reason)
    | NullPointer                  // Lombok @NonNull check
    | WalletNotFound(walletId: Uuid)
    | LedgerEntryNotFound(entryId: Uuid)
    | UserNotFound(username: string)
    | InsufficientBalance(walletId: Uuid)
    | WalletAlreadyExists
    | UserAlreadyExists(username: string)
    | DataIntegrityViolation       // a unique index rejected an insert
    | IncorrectResultSize          // a single-row query matched two rows
    | AccessDenied
    | RemoteFailure                // the wallet service call failed (port)
}

=== FILE: commission.dfy ===
/** `CommissionService`: how an order amount is split between the platform
    (the merchant's MAIN wallet) and the vendor, from the merchant's commission
    configuration. Results are `BigDecimal`s; the computed ones have scale 4. */
module Commission {
  import opened Wrappers
  import opened Base
  import opened Monetary

  datatype CommissionType = PERCENTAGE | FIXED_PLUS_PERCENTAGE

  /** A merchant's configuration: `percentageValue` is a percentage (20.00 means
      20%), `fixedAmount` is nullable. */
  datatype MerchantCommission = MerchantCommission(merchantId: Uuid, commissionType: CommissionType,
                                                   percentageValue: Decimal, fixedAmount: Option<Decimal>)

  /** The `merchant_commissions` table, by its unique `merchant_id`. */
  type Configs = map<Uuid, MerchantCommission>

  /** `BigDecimal.ZERO`. */
  const Zero: Decimal := Decimal(0, 0)

  /** `amount.multiply(pct).divide(100, 4, HALF_UP)` in units of 10^-4: the
      exact product over 100, rounded once to four decimals. */
  function PercentOf(amount: Decimal, pct: Decimal): (r: int)
    ensures amount.unscaled >= 0 && pct.unscaled >= 0 ==>
              var d := Pow10(amount.scale + pct.scale + 2);
              && r >= 0
              && 2 * r * d - d <= 2 * (amount.unscaled * pct.unscaled) * UnitsPerWhole < 2 * r * d + d
  {
    var product := amount.unscaled * pct.unscaled;
    assert amount.unscaled >= 0 && pct.unscaled >= 0 ==> product >= 0;
    SetScale4(Decimal(product, amount.scale + pct.scale + 2))
  }

  /** `compute`: PERCENTAGE takes the percentage of the amount; FIXED_PLUS_PERCENTAGE
      adds the fixed amount (zero when null) and rounds the sum to four decimals. */
  function Compute(config: MerchantCommission, amount: Decimal): (r: Decimal)
    ensures r.scale == Scale
    ensures config.commissionType == PERCENTAGE ==> r.unscaled == PercentOf(amount, config.percentageValue)
    ensures config.commissionType == FIXED_PLUS_PERCENTAGE && config.fixedAmount.GetOr(Zero).scale <= Scale ==>
              r.unscaled == SetScale4(config.fixedAmount.GetOr(Zero)) + PercentOf(amount, config.percentageValue)
  {
    var pct := PercentOf(amount, config.percentageValue);
    match config.commissionType
    case PERCENTAGE => FromUnits(pct)
    case FIXED_PLUS_PERCENTAGE =>
      var fixed := config.fixedAmount.GetOr(Zero);
      if fixed.scale <= Scale then
        SetScale4Add(fixed, FromUnits(pct));
        SetScale4OfUnits(pct);
        FromUnits(SetScale4(DecimalAdd(fixed, FromUnits(pct))))
      else
        FromUnits(SetScale4(DecimalAdd(fixed, FromUnits(pct))))
  }

  /** `computePlatformShare`: zero when the merchant has no configuration. */
  function PlatformShare(configs: Configs, merchantId: Uuid, amount: Decimal): (r: Decimal)
    ensures merchantId !in configs ==> r == Zero
    ensures merchantId in configs ==> r == Compute(configs[merchantId], amount)
    ensures r.scale == 0 || r.scale == Scale
  {
    if merchantId in configs then Compute(configs[merchantId], amount) else Zero
  }

  /** `computeVendorShare`, and the same expression in `handleOrderComplete`: the
      amount minus the platform share, at four decimals. For an amount of at
      most four decimals nothing is rounded and the two shares add up to it. */
  function VendorShare(configs: Configs, merchantId: Uuid, amount: Decimal): (r: Decimal)
    ensures r.scale == Scale
    ensures amount.scale <= Scale ==>
              r.unscaled + SetScale4(PlatformShare(configs, merchantId, amount)) == SetScale4(amount)
  {
    var platform := PlatformShare(configs, merchantId, amount);
    var diff := DecimalSub(amount, platform);
    if amount.scale <= Scale then
      SubExact(amount, platform);
      FromUnits(SetScale4(diff))
    else
      FromUnits(SetScale4(diff))
  }

  /** Exact subtraction survives rounding when neither side has more than four
      decimals. */
  lemma SubExact(a: Decimal, b: Decimal)
    requires a.scale <= Scale && b.scale <= Scale
    ensures SetScale4(DecimalSub(a, b)) == SetScale4(a) - SetScale4(b)
  {
    var nb := Decimal(-b.unscaled, b.scale);
    SetScale4Add(a, nb);
    assert SetScale4(nb) == -SetScale4(b) by {
      SetScale4Small(nb);
      SetScale4Small(b);
      Negate(b.unscaled, Pow10(Scale - b.scale));
    }
  }

  lemma Negate(x: int, q: int)
    ensures (-x) * q == -(x * q)
  {
  }

  /** With the column scales (amount at 4 decimals, percentage at 2) a percentage
      between 0 and 100 gives a platform share between 0 and the amount. */
  lemma PercentageShareBounded(configs: Configs, merchantId: Uuid, amount: Decimal)
    requires merchantId in configs && configs[merchantId].commissionType == PERCENTAGE
    requires amount.scale == Scale && amount.unscaled >= 0
    requires configs[merchantId].percentageValue.scale == 2
    requires 0 <= configs[merchantId].percentageValue.unscaled <= 100 * 100
    ensures 0 <= PlatformShare(configs, merchantId, amount).unscaled <= amount.unscaled
  {
    var pct := configs[merchantId].percentageValue;
    var r := PercentOf(amount, pct);
    var n := amount.unscaled * pct.unscaled;
    assert Pow10(1) == 10 && Pow10(2) == 100 && Pow10(3) == 1000 && Pow10(4) == 10000;
    Pow10Add(4, 4);
    var d := Pow10(8);
    assert d == 100000000;
    assert 2 * r * d - d <= 2 * n * UnitsPerWhole;
    assert n <= amount.unscaled * 10000 by {
      MulMono(amount.unscaled, pct.unscaled, 10000);
    }
  }

  lemma MulMono(a: int, b: int, c: int)
    requires a >= 0 && b <= c
    ensures a * b <= a * c
  {
  }

  /** The platform share and the vendor share add up to an amount of at most
      four decimals, whatever the configuration. A merchant with no configuration
      leaves the vendor the whole amount, and a non-negative platform share never
      gives the vendor more than the amount. */
  lemma SharesAddUp(configs: Configs, merchantId: Uuid, amount: Decimal)
    requires amount.scale <= Scale
    ensures SetScale4(PlatformShare(configs, merchantId, amount)) + VendorShare(configs, merchantId, amount).unscaled
            == SetScale4(amount)
    ensures merchantId !in configs ==> VendorShare(configs, merchantId, amount) == FromUnits(SetScale4(amount))
    ensures SetScale4(PlatformShare(configs, merchantId, amount)) >= 0 ==>
              VendorShare(configs, merchantId, amount).unscaled <= SetScale4(amount)
  {
  }

  /** Nothing bounds the fixed part by the amount: a fixed fee above the order
      amount makes the vendor share negative. */
  lemma FixedFeeAboveAmount(configs: Configs, merchantId: Uuid, amount: Decimal)
    requires merchantId in configs && configs[merchantId].commissionType == FIXED_PLUS_PERCENTAGE
    requires configs[merchantId].fixedAmount.Some? && configs[merchantId].fixedAmount.value.scale <= Scale
    requires configs[merchantId].percentageValue.unscaled >= 0
    requires amount.scale <= Scale && amount.unscaled >= 0
    requires SetScale4(configs[merchantId].fixedAmount.value) > SetScale4(amount)
    ensures VendorShare(configs, merchantId, amount).unscaled < 0
  {
  }

  /** An illustration of `FixedFeeAboveAmount` with concrete numbers: 5.0000
      fixed and 0% on an order of 1.0000 leaves the vendor -4.0000. */
  lemma FixedFeeExample(m: Uuid)
    ensures var configs := map[m := MerchantCommission(m, FIXED_PLUS_PERCENTAGE, Decimal(0, 2), Some(Decimal(50000, 4)))];
            VendorShare(configs, m, Decimal(10000, 4)) == Decimal(-40000, 4)
  {
    var configs := map[m := MerchantCommission(m, FIXED_PLUS_PERCENTAGE, Decimal(0, 2), Some(Decimal(50000, 4)))];
    FixedFeeAboveAmount(configs, m, Decimal(10000, 4));
    assert PercentOf(Decimal(10000, 4), Decimal(0, 2)) == 0;
  }
}

=== FILE: confirm_reservation.dfy ===
/** `ConfirmReservationUseCase`: settles a reservation by turning its PENDING
    entry CONFIRMED, from which point it counts towards the balance. */
module ConfirmReservation {
  import opened Wrappers
  import opened Base
  import opened LedgerEntries
  import opened LedgerRepository
  import opened LedgerStore

  /** `execute`: an entry already CONFIRMED is returned as it is; only a PENDING
      entry may be confirmed. No funds check is made at this point. */
  function Execute(s: LedgerState, entryId: Uuid): (r: Result<(LedgerState, LedgerEntry), Error>)
    ensures FindIndexById(s.entries, entryId).None? ==> r == Failure(LedgerEntryNotFound(entryId))
    ensures FindIndexById(s.entries, entryId).Some? ==>
              var e := s.entries[FindIndexById(s.entries, entryId).value];
              && (e.status == REVERSED <==> r.Failure?)
              && (e.status == REVERSED ==> r.error == IllegalState(NotPending))
              && (e.status == CONFIRMED ==> r == Success((s, e)))
              && (e.status == PENDING ==>
                    var (s', c) := r.value;
                    && c == e.(status := CONFIRMED)
                    && s' == s.(entries := s.entries[FindIndexById(s.entries, entryId).value := c])
                    && Balance(s', e.walletId) == Balance(s, e.walletId) + e.Signed()
                    && forall w :: w != e.walletId ==> Balance(s', w) == Balance(s, w))
    ensures r.Success? ==> r.value.1.id == entryId && r.value.1.IsConfirmed()
    ensures r.Success? ==> Evolves(s.entries, r.value.0.entries) && |r.value.0.entries| == |s.entries|
    ensures r.Success? && Valid(s) ==> Valid(r.value.0)
  {
    match FindIndexById(s.entries, entryId)
    case None => Failure(LedgerEntryNotFound(entryId))
    case Some(i) =>
      var e := s.entries[i];
      if e.status == CONFIRMED then Success((s, e))
      else if e.status != PENDING then Failure(IllegalState(NotPending))
      else
        var s' := SetStatus(s, i, CONFIRMED);
        assert forall w :: Balance(s', w) == Balance(s, w) - e.Contribution(w) + s'.entries[i].Contribution(w) by {
          forall w ensures Balance(s', w) == Balance(s, w) - e.Contribution(w) + s'.entries[i].Contribution(w) {
            BalanceUpdate(s.entries, i, s'.entries[i], w);
          }
        }
        Success((s', s'.entries[i]))
  }

  /** Confirming is idempotent: a second call returns the confirmed entry and
      writes nothing. */
  lemma ConfirmIdempotent(s: LedgerState, entryId: Uuid)
    requires Execute(s, entryId).Success?
    ensures var (s', e) := Execute(s, entryId).value;
            Execute(s', entryId) == Success((s', e))
  {
    var i := FindIndexById(s.entries, entryId).value;
    var (s', e) := Execute(s, entryId).value;
    if s.entries[i].status == PENDING {
      FindIndexByIdUpdate(s.entries, i, e, entryId);
    }
  }

  /** A reversed reservation can never be confirmed. */
  lemma ReversedStaysReversed(s: LedgerState, entryId: Uuid, i: nat)
    requires FindIndexById(s.entries, entryId) == Some(i) && s.entries[i].IsReversed()
    ensures Execute(s, entryId) == Failure(IllegalState(NotPending))
  {
  }
}

=== FILE: create_user.dfy ===
/** `CreateUserUseCase`: registers a MERCHANT, ADMIN or SYSTEM user. A merchant
    gets a fresh merchant id and a MAIN and an ESCROW wallet in the same
    transaction. The password arrives already encoded. */
module CreateUser {
  import opened Wrappers
  import opened Base
  import opened Monetary
  import Text
  import opened Wallets
  import opened Users
  import opened LedgerStore
  import CreateWallet

  /** `CreateUserResult`: the wallet ids are null for a user that is no merchant. */
  datatype CreateUserResult = CreateUserResult(user: User, mainWalletId: Option<Uuid>, escrowWalletId: Option<Uuid>)

  /** The `catch (DataIntegrityViolationException e)`: a unique index refusing a
      row is reported as a duplicate user; every other failure passes through. */
  function ReportDuplicate<T>(r: Result<T, Error>, username: string): (r': Result<T, Error>)
    ensures r.Success? ==> r' == r
    ensures r.Failure? && r.error == DataIntegrityViolation ==> r' == Failure(UserAlreadyExists(username))
    ensures r.Failure? && r.error != DataIntegrityViolation ==> r' == r
  {
    if r.Failure? && r.error == DataIntegrityViolation then Failure(UserAlreadyExists(username)) else r
  }

  /** The checks made before anything is written, in their order. */
  function Precheck(s: LedgerState, username: string, roles: Option<set<Role>>, currencyCode: Option<string>)
    : (r: Outcome<Error>)
    ensures roles.None? || roles.value == {} ==> r == Fail(IllegalArgument(RolesRequired))
    ensures r.Pass? <==>
              && roles.Some? && roles.value != {} && Role.VENDOR !in roles.value
              && (MERCHANT in roles.value ==> currencyCode.Some? && !Text.IsBlank(currencyCode.value))
              && FindUser(s.users, username).None?
  {
    if roles.None? || roles.value == {} then Fail(IllegalArgument(RolesRequired))
    else if Role.VENDOR in roles.value then Fail(IllegalArgument(VendorRoleForbidden))
    else if MERCHANT in roles.value && (currencyCode.None? || Text.IsBlank(currencyCode.value)) then
      Fail(IllegalArgument(MerchantCurrencyRequired))
    else if FindUser(s.users, username).Some? then Fail(UserAlreadyExists(username))
    else Pass
  }

  /** The code the merchant's wallets are created with. */
  function WalletCode(currencyCode: string): string {
    Text.ToUpper(Text.Trim(currencyCode))
  }

  /** The MAIN and ESCROW wallets of a new merchant, created one after the other. */
  function MerchantWallets(s: LedgerState, merchantId: Uuid, code: string, username: string, now: Instant)
    : (r: Result<(LedgerState, Wallet, Wallet), Error>)
    ensures r.Success? <==>
              && CurrencyOf(s.iso, Some(code)).Success?
              // the unique index never refuses a wallet without a vendor
              && !WalletKeyExists(s.wallets, WalletKey(merchantId, code, Some(MAIN), None))
              && !WalletKeyExists(s.wallets, WalletKey(merchantId, code, Some(ESCROW), None))
    ensures r.Success? ==>
              var (s', main, escrow) := r.value;
              && s'.wallets == s.wallets + [main, escrow]
              && main.Key() == WalletKey(merchantId, Text.ToUpper(code), Some(MAIN), None)
              && escrow.Key() == WalletKey(merchantId, Text.ToUpper(code), Some(ESCROW), None)
              && main.status == WalletStatus.ACTIVE && escrow.status == WalletStatus.ACTIVE
              && s'.entries == s.entries && s'.users == s.users && s'.iso == s.iso
    ensures r.Success? && Valid(s) ==> Valid(r.value.0)
  {
    var main :- ReportDuplicate(CreateWallet.Execute(s, merchantId, code, MAIN, None, now), username);
    var s1 := main.0;
    assert forall t: WalletType, c: string :: t != MAIN ==>
             (WalletKeyExists(s1.wallets, WalletKey(merchantId, c, Some(t), None)) <==>
              WalletKeyExists(s.wallets, WalletKey(merchantId, c, Some(t), None))) by {
      assert forall i :: 0 <= i < |s.wallets| ==> s1.wallets[i] == s.wallets[i];
      assert s1.wallets[|s.wallets|] == main.1;
    }
    var escrow :- ReportDuplicate(CreateWallet.Execute(s1, merchantId, code, ESCROW, None, now), username);
    assert escrow.0.wallets == s.wallets + [main.1, escrow.1];
    Success((escrow.0, main.1, escrow.1))
  }

  /** `execute(username, password, roles, currencyCode)`. */
  function Execute(s: LedgerState, username: string, passwordHash: string, roles: Option<set<Role>>,
                   currencyCode: Option<string>, now: Instant): (r: Result<(LedgerState, CreateUserResult), Error>)
    ensures Precheck(s, username, roles, currencyCode).Fail? ==>
              r == Failure(Precheck(s, username, roles, currencyCode).error)
    ensures Precheck(s, username, roles, currencyCode).Pass? && MERCHANT !in roles.value ==> r.Success?
    ensures Precheck(s, username, roles, currencyCode).Pass? && MERCHANT in roles.value ==>
              var code := WalletCode(currencyCode.value);
              (r.Success? <==>
                 && CurrencyOf(s.iso, Some(code)).Success?
                 && !WalletKeyExists(s.wallets, WalletKey(s.nextId, code, Some(MAIN), None))
                 && !WalletKeyExists(s.wallets, WalletKey(s.nextId, code, Some(ESCROW), None)))
    ensures r.Success? ==>
              var (s', res) := r.value;
              var u := res.user;
              && u.Complete() && u.username == username && u.passwordHash == passwordHash
              && u.roles == roles && u.status == Some(UserStatus.ACTIVE)
              && s'.users == s.users + [u]
              && (u.merchantId.Some? <==> MERCHANT in roles.value)
              && (res.mainWalletId.Some? <==> MERCHANT in roles.value)
              && (res.escrowWalletId.Some? <==> MERCHANT in roles.value)
              && s'.entries == s.entries
              && (MERCHANT !in roles.value ==> s'.wallets == s.wallets)
              && (MERCHANT in roles.value ==>
                    && |s'.wallets| == |s.wallets| + 2
                    && s'.wallets[|s.wallets|].Key()
                       == WalletKey(u.merchantId.value, WalletCode(currencyCode.value), Some(MAIN), None)
                    && s'.wallets[|s.wallets| + 1].Key()
                       == WalletKey(u.merchantId.value, WalletCode(currencyCode.value), Some(ESCROW), None)
                    && res.mainWalletId == Some(s'.wallets[|s.wallets|].id)
                    && res.escrowWalletId == Some(s'.wallets[|s.wallets| + 1].id))
    ensures r.Success? && Valid(s) ==> Valid(r.value.0)
  {
    if Precheck(s, username, roles, currencyCode).Fail? then Failure(Precheck(s, username, roles, currencyCode).error) else
    var merchant := MERCHANT in roles.value;
    var merchantId: Option<Uuid> := if merchant then Some(s.nextId) else None;
    var s1 := if merchant then s.(nextId := s.nextId + 1) else s;
    var (userId, s2) := Fresh(s1);
    var u := User(Some(userId), username, passwordHash, roles, merchantId, Some(UserStatus.ACTIVE), Some(now), Some(now));
    assert FindUser(s2.users, username).None?;
    match InsertUser(s2, u, now)
    case Failure(e) => Failure(e)
    case Success(saved) =>
      assert Valid(s) ==> Valid(s2) by {
        if Valid(s) {
          FreshIsNew(s);
          if merchant { FreshIsNew(s1); }
        }
      }
      if merchant then
        var code := WalletCode(currencyCode.value);
        Text.ToUpperIdempotent(Text.Trim(currencyCode.value));
        var ws :- MerchantWallets(saved.0, merchantId.value, code, username, now);
        Success((ws.0, CreateUserResult(saved.1, Some(ws.1.id), Some(ws.2.id))))
      else Success((saved.0, CreateUserResult(saved.1, None, None)))
  }
}

=== FILE: create_wallet.dfy ===
/** `CreateWalletUseCase`: opens a MAIN, ESCROW or VENDOR wallet for a merchant,
    at most one per (merchant, currency, type, vendor). */
module CreateWallet {
  import opened Wrappers
  import opened Base
  import opened Monetary
  import Text
  import opened Wallets
  import opened Users
  import opened Outbox
  import opened LedgerStore

  /** The vendor user exists, holds the VENDOR role and belongs to the merchant. */
  predicate VendorUnderMerchant(users: seq<User>, vendorUserId: Uuid, merchantId: Uuid) {
    && FindUserById(users, vendorUserId).Some?
    && FindUserById(users, vendorUserId).value.HasRole(Role.VENDOR)
    && FindUserById(users, vendorUserId).value.merchantId == Some(merchantId)
  }

  /** The type and vendor arguments agree and a VENDOR wallet's user qualifies. */
  predicate Admissible(s: LedgerState, merchantId: Uuid, walletType: WalletType, vendorUserId: Option<Uuid>) {
    && (walletType == WalletType.VENDOR <==> vendorUserId.Some?)
    && (walletType == WalletType.VENDOR ==> VendorUnderMerchant(s.users, vendorUserId.value, merchantId))
  }

  /** `execute(merchantId, currencyCode, walletType, vendorUserId)`. The duplicate
      check uses the code as given, while the wallet stores the upper-cased code:
      a lower-case duplicate passes the check, and only a VENDOR wallet is then
      refused by the unique index, which never clashes on a null vendor. */
  function Execute(s: LedgerState, merchantId: Uuid, currencyCode: string, walletType: WalletType,
                   vendorUserId: Option<Uuid>, now: Instant): (r: Result<(LedgerState, Wallet), Error>)
    ensures walletType == WalletType.VENDOR && vendorUserId.None? ==> r == Failure(IllegalArgument(VendorIdRequired))
    ensures walletType != WalletType.VENDOR && vendorUserId.Some? ==> r == Failure(IllegalArgument(VendorIdForbidden))
    ensures walletType == WalletType.VENDOR && vendorUserId.Some? && !VendorUnderMerchant(s.users, vendorUserId.value, merchantId) ==>
              r == Failure(IllegalArgument(VendorNotUnderMerchant))
    ensures Admissible(s, merchantId, walletType, vendorUserId)
            && WalletKeyExists(s.wallets, WalletKey(merchantId, currencyCode, Some(walletType), vendorUserId)) ==>
              r == Failure(WalletAlreadyExists)
    ensures r.Success? <==>
              && Admissible(s, merchantId, walletType, vendorUserId)
              && CurrencyOf(s.iso, Some(currencyCode)).Success?
              && !WalletKeyExists(s.wallets, WalletKey(merchantId, currencyCode, Some(walletType), vendorUserId))
              && !WalletKeyTaken(s.wallets, WalletKey(merchantId, Text.ToUpper(currencyCode), Some(walletType), vendorUserId))
    ensures r.Success? ==>
              var (s', w) := r.value;
              && w == Wallet(s.nextId, merchantId, Some(walletType), vendorUserId, Text.ToUpper(currencyCode), WalletStatus.ACTIVE, now, now)
              && w.GetCurrency(s.iso) == CurrencyOf(s.iso, Some(currencyCode))
              && s'.wallets == s.wallets + [w]
              && s'.outbox == s.outbox + [OutboxRecord(s.nextId + 1, WalletCreated(w.id, merchantId, w.currencyCode), now, false)]
              && s'.entries == s.entries && s'.users == s.users && s'.iso == s.iso
    ensures r.Success? && Valid(s) ==> Valid(r.value.0)
  {
    if walletType == WalletType.VENDOR && vendorUserId.None? then Failure(IllegalArgument(VendorIdRequired))
    else if walletType != WalletType.VENDOR && vendorUserId.Some? then Failure(IllegalArgument(VendorIdForbidden))
    else if walletType == WalletType.VENDOR && !VendorUnderMerchant(s.users, vendorUserId.value, merchantId) then
      Failure(IllegalArgument(VendorNotUnderMerchant))
    else if WalletKeyExists(s.wallets, WalletKey(merchantId, currencyCode, Some(walletType), vendorUserId)) then
      Failure(WalletAlreadyExists)
    else
      var currency :- CurrencyOf(s.iso, Some(currencyCode));
      var (id, s1) := Fresh(s);
      var w := Wallet(id, merchantId, Some(walletType), vendorUserId, currency.code, WalletStatus.ACTIVE, now, now);
      var s2 :- InsertWallet(s1, w);
      // the event reads the currency back through `getCurrency`, which returns it unchanged
      CurrencyOfNormalises(s.iso, currencyCode);
      assert Valid(s) ==> Valid(s1) by {
        if Valid(s) { FreshIsNew(s); }
      }
      assert Valid(s) && vendorUserId.Some? ==> vendorUserId.value < s.nextId by {
        if Valid(s) && vendorUserId.Some? {
          var u := FindUserById(s.users, vendorUserId.value).value;
          var i :| 0 <= i < |s.users| && s.users[i] == u;
        }
      }
      Success((Publish(s2, WalletCreated(id, merchantId, currency.code), now), w))
  }

  /** `execute(merchantId, currencyCode)`: a MAIN wallet. */
  function ExecuteMain(s: LedgerState, merchantId: Uuid, currencyCode: string, now: Instant)
    : (r: Result<(LedgerState, Wallet), Error>)
    ensures r.Success? ==> r.value.1.GetWalletType() == MAIN && r.value.1.vendorUserId.None?
  {
    Execute(s, merchantId, currencyCode, MAIN, None, now)
  }

  /** Creating the same wallet again. With the code in upper case the duplicate
      check refuses it, and a VENDOR wallet is refused by the unique index; a MAIN
      or ESCROW wallet asked for with a lower-case code is created a second time,
      so two rows then carry one key. */
  lemma CreateAgain(s: LedgerState, merchantId: Uuid, currencyCode: string, walletType: WalletType,
                    vendorUserId: Option<Uuid>, now: Instant, now2: Instant)
    requires Execute(s, merchantId, currencyCode, walletType, vendorUserId, now).Success?
    ensures var (s', w) := Execute(s, merchantId, currencyCode, walletType, vendorUserId, now).value;
            var again := Execute(s', merchantId, currencyCode, walletType, vendorUserId, now2);
            && (again.Failure? <==> Text.ToUpper(currencyCode) == currencyCode || vendorUserId.Some?)
            && (Text.ToUpper(currencyCode) == currencyCode ==> again == Failure(WalletAlreadyExists))
            && (Text.ToUpper(currencyCode) != currencyCode && vendorUserId.Some? ==> again == Failure(DataIntegrityViolation))
            && (again.Success? ==> KeyMatchesTwice(again.value.0.wallets, w.Key()))
  {
    var (s', w) := Execute(s, merchantId, currencyCode, walletType, vendorUserId, now).value;
    var upper := WalletKey(merchantId, Text.ToUpper(currencyCode), Some(walletType), vendorUserId);
    assert s'.wallets[|s.wallets|] == w;
    assert WalletKeyExists(s'.wallets, upper);
    if Text.ToUpper(currencyCode) != currencyCode {
      var raw := WalletKey(merchantId, currencyCode, Some(walletType), vendorUserId);
      assert !WalletKeyExists(s'.wallets, raw) by {
        assert forall i :: 0 <= i < |s.wallets| ==> s'.wallets[i] == s.wallets[i];
      }
      if vendorUserId.Some? {
        assert KeysClash(s'.wallets[|s.wallets|].Key(), upper);
      } else {
        var (s'', w2) := Execute(s', merchantId, currencyCode, walletType, vendorUserId, now2).value;
        assert s''.wallets[|s.wallets|] == w && s''.wallets[|s.wallets| + 1] == w2;
      }
    }
  }

  /** The creation as evidently intended: the duplicate check looks up the code
      the wallet is stored under, so a differently cased request is caught too. */
  function ExecuteNormalised(s: LedgerState, merchantId: Uuid, currencyCode: string, walletType: WalletType,
                             vendorUserId: Option<Uuid>, now: Instant): (r: Result<(LedgerState, Wallet), Error>)
    ensures r.Success? <==>
              && Admissible(s, merchantId, walletType, vendorUserId)
              && CurrencyOf(s.iso, Some(currencyCode)).Success?
              && !WalletKeyExists(s.wallets, WalletKey(merchantId, Text.ToUpper(currencyCode), Some(walletType), vendorUserId))
    ensures r.Success? ==>
              && r.value.1.Key() == WalletKey(merchantId, Text.ToUpper(currencyCode), Some(walletType), vendorUserId)
              && r.value.0.wallets == s.wallets + [r.value.1]
    ensures r.Success? && Valid(s) ==> Valid(r.value.0)
    ensures r.Success? && KeysDistinct(s.wallets) ==> KeysDistinct(r.value.0.wallets)
  {
    Text.ToUpperIdempotent(currencyCode);
    assert CurrencyOf(s.iso, Some(Text.ToUpper(currencyCode))) == CurrencyOf(s.iso, Some(currencyCode));
    Execute(s, merchantId, Text.ToUpper(currencyCode), walletType, vendorUserId, now)
  }

  /** On an upper-case code the program and the corrected creation agree; the
      model's callers (new merchants and vendors) always pass one. */
  lemma NormalisedAgreesOnUpperCase(s: LedgerState, merchantId: Uuid, currencyCode: string, walletType: WalletType,
                                    vendorUserId: Option<Uuid>, now: Instant)
    requires Text.ToUpper(currencyCode) == currencyCode
    ensures ExecuteNormalised(s, merchantId, currencyCode, walletType, vendorUserId, now)
            == Execute(s, merchantId, currencyCode, walletType, vendorUserId, now)
  {
  }

  /** Under the corrected creation, creating the same wallet again always fails
      on the duplicate check, whatever the case of the code. */
  lemma CreateAgainNormalisedFails(s: LedgerState, merchantId: Uuid, currencyCode: string, walletType: WalletType,
                                   vendorUserId: Option<Uuid>, now: Instant, now2: Instant)
    requires ExecuteNormalised(s, merchantId, currencyCode, walletType, vendorUserId, now).Success?
    ensures var s' := ExecuteNormalised(s, merchantId, currencyCode, walletType, vendorUserId, now).value.0;
            ExecuteNormalised(s', merchantId, currencyCode, walletType, vendorUserId, now2) == Failure(WalletAlreadyExists)
  {
    var (s', w) := ExecuteNormalised(s, merchantId, currencyCode, walletType, vendorUserId, now).value;
    assert s'.wallets[|s.wallets|] == w;
    Text.ToUpperIdempotent(currencyCode);
    assert WalletKeyExists(s'.wallets, w.Key());
  }
}

=== FILE: credit_wallet.dfy ===
/** `CreditWalletUseCase`: adds money to a wallet, once per
    (wallet, referenceId, referenceType). */
module CreditWallet {
  import opened Wrappers
  import opened Base
  import opened Monetary
  import opened LedgerEntries
  import opened LedgerEntryFactory
  import opened LedgerRepository
  import opened Wallets
  import opened Outbox
  import opened LedgerStore

  /** The entry a fresh credit appends. */
  function NewCredit(s: LedgerState, w: Wallet, amount: Money, refType: ReferenceType,
                     referenceId: string, description: Option<string>, now: Instant): LedgerEntry
  {
    CreateCredit(s.nextId, EntryArgs(w.id, w.merchantId, w.vendorUserId, amount, Some(refType),
                                     Some(referenceId), Some(CONFIRMED), description), now)
  }

  /** `execute`. Wallet checks come first; an existing entry for the key is then
      returned as it is, whatever its amount; otherwise one CONFIRMED CREDIT is
      appended and one `WalletCredited` event is published. */
  function Execute(s: LedgerState, walletId: Uuid, amount: Money, referenceType: Option<ReferenceType>,
                   referenceId: string, description: Option<string>, now: Instant)
    : (r: Result<(LedgerState, LedgerEntry), Error>)
    ensures LoadActiveWallet(s, walletId, amount.currency).Failure? ==>
              r == LoadActiveWallet(s, walletId, amount.currency).PropagateFailure()
    ensures r.Success? <==> LoadActiveWallet(s, walletId, amount.currency).Success?
    // replay: the stored entry, and nothing written
    ensures r.Success? && FindByKey(s.entries, EntryKey(walletId, referenceId, referenceType.GetOr(ORDER))).Some? ==>
              r.value.0 == s
              && r.value.1 == FindByKey(s.entries, EntryKey(walletId, referenceId, referenceType.GetOr(ORDER))).value
    // first call: one new confirmed credit and one event
    ensures r.Success? && FindByKey(s.entries, EntryKey(walletId, referenceId, referenceType.GetOr(ORDER))).None? ==>
              var (s', e) := r.value;
              && s'.entries == s.entries + [e]
              && e.entryType == CREDIT && e.status == CONFIRMED && e.amountValue == amount.amount
              && e.currencyCode == amount.currency.code
              && e.Key() == EntryKey(walletId, referenceId, referenceType.GetOr(ORDER))
              && s'.outbox == s.outbox + [OutboxRecord(s.nextId + 1, WalletCredited(walletId, amount.amount, amount.currency.code, referenceId), now, false)]
              && s'.wallets == s.wallets && s'.users == s.users && s'.iso == s.iso
              && Balance(s', walletId) == Balance(s, walletId) + amount.amount
    ensures r.Success? ==> Evolves(s.entries, r.value.0.entries)
    ensures r.Success? && Valid(s) ==> Valid(r.value.0)
  {
    var w :- LoadActiveWallet(s, walletId, amount.currency);
    var refType := referenceType.GetOr(ORDER);
    var existing := FindByKey(s.entries, EntryKey(walletId, referenceId, refType));
    if existing.Some? then Success((s, existing.value))
    else Success(AppendCredit(s, w, amount, refType, referenceId, description, now))
  }

  /** The first call's writes: the credit under a free key, then its event. */
  function AppendCredit(s: LedgerState, w: Wallet, amount: Money, refType: ReferenceType, referenceId: string,
                        description: Option<string>, now: Instant): (r: (LedgerState, LedgerEntry))
    requires FindByKey(s.entries, EntryKey(w.id, referenceId, refType)).None?
    ensures var (s', e) := r;
            && s'.entries == s.entries + [e]
            && e.entryType == CREDIT && e.status == CONFIRMED && e.amountValue == amount.amount
            && e.currencyCode == amount.currency.code
            && e.Key() == EntryKey(w.id, referenceId, refType)
            && s'.outbox == s.outbox + [OutboxRecord(s.nextId + 1, WalletCredited(w.id, amount.amount, amount.currency.code, referenceId), now, false)]
            && s'.wallets == s.wallets && s'.users == s.users && s'.iso == s.iso
            && Balance(s', w.id) == Balance(s, w.id) + amount.amount
    ensures Evolves(s.entries, r.0.entries)
    ensures Valid(s) ==> Valid(r.0)
  {
    var e := NewCredit(s, w, amount, refType, referenceId, description, now);
    var (id, s1) := Fresh(s);
    var s2 := InsertEntry(s1, e).value;
    var s3 := Publish(s2, WalletCredited(w.id, amount.amount, amount.currency.code, referenceId), now);
    BalanceAppend(s.entries, e, w.id);
    EvolvesByAppend(s.entries, [e]);
    assert Valid(s) ==> Valid(s1) by {
      if Valid(s) { FreshIsNew(s); }
    }
    (s3, e)
  }

  /** The credit is idempotent: repeating a successful call returns the same entry
      and writes nothing, so the balance is raised once. The replay returns the
      stored entry even when the amount differs from the one first credited. */
  lemma ReplayIsIdempotent(s: LedgerState, walletId: Uuid, a1: Money, a2: Money, referenceType: Option<ReferenceType>,
                            referenceId: string, description: Option<string>, now: Instant, now2: Instant)
    requires a1.currency == a2.currency
    requires Execute(s, walletId, a1, referenceType, referenceId, description, now).Success?
    ensures var (s', e) := Execute(s, walletId, a1, referenceType, referenceId, description, now).value;
            Execute(s', walletId, a2, referenceType, referenceId, description, now2) == Success((s', e))
  {
    var (s', e) := Execute(s, walletId, a1, referenceType, referenceId, description, now).value;
    var k := EntryKey(walletId, referenceId, referenceType.GetOr(ORDER));
    assert LoadActiveWallet(s', walletId, a2.currency) == LoadActiveWallet(s, walletId, a1.currency);
    if FindByKey(s.entries, k).None? {
      assert s'.entries[|s'.entries| - 1] == e;
    }
  }
}

=== FILE: debit_wallet.dfy ===
/** `DebitWalletUseCase`: takes money out of a wallet that holds enough. It looks
    for no earlier entry, so a repeated call is refused by the unique index. */
module DebitWallet {
  import opened Wrappers
  import opened Base
  import opened Monetary
  import opened LedgerEntries
  import opened LedgerEntryFactory
  import opened LedgerRepository
  import opened Wallets
  import opened Outbox
  import opened LedgerStore

  function NewDebit(s: LedgerState, w: Wallet, amount: Money, refType: ReferenceType,
                    referenceId: string, description: Option<string>, now: Instant): LedgerEntry
  {
    CreateDebit(s.nextId, EntryArgs(w.id, w.merchantId, w.vendorUserId, amount, Some(refType),
                                    Some(referenceId), Some(CONFIRMED), description), now)
  }

  /** `execute`: wallet checks, then the confirmed balance must cover the amount,
      then one CONFIRMED DEBIT is appended and one `WalletDebited` event published. */
  function Execute(s: LedgerState, walletId: Uuid, amount: Money, referenceType: Option<ReferenceType>,
                   referenceId: string, description: Option<string>, now: Instant)
    : (r: Result<(LedgerState, LedgerEntry), Error>)
    ensures LoadActiveWallet(s, walletId, amount.currency).Failure? ==>
              r == LoadActiveWallet(s, walletId, amount.currency).PropagateFailure()
    ensures LoadActiveWallet(s, walletId, amount.currency).Success? && Balance(s, walletId) < amount.amount ==>
              r == Failure(InsufficientBalance(walletId))
    ensures LoadActiveWallet(s, walletId, amount.currency).Success? && Balance(s, walletId) >= amount.amount ==>
              (r.Failure? <==> FindByKey(s.entries, EntryKey(walletId, referenceId, referenceType.GetOr(ORDER))).Some?)
    ensures r.Failure? && LoadActiveWallet(s, walletId, amount.currency).Success? && Balance(s, walletId) >= amount.amount ==>
              r.error == DataIntegrityViolation
    ensures r.Success? ==>
              var (s', e) := r.value;
              && s'.entries == s.entries + [e]
              && e.entryType == DEBIT && e.status == CONFIRMED && e.amountValue == amount.amount
              && e.currencyCode == amount.currency.code
              && e.Key() == EntryKey(walletId, referenceId, referenceType.GetOr(ORDER))
              && s'.outbox == s.outbox + [OutboxRecord(s.nextId + 1, WalletDebited(walletId, amount.amount, amount.currency.code, referenceId), now, false)]
              && s'.wallets == s.wallets && s'.users == s.users && s'.iso == s.iso
              && Balance(s', walletId) == Balance(s, walletId) - amount.amount >= 0
    ensures r.Success? ==> Evolves(s.entries, r.value.0.entries)
    ensures r.Success? && Valid(s) ==> Valid(r.value.0)
  {
    var w :- LoadActiveWallet(s, walletId, amount.currency);
    if Balance(s, walletId) < amount.amount then Failure(InsufficientBalance(walletId))
    else
      var refType := referenceType.GetOr(ORDER);
      var e := NewDebit(s, w, amount, refType, referenceId, description, now);
      var (id, s1) := Fresh(s);
      var s2 :- InsertEntry(s1, e);
      var s3 := Publish(s2, WalletDebited(walletId, amount.amount, amount.currency.code, referenceId), now);
      BalanceAppend(s.entries, e, walletId);
      assert Valid(s) ==> Valid(s1) by {
        if Valid(s) { FreshIsNew(s); }
      }
      Success((s3, e))
  }

  /** Debit is not idempotent: repeating a successful call never succeeds. It fails
      on the unique index while funds remain, and on the balance check otherwise. */
  lemma RetryFails(s: LedgerState, walletId: Uuid, amount: Money, referenceType: Option<ReferenceType>,
                   referenceId: string, description: Option<string>, now: Instant, now2: Instant)
    requires Execute(s, walletId, amount, referenceType, referenceId, description, now).Success?
    ensures var (s', e) := Execute(s, walletId, amount, referenceType, referenceId, description, now).value;
            var retry := Execute(s', walletId, amount, referenceType, referenceId, description, now2);
            && retry.Failure?
            && (Balance(s', walletId) >= amount.amount ==> retry.error == DataIntegrityViolation)
            && (Balance(s', walletId) < amount.amount ==> retry.error == InsufficientBalance(walletId))
  {
    var (s', e) := Execute(s, walletId, amount, referenceType, referenceId, description, now).value;
    assert LoadActiveWallet(s', walletId, amount.currency) == LoadActiveWallet(s, walletId, amount.currency);
    assert s'.entries[|s'.entries| - 1] == e;
  }
}

=== FILE: findings.dfy ===
/** Two places where the ledger creates money, and reservations that can take a
    balance below zero. Each is stated twice: about the use case as written, and
    about a corrected definition that keeps the intended balance property. */
module Findings {
  import opened Wrappers
  import opened Base
  import opened Monetary
  import opened LedgerEntries
  import opened LedgerRepository
  import opened LedgerStore
  import ReserveWallet
  import ReverseReservation
  import ConfirmReservation
  import DebitWallet
  import CreditWallet
  import Transfer
  import Text
  import Wallets
  import LedgerEntryFactory

  // ---- Reversal of a reservation

  /** Reserving and then reversing, as written, leaves the wallet richer by the
      reserved amount: the pending debit never lowered the balance, and the
      compensating credit raises it. */
  lemma ReserveThenReverseMints(s: LedgerState, walletId: Uuid, amount: Money, referenceId: string,
                                description: Option<string>, now: Instant, now2: Instant)
    requires ReserveWallet.Execute(s, walletId, amount, referenceId, description, now).Success?
    requires ReserveWallet.Execute(s, walletId, amount, referenceId, description, now).value.0 != s
    requires FindByKey(s.entries, EntryKey(walletId, referenceId + "-reversal", REVERSAL)).None?
    ensures var (s1, e) := ReserveWallet.Execute(s, walletId, amount, referenceId, description, now).value;
            var r := ReverseReservation.Execute(s1, e.id, now2);
            && r.Success?
            && Balance(r.value.0, walletId) == Balance(s, walletId) + amount.amount
  {
    var (s1, e) := ReserveWallet.Execute(s, walletId, amount, referenceId, description, now).value;
    var w := LoadActiveWallet(s, walletId, amount.currency).value;
    var i := |s.entries|;
    assert s1.entries[i] == e;
    assert FindIndexById(s1.entries, e.id) == Some(i);
    ReverseReservation.ReversalKeyDiffers(e);
    assert ReverseReservation.ReversalKey(e) == EntryKey(walletId, referenceId + "-reversal", REVERSAL);
    assert FindByKey(s1.entries, ReverseReservation.ReversalKey(e)).None?;
    CurrencyOfNormalises(s.iso, w.currencyCode);
    assert e.GetAmount(s1.iso).Success?;
  }

  /** The reversal evidently intended: a PENDING reservation never counted
      towards the balance, so releasing it only marks it REVERSED. */
  function ReverseReleasing(s: LedgerState, entryId: Uuid): (r: Result<(LedgerState, LedgerEntry), Error>)
    ensures FindIndexById(s.entries, entryId).None? ==> r == Failure(LedgerEntryNotFound(entryId))
    ensures FindIndexById(s.entries, entryId).Some? ==>
              var i := FindIndexById(s.entries, entryId).value;
              var p := s.entries[i];
              && (p.status == CONFIRMED ==> r == Failure(IllegalState(NotPending)))
              && (p.status == REVERSED ==> r == Success((s, p)))
              && (p.status == PENDING ==>
                    r == Success((s.(entries := s.entries[i := p.(status := REVERSED)]), p.(status := REVERSED))))
    ensures r.Success? ==> forall w :: Balance(r.value.0, w) == Balance(s, w)
    ensures r.Success? ==> Evolves(s.entries, r.value.0.entries) && r.value.1.IsReversed()
    ensures r.Success? && Valid(s) ==> Valid(r.value.0)
  {
    match FindIndexById(s.entries, entryId)
    case None => Failure(LedgerEntryNotFound(entryId))
    case Some(i) =>
      var p := s.entries[i];
      if p.status == REVERSED then Success((s, p))
      else if p.status != PENDING then Failure(IllegalState(NotPending))
      else
        ReverseReservation.FlipKeepsBalances(s.entries, i, p.(status := REVERSED));
        Success((SetStatus(s, i, REVERSED), p.(status := REVERSED)))
  }

  /** With the corrected reversal, reserve then reverse is balance-neutral for
      every wallet, and the reservation is left on record as REVERSED. */
  lemma ReserveThenReleaseIsNeutral(s: LedgerState, walletId: Uuid, amount: Money, referenceId: string,
                                    description: Option<string>, now: Instant)
    requires ReserveWallet.Execute(s, walletId, amount, referenceId, description, now).Success?
    requires ReserveWallet.Execute(s, walletId, amount, referenceId, description, now).value.0 != s
    ensures var (s1, e) := ReserveWallet.Execute(s, walletId, amount, referenceId, description, now).value;
            var r := ReverseReleasing(s1, e.id);
            && r.Success?
            && r.value.0.entries == s.entries + [e.(status := REVERSED)]
            && forall w :: Balance(r.value.0, w) == Balance(s, w)
  {
    var (s1, e) := ReserveWallet.Execute(s, walletId, amount, referenceId, description, now).value;
    var i := |s.entries|;
    assert s1.entries[i] == e;
    assert FindIndexById(s1.entries, e.id) == Some(i);
    assert s1.entries[i := e.(status := REVERSED)] == s.entries + [e.(status := REVERSED)];
  }

  /** The corrected reversal is idempotent. */
  lemma ReleaseIdempotent(s: LedgerState, entryId: Uuid)
    requires ReverseReleasing(s, entryId).Success?
    ensures var (s', e) := ReverseReleasing(s, entryId).value;
            ReverseReleasing(s', entryId) == Success((s', e))
  {
    var i := FindIndexById(s.entries, entryId).value;
    var p := s.entries[i];
    if p.status == PENDING {
      FindIndexByIdUpdate(s.entries, i, p.(status := REVERSED), entryId);
    }
  }

  // ---- Rounding of transfer legs

  /** The legs of the counterexample: two halves of 0.0003 at five decimals. */
  function SubUnitLegs(a: Uuid, b: Uuid): seq<Transfer.CreditLeg> {
    [Transfer.CreditLeg(a, Decimal(15, 5)), Transfer.CreditLeg(b, Decimal(15, 5))]
  }

  /** As written the exact sum 0.00015 + 0.00015 matches the total 0.0003, yet
      each leg rounds HALF_UP to 0.0002 while the debit is 0.0003: a transfer
      that succeeds credits one unit more than it debits. */
  lemma SubUnitLegsMint(s: LedgerState, fromWalletId: Uuid, a: Uuid, b: Uuid, referenceId: string,
                        currencyCode: string, description: Option<string>, now: Instant)
    requires Transfer.Execute(s, fromWalletId, referenceId, currencyCode, Decimal(3, 4), SubUnitLegs(a, b), description, now).Success?
    requires !Transfer.Execute(s, fromWalletId, referenceId, currencyCode, Decimal(3, 4), SubUnitLegs(a, b), description, now).value.1.reused
    ensures Compare(Decimal(3, 4), Transfer.SumLegs(SubUnitLegs(a, b))) == 0
    ensures var t := Transfer.Execute(s, fromWalletId, referenceId, currencyCode, Decimal(3, 4), SubUnitLegs(a, b), description, now).value.1;
            && t.debitEntry.Some? && t.debitEntry.value.amountValue == 3
            && Transfer.Total(t.creditEntries) == 4
  {
    SubUnitLegsArithmetic(a, b);
  }

  /** The counterexample is reachable: on a ledger whose source wallet holds
      0.0010 INR and whose two destinations are active, the transfer of 0.0003
      as 0.00015 + 0.00015 succeeds as written, debits 0.0003 and credits 0.0004. */
  lemma SubUnitLegsReachable()
    ensures var r := Transfer.Execute(SubUnitLedger(), 1, "split", "INR", Decimal(3, 4), SubUnitLegs(2, 3), None, 0);
            && r.Success? && !r.value.1.reused
            && r.value.1.debitEntry.Some? && r.value.1.debitEntry.value.amountValue == 3
            && Transfer.Total(r.value.1.creditEntries) == 4
  {
    SubUnitExecutes(SubUnitLedger(), SubUnitLegs(2, 3), "split", "INR", Decimal(3, 4));
    SubUnitLegsMint(SubUnitLedger(), 1, 2, 3, "split", "INR", None, 0);
  }

  /** The source passes its checks, the exact sum matches the total, and the
      transfer settles. */
  lemma SubUnitExecutes(s: LedgerState, legs: seq<Transfer.CreditLeg>, referenceId: string, currencyCode: string,
                        total: Decimal)
    requires s == SubUnitLedger() && legs == SubUnitLegs(2, 3)
    requires referenceId == "split" && currencyCode == "INR" && total == Decimal(3, 4)
    ensures var r := Transfer.Execute(s, 1, referenceId, currencyCode, total, legs, None, 0);
            r.Success? && !r.value.1.reused
  {
    SubUnitSource(s);
    SubUnitLegsArithmetic(2, 3);
    SubUnitSettles(s, s.wallets[0], legs, referenceId, currencyCode, total);
  }

  /** The source wallet is found, active, and covers the total. */
  lemma SubUnitSource(s: LedgerState)
    requires s == SubUnitLedger()
    ensures FindWallet(s.wallets, 1) == Some(s.wallets[0])
    ensures s.wallets[0].IsActive()
    ensures Balance(s, 1) == 10
    ensures FindByKey(s.entries, EntryKey(1, "split", ORDER)).None?
  {
    assert s.entries == [] + [s.entries[0]];
    BalanceAppend([], s.entries[0], 1);
  }

  /** With the source settled, the debit and both legs are written. */
  lemma SubUnitSettles(s: LedgerState, from: Wallets.Wallet, legs: seq<Transfer.CreditLeg>, referenceId: string,
                       currencyCode: string, total: Decimal)
    requires s == SubUnitLedger() && from == s.wallets[0] && legs == SubUnitLegs(2, 3)
    requires referenceId == "split" && currencyCode == "INR" && total == Decimal(3, 4)
    ensures var r := Transfer.Settle(s, from, referenceId, currencyCode, total, legs, None, 0);
            r.Success? && !r.value.1.reused
  {
    SubUnitSource(s);
    assert Compare(FromUnits(Balance(s, 1)), total) >= 0 by {
      assert Pow10(0) == 1;
    }
    SubUnitWrites(s, from, legs, referenceId, currencyCode, total);
  }

  /** The writes of the counterexample all succeed: the total and both legs
      make Money, both destinations are active, distinct, and apart from the
      source, and no entry holds a key under the reference. */
  lemma SubUnitWrites(s: LedgerState, from: Wallets.Wallet, legs: seq<Transfer.CreditLeg>, referenceId: string,
                      currencyCode: string, total: Decimal)
    requires s == SubUnitLedger() && from == s.wallets[0] && legs == SubUnitLegs(2, 3)
    requires referenceId == "split" && currencyCode == "INR" && total == Decimal(3, 4)
    requires Compare(FromUnits(Balance(s, from.id)), total) >= 0
    ensures Transfer.DebitThenCredit(s, from, referenceId, currencyCode, total, legs, None, 0).Success?
  {
    SubUnitConditions(s, from, legs, referenceId, currencyCode, total);
  }

  /** The conditions under which a covered transfer is written all hold for the
      counterexample. */
  lemma SubUnitConditions(s: LedgerState, from: Wallets.Wallet, legs: seq<Transfer.CreditLeg>, referenceId: string,
                          currencyCode: string, total: Decimal)
    requires s == SubUnitLedger() && from == s.wallets[0] && legs == SubUnitLegs(2, 3)
    requires referenceId == "split" && currencyCode == "INR" && total == Decimal(3, 4)
    ensures MoneyOf(s.iso, total, currencyCode).Success?
    ensures Transfer.AllAccepted(s, legs, currencyCode)
    ensures Transfer.DistinctTargets(legs)
    ensures forall k :: 0 <= k < |legs| ==> legs[k].toWalletId != from.id
    ensures Transfer.KeyFree(s.entries, EntryKey(from.id, referenceId, ORDER))
    ensures Transfer.AllKeysFree(s.entries, legs, referenceId)
  {
    SubUnitCurrency();
    SubUnitTargets(s.wallets);
    assert Transfer.LegAccepted(s, legs[0], currencyCode);
    assert Transfer.LegAccepted(s, legs[1], currencyCode);
    assert s.entries[0].referenceId != referenceId;
  }

  /** "INR" is a currency of the ledger, and both legs and the total make Money. */
  lemma SubUnitCurrency()
    ensures CurrencyOf({"INR"}, Some("INR")) == Success(Currency("INR"))
    ensures MoneyOf({"INR"}, Decimal(3, 4), "INR").Success?
    ensures MoneyOf({"INR"}, Decimal(15, 5), "INR").Success?
  {
    assert Text.ToUpper("INR") == "INR";
  }

  /** Both destinations are found and active. */
  lemma SubUnitTargets(ws: seq<Wallets.Wallet>)
    requires ws == SubUnitLedger().wallets
    ensures FindWallet(ws, 2).Some? && FindWallet(ws, 2).value.IsActive()
    ensures FindWallet(ws, 3).Some? && FindWallet(ws, 3).value.IsActive()
  {
    assert FindWallet(ws, 3) == Some(ws[2]);
    assert FindWallet(ws, 2) == Some(ws[1]);
  }

  /** The ledger of the counterexample: an ESCROW wallet 1 credited with 0.0010
      INR, and active MAIN and VENDOR wallets 2 and 3 of the same merchant. */
  function SubUnitLedger(): LedgerState {
    LedgerState({"INR"},
                [Wallets.Wallet(1, 9, Some(Wallets.ESCROW), None, "INR", Wallets.ACTIVE, 0, 0),
                 Wallets.Wallet(2, 9, Some(Wallets.MAIN), None, "INR", Wallets.ACTIVE, 0, 0),
                 Wallets.Wallet(3, 9, Some(Wallets.VENDOR), Some(8), "INR", Wallets.ACTIVE, 0, 0)],
                [],
                [LedgerEntry(0, 1, 9, None, CREDIT, 10, "INR", ORDER, "seed", CONFIRMED, "", 0)],
                [],
                10)
  }

  /** The arithmetic of the counterexample. */
  lemma SubUnitLegsArithmetic(a: Uuid, b: Uuid)
    ensures Transfer.SumLegs(SubUnitLegs(a, b)) == Decimal(30, 5)
    ensures Compare(Decimal(3, 4), Decimal(30, 5)) == 0
    ensures SetScale4(Decimal(3, 4)) == 3
    ensures Transfer.RoundedSum(SubUnitLegs(a, b)) == 4
  {
    var legs := SubUnitLegs(a, b);
    assert legs[..1][..0] == [];
    assert legs[..1] == [legs[0]];
    assert Pow10(1) == 10;
    HalfRoundsUp();
    assert Transfer.SumLegs(legs[..1]) == Decimal(15, 5);
    assert Transfer.RoundedSum(legs[..1]) == Transfer.RoundedSum(legs[..1][..0]) + SetScale4(legs[0].amount) == 2;
    assert Transfer.RoundedSum(legs) == Transfer.RoundedSum(legs[..1]) + SetScale4(legs[1].amount);
  }

  /** 0.00015 rounds HALF_UP to 0.0002. */
  lemma HalfRoundsUp()
    ensures SetScale4(Decimal(15, 5)) == 2
  {
    assert Pow10(1) == 10;
    assert RoundNonNegative(15, 10) == 2;
  }

  /** The transfer evidently intended: the total must equal the sum of the legs
      as `Money.of` rounds them, which are the amounts actually credited. */
  function TransferRounded(s: LedgerState, fromWalletId: Uuid, referenceId: string, currencyCode: string,
                           totalDebit: Decimal, legs: seq<Transfer.CreditLeg>, description: Option<string>, now: Instant)
    : (r: Result<(LedgerState, Transfer.TransferResult), Error>)
    ensures FindWallet(s.wallets, fromWalletId).None? ==> r == Failure(WalletNotFound(fromWalletId))
    ensures FindWallet(s.wallets, fromWalletId).Some? && !FindWallet(s.wallets, fromWalletId).value.IsActive() ==>
              r == Failure(IllegalState(WalletNotActive))
    ensures (&& FindWallet(s.wallets, fromWalletId).Some? && FindWallet(s.wallets, fromWalletId).value.IsActive()
             && SetScale4(totalDebit) != Transfer.RoundedSum(legs)) ==> r == Failure(IllegalArgument(TotalMismatch))
    ensures r.Success? && !r.value.1.reused ==>
              && r.value.1.debitEntry.Some?
              && r.value.1.debitEntry.value.amountValue == Transfer.Total(r.value.1.creditEntries)
    ensures r.Success? ==> Evolves(s.entries, r.value.0.entries)
    ensures r.Success? && Valid(s) ==> Valid(r.value.0)
  {
    match FindWallet(s.wallets, fromWalletId)
    case None => Failure(WalletNotFound(fromWalletId))
    case Some(from) =>
      if !from.IsActive() then Failure(IllegalState(WalletNotActive))
      else if SetScale4(totalDebit) != Transfer.RoundedSum(legs) then Failure(IllegalArgument(TotalMismatch))
      else Transfer.Settle(s, from, referenceId, currencyCode, totalDebit, legs, description, now)
  }

  /** The corrected check refuses the counterexample. */
  lemma SubUnitLegsRefused(s: LedgerState, fromWalletId: Uuid, a: Uuid, b: Uuid, referenceId: string,
                           currencyCode: string, description: Option<string>, now: Instant)
    requires FindWallet(s.wallets, fromWalletId).Some? && FindWallet(s.wallets, fromWalletId).value.IsActive()
    ensures TransferRounded(s, fromWalletId, referenceId, currencyCode, Decimal(3, 4), SubUnitLegs(a, b), description, now)
            == Failure(IllegalArgument(TotalMismatch))
  {
    SubUnitLegsArithmetic(a, b);
  }

  // ---- Reservations beyond the balance

  /** What one entry holds of wallet `w`: the amount of a PENDING debit. */
  function HoldOf(e: LedgerEntry, w: Uuid): nat {
    if e.walletId == w && e.entryType == DEBIT && e.status == PENDING then e.amountValue else 0
  }

  /** The amount the open reservations of wallet `w` hold. */
  function Held(es: seq<LedgerEntry>, w: Uuid): nat {
    if |es| == 0 then 0 else Held(es[..|es| - 1], w) + HoldOf(es[|es| - 1], w)
  }

  lemma HeldAppend(es: seq<LedgerEntry>, e: LedgerEntry, w: Uuid)
    ensures Held(es + [e], w) == Held(es, w) + HoldOf(e, w)
  {
    assert (es + [e])[..|es|] == es;
  }

  /** Replacing one entry changes what is held by the difference of the two. */
  lemma {:induction false} HeldUpdate(es: seq<LedgerEntry>, i: nat, e: LedgerEntry, w: Uuid)
    requires i < |es|
    ensures Held(es[i := e], w) == Held(es, w) - HoldOf(es[i], w) + HoldOf(e, w)
  {
    var n := |es| - 1;
    if i < n {
      HeldUpdate(es[..n], i, e, w);
      assert es[i := e][..n] == es[..n][i := e];
    } else {
      assert es[i := e][..n] == es[..n];
    }
  }

  /** Every wallet's balance covers what its open reservations hold. */
  ghost predicate HoldsCovered(s: LedgerState) {
    forall w :: Held(s.entries, w) <= Balance(s, w)
  }

  /** The reservation as evidently intended: an existing reservation for the
      reference is looked up first, and a new one must fit in the balance less
      what the wallet's open reservations already hold. */
  function ReserveHolding(s: LedgerState, walletId: Uuid, amount: Money, referenceId: string,
                          description: Option<string>, now: Instant)
    : (r: Result<(LedgerState, LedgerEntry), Error>)
    ensures LoadActiveWallet(s, walletId, amount.currency).Failure? ==>
              r == LoadActiveWallet(s, walletId, amount.currency).PropagateFailure()
    ensures LoadActiveWallet(s, walletId, amount.currency).Success?
            && FindByKey(s.entries, EntryKey(walletId, referenceId, PAYOUT)).None? ==>
              && (Balance(s, walletId) - Held(s.entries, walletId) < amount.amount <==> r.Failure?)
              && (r.Failure? ==> r.error == InsufficientBalance(walletId))
              && (r.Success? ==>
                    && r.value.0.entries == s.entries + [r.value.1]
                    && r.value.1.entryType == DEBIT && r.value.1.status == PENDING
                    && r.value.1.walletId == walletId && r.value.1.amountValue == amount.amount)
    ensures r.Success? ==> r.value.1.status == PENDING && r.value.1.Key() == EntryKey(walletId, referenceId, PAYOUT)
    ensures r.Success? ==> forall w :: Balance(r.value.0, w) == Balance(s, w)
    ensures r.Success? && HoldsCovered(s) ==> HoldsCovered(r.value.0)
  {
    var w :- LoadActiveWallet(s, walletId, amount.currency);
    var existing := FindByKey(s.entries, EntryKey(walletId, referenceId, PAYOUT));
    if existing.Some? then
      if existing.value.status == PENDING then Success((s, existing.value))
      else Failure(IllegalState(ReservationResolved))
    else if Balance(s, walletId) - Held(s.entries, walletId) < amount.amount then Failure(InsufficientBalance(walletId))
    else
      var r := ReserveWallet.Execute(s, walletId, amount, referenceId, description, now);
      assert r.Success? && r.value.0 != s;
      var (s', e) := r.value;
      assert forall x :: Held(s'.entries, x) == Held(s.entries, x) + HoldOf(e, x) by {
        forall x ensures Held(s'.entries, x) == Held(s.entries, x) + HoldOf(e, x) {
          HeldAppend(s.entries, e, x);
        }
      }
      r
  }

  /** Confirming a reservation keeps the holds covered, and on a ledger whose
      holds are covered every balance is at least zero once it is confirmed. */
  lemma ConfirmKeepsHoldsCovered(s: LedgerState, entryId: Uuid)
    requires HoldsCovered(s)
    requires ConfirmReservation.Execute(s, entryId).Success?
    ensures var s' := ConfirmReservation.Execute(s, entryId).value.0;
            && HoldsCovered(s')
            && forall w :: Balance(s', w) >= 0
  {
    var (s', c) := ConfirmReservation.Execute(s, entryId).value;
    var i := FindIndexById(s.entries, entryId).value;
    var e := s.entries[i];
    if e.status == PENDING {
      forall w ensures Held(s'.entries, w) <= Balance(s', w) {
        HeldUpdate(s.entries, i, c, w);
        assert Held(s.entries, w) <= Balance(s, w);
      }
    }
    forall w ensures Balance(s', w) >= 0 {
      assert Held(s'.entries, w) <= Balance(s', w);
    }
  }

  /** Confirmed entries hold nothing: appending them leaves every wallet's
      holds as they were. */
  lemma {:induction false} HeldConfirmedAppend(es: seq<LedgerEntry>, more: seq<LedgerEntry>, w: Uuid)
    requires forall k :: 0 <= k < |more| ==> more[k].status == CONFIRMED
    ensures Held(es + more, w) == Held(es, w)
    decreases |more|
  {
    if |more| > 0 {
      var n := |more| - 1;
      assert es + more == (es + more[..n]) + [more[n]];
      HeldConfirmedAppend(es, more[..n], w);
      HeldAppend(es + more[..n], more[n], w);
    } else {
      assert es + more == es;
    }
  }

  /** Appending confirmed entries keeps the holds covered when no wallet's
      balance falls below what that wallet held before. */
  lemma CoveredAfterConfirmedAppend(s: LedgerState, s': LedgerState, more: seq<LedgerEntry>)
    requires s'.entries == s.entries + more
    requires forall k :: 0 <= k < |more| ==> more[k].status == CONFIRMED
    requires forall w :: Held(s.entries, w) <= Balance(s', w)
    ensures HoldsCovered(s')
  {
    forall w ensures Held(s'.entries, w) <= Balance(s', w) {
      HeldConfirmedAppend(s.entries, more, w);
    }
  }

  /** As written, the debit's funds check ignores the wallet's open
      reservations: a debit that the balance covers but the holds leave no room
      for succeeds and leaves that wallet's holds above its balance, so
      confirming them would take the balance below zero. */
  lemma DebitBreaksHolds(s: LedgerState, walletId: Uuid, amount: Money, referenceType: Option<ReferenceType>,
                         referenceId: string, description: Option<string>, now: Instant)
    requires DebitWallet.Execute(s, walletId, amount, referenceType, referenceId, description, now).Success?
    requires Balance(s, walletId) - Held(s.entries, walletId) < amount.amount
    ensures !HoldsCovered(DebitWallet.Execute(s, walletId, amount, referenceType, referenceId, description, now).value.0)
  {
    var (s', e) := DebitWallet.Execute(s, walletId, amount, referenceType, referenceId, description, now).value;
    HeldAppend(s.entries, e, walletId);
    assert Held(s'.entries, walletId) > Balance(s', walletId);
  }

  /** The debit as evidently intended: after the wallet checks, the amount must
      fit in the balance less what the wallet's open reservations hold;
      otherwise it is the debit as written. */
  function DebitHolding(s: LedgerState, walletId: Uuid, amount: Money, referenceType: Option<ReferenceType>,
                        referenceId: string, description: Option<string>, now: Instant)
    : (r: Result<(LedgerState, LedgerEntry), Error>)
    ensures LoadActiveWallet(s, walletId, amount.currency).Failure? ==>
              r == LoadActiveWallet(s, walletId, amount.currency).PropagateFailure()
    ensures LoadActiveWallet(s, walletId, amount.currency).Success? ==>
              if Balance(s, walletId) - Held(s.entries, walletId) < amount.amount then r == Failure(InsufficientBalance(walletId))
              else r == DebitWallet.Execute(s, walletId, amount, referenceType, referenceId, description, now)
    ensures r.Success? && HoldsCovered(s) ==> HoldsCovered(r.value.0)
  {
    var w :- LoadActiveWallet(s, walletId, amount.currency);
    if Balance(s, walletId) - Held(s.entries, walletId) < amount.amount then Failure(InsufficientBalance(walletId))
    else
      var r := DebitWallet.Execute(s, walletId, amount, referenceType, referenceId, description, now);
      if r.Failure? then r
      else
        var (s', e) := r.value;
        assert HoldsCovered(s) ==> HoldsCovered(s') by {
          if HoldsCovered(s) {
            forall x ensures Held(s.entries, x) <= Balance(s', x) {
              BalanceAppend(s.entries, e, x);
            }
            CoveredAfterConfirmedAppend(s, s', [e]);
          }
        }
        r
  }

  /** The transfer's settlement as evidently intended: the total must fit in the
      source's balance less what its open reservations hold; otherwise it is the
      settlement as written. */
  function SettleHolding(s: LedgerState, from: Wallets.Wallet, referenceId: string, currencyCode: string,
                         totalDebit: Decimal, legs: seq<Transfer.CreditLeg>, description: Option<string>, now: Instant)
    : (r: Result<(LedgerState, Transfer.TransferResult), Error>)
    ensures var existing := FindByKey(s.entries, EntryKey(from.id, referenceId, ORDER));
            existing.Some? && existing.value.entryType == DEBIT ==> r == Success((s, Transfer.Reused))
    ensures var existing := FindByKey(s.entries, EntryKey(from.id, referenceId, ORDER));
            !(existing.Some? && existing.value.entryType == DEBIT) ==>
              if Compare(FromUnits(Balance(s, from.id) - Held(s.entries, from.id)), totalDebit) < 0
              then r == Failure(InsufficientBalance(from.id))
              else r == Transfer.Settle(s, from, referenceId, currencyCode, totalDebit, legs, description, now)
    ensures r.Success? && HoldsCovered(s) ==> HoldsCovered(r.value.0)
  {
    var existing := FindByKey(s.entries, EntryKey(from.id, referenceId, ORDER));
    if existing.Some? && existing.value.entryType == DEBIT then Success((s, Transfer.Reused))
    else if Compare(FromUnits(Balance(s, from.id) - Held(s.entries, from.id)), totalDebit) < 0 then
      Failure(InsufficientBalance(from.id))
    else
      SettleWithinFreeBalance(s, from, referenceId, currencyCode, totalDebit, legs, description, now);
      Transfer.Settle(s, from, referenceId, currencyCode, totalDebit, legs, description, now)
  }

  /** A settlement whose total fits in the source's free balance keeps the
      holds covered. */
  lemma SettleWithinFreeBalance(s: LedgerState, from: Wallets.Wallet, referenceId: string, currencyCode: string,
                                totalDebit: Decimal, legs: seq<Transfer.CreditLeg>, description: Option<string>, now: Instant)
    requires Compare(FromUnits(Balance(s, from.id) - Held(s.entries, from.id)), totalDebit) >= 0
    ensures var r := Transfer.Settle(s, from, referenceId, currencyCode, totalDebit, legs, description, now);
            r.Success? && HoldsCovered(s) ==> HoldsCovered(r.value.0)
  {
    var r := Transfer.Settle(s, from, referenceId, currencyCode, totalDebit, legs, description, now);
    if r.Success? && HoldsCovered(s) && !r.value.1.reused {
      SettledKeepsHolds(s, r.value.0, r.value.1, from, referenceId, totalDebit, legs);
    }
  }

  /** A settled transfer whose total fits in the source's free balance keeps
      the holds covered: its entries are all confirmed, the source loses no more
      than it had free, and every other wallet only gains. */
  lemma SettledKeepsHolds(s: LedgerState, s': LedgerState, t: Transfer.TransferResult, from: Wallets.Wallet,
                          referenceId: string, totalDebit: Decimal, legs: seq<Transfer.CreditLeg>)
    requires HoldsCovered(s)
    requires Compare(FromUnits(Balance(s, from.id) - Held(s.entries, from.id)), totalDebit) >= 0
    requires Transfer.Settled(s, s', t, from, referenceId, totalDebit, legs)
    ensures HoldsCovered(s')
  {
    var d := t.debitEntry.value;
    var cs := t.creditEntries;
    RoundedNotAbove(Balance(s, from.id) - Held(s.entries, from.id), totalDebit);
    forall x ensures Held(s.entries, x) <= Balance(s', x) {
      if x != from.id {
        CreditsAddNothingNegative(cs, legs, referenceId, x);
      }
    }
    assert s'.entries == s.entries + ([d] + cs);
    CoveredAfterConfirmedAppend(s, s', [d] + cs);
  }

  /** The legs' credits add no negative amount to any wallet. */
  lemma {:induction false} CreditsAddNothingNegative(cs: seq<LedgerEntry>, legs: seq<Transfer.CreditLeg>, referenceId: string, w: Uuid)
    requires |cs| == |legs|
    requires forall k :: 0 <= k < |legs| ==> Transfer.IsLegCredit(cs[k], legs[k], referenceId)
    ensures ComputeBalance(cs, w) >= 0
  {
    if |cs| > 0 {
      var n := |cs| - 1;
      CreditsAddNothingNegative(cs[..n], legs[..n], referenceId, w);
    }
  }

  /** Crediting, as written, keeps the holds covered: it writes nothing or one
      confirmed credit. */
  lemma CreditKeepsHoldsCovered(s: LedgerState, walletId: Uuid, amount: Money, referenceType: Option<ReferenceType>,
                                referenceId: string, description: Option<string>, now: Instant)
    requires HoldsCovered(s)
    requires CreditWallet.Execute(s, walletId, amount, referenceType, referenceId, description, now).Success?
    ensures HoldsCovered(CreditWallet.Execute(s, walletId, amount, referenceType, referenceId, description, now).value.0)
  {
    var (s', e) := CreditWallet.Execute(s, walletId, amount, referenceType, referenceId, description, now).value;
    if s' != s {
      forall x ensures Held(s.entries, x) <= Balance(s', x) {
        BalanceAppend(s.entries, e, x);
      }
      CoveredAfterConfirmedAppend(s, s', [e]);
    }
  }

  /** The corrected reversal keeps the holds covered: it only releases a hold,
      and changes no balance. */
  lemma ReleaseKeepsHoldsCovered(s: LedgerState, entryId: Uuid)
    requires HoldsCovered(s)
    requires ReverseReleasing(s, entryId).Success?
    ensures HoldsCovered(ReverseReleasing(s, entryId).value.0)
  {
    var (s', p) := ReverseReleasing(s, entryId).value;
    var i := FindIndexById(s.entries, entryId).value;
    if s.entries[i].status == PENDING {
      forall w ensures Held(s'.entries, w) <= Balance(s', w) {
        HeldUpdate(s.entries, i, p, w);
      }
    }
  }

  /** The scenario of `Scenarios.Oversubscription` under the corrected
      reservation: of two reservations that each fit the balance but not
      together, the second is refused. */
  lemma HoldingRefusesOversubscription(s: LedgerState, walletId: Uuid, amount: Money, ref1: string, ref2: string,
                                       d1: Option<string>, d2: Option<string>, now: Instant)
    requires LoadActiveWallet(s, walletId, amount.currency).Success?
    requires Held(s.entries, walletId) == 0
    requires amount.amount <= Balance(s, walletId) < 2 * amount.amount
    requires ref1 != ref2
    requires FindByKey(s.entries, EntryKey(walletId, ref1, PAYOUT)).None?
    requires FindByKey(s.entries, EntryKey(walletId, ref2, PAYOUT)).None?
    ensures var r1 := ReserveHolding(s, walletId, amount, ref1, d1, now);
            && r1.Success?
            && ReserveHolding(r1.value.0, walletId, amount, ref2, d2, now) == Failure(InsufficientBalance(walletId))
  {
    var (s1, e1) := ReserveHolding(s, walletId, amount, ref1, d1, now).value;
    HeldAppend(s.entries, e1, walletId);
    assert s1.wallets == s.wallets && s1.iso == s.iso by {
      assert ReserveWallet.Execute(s, walletId, amount, ref1, d1, now).value.0 != s;
    }
    var k2 := EntryKey(walletId, ref2, PAYOUT);
    assert FindByKey(s1.entries, k2).None? by {
      assert forall i :: 0 <= i < |s1.entries| ==> s1.entries[i].Key() != k2 by {
        forall i | 0 <= i < |s1.entries| ensures s1.entries[i].Key() != k2 {
          if i < |s.entries| { assert s1.entries[i] == s.entries[i]; }
        }
      }
    }
  }
}

=== FILE: get_wallet.dfy ===
/** `GetWalletUseCase`: a wallet with its balance derived from the ledger. */
module GetWallet {
  import opened Wrappers
  import opened Base
  import opened Monetary
  import opened Wallets
  import opened LedgerStore

  /** `WalletWithBalance`. */
  datatype WalletWithBalance = WalletWithBalance(wallet: Wallet, balance: Money)

  /** `execute`: the derived balance becomes a `Money` in the wallet's currency,
      which fails when the stored code is not a currency and when the balance is
      negative (possible once confirmed reservations exceed the funds). */
  function Execute(s: LedgerState, walletId: Uuid): (r: Result<WalletWithBalance, Error>)
    ensures FindWallet(s.wallets, walletId).None? ==> r == Failure(WalletNotFound(walletId))
    ensures r.Success? <==>
              && FindWallet(s.wallets, walletId).Some?
              && FindWallet(s.wallets, walletId).value.GetCurrency(s.iso).Success?
              && Balance(s, walletId) >= 0
    ensures (&& FindWallet(s.wallets, walletId).Some?
             && FindWallet(s.wallets, walletId).value.GetCurrency(s.iso).Success?
             && Balance(s, walletId) < 0) ==> r == Failure(IllegalArgument(NegativeAmount))
    ensures r.Success? ==>
              && r.value.wallet == FindWallet(s.wallets, walletId).value
              && r.value.balance.amount == Balance(s, walletId)
              && Success(r.value.balance.currency) == r.value.wallet.GetCurrency(s.iso)
  {
    match FindWallet(s.wallets, walletId)
    case None => Failure(WalletNotFound(walletId))
    case Some(w) =>
      var currency :- w.GetCurrency(s.iso);
      CurrencyOfNormalises(s.iso, w.currencyCode);
      var balance :- MoneyOf(s.iso, FromUnits(Balance(s, walletId)), currency.code);
      assert Balance(s, walletId) >= 0 ==> balance == Money(Balance(s, walletId), currency);
      match w.Balance(s.iso, balance)
      case Failure(e) => Failure(e)
      case Success(checked) => Success(WalletWithBalance(w, checked))
  }
}

=== FILE: idempotency_store.dfy ===
/** `IdempotencyStore` as the two controllers use it: one store for every
    endpoint, keyed by the raw `Idempotency-Key` header, holding the response
    body of the first successful call. Expiry after the TTL is not a clock here:
    it is the separate operation `Evict`, which may happen at any time. */
module IdempotencyStore {
  import opened Wrappers
  import opened LedgerEntries
  import LedgerStore

  /** `TransferResultResponse`. */
  datatype TransferResponse = TransferResponse(debitEntry: Option<LedgerEntry>, creditEntries: seq<LedgerEntry>, idempotent: bool)

  /** A cached response payload: a ledger entry or a transfer result. */
  datatype Body = EntryBody(entry: LedgerEntry) | TransferBody(transfer: TransferResponse)

  type Cache = map<string, Body>

  /** `getIfPresent`. */
  function GetIfPresent(c: Cache, key: string): (r: Option<Body>)
    ensures r.Some? <==> key in c
    ensures r.Some? ==> r.value == c[key]
  {
    if key in c then Some(c[key]) else None
  }

  /** `put`: the latest payload for a key wins. */
  function Put(c: Cache, key: string, body: Body): (r: Cache)
    ensures GetIfPresent(r, key) == Some(body)
    ensures forall k :: k != key ==> GetIfPresent(r, k) == GetIfPresent(c, k)
  {
    c[key := body]
  }

  /** The TTL running out for one key. */
  function Evict(c: Cache, key: string): (r: Cache)
    ensures GetIfPresent(r, key).None?
    ensures forall k :: k != key ==> GetIfPresent(r, k) == GetIfPresent(c, k)
  {
    c - {key}
  }

  /** HTTP 200, the status of a replay (and of a first confirm). */
  const Ok: nat := 200
  /** HTTP 201, the status of a first credit, debit, reserve, transfer or reverse. */
  const Created: nat := 201

  datatype Response = Response(status: nat, body: Body)

  /** The whole service as the controllers see it: the ledger and the store. */
  datatype Server = Server(ledger: LedgerStore.LedgerState, cache: Cache)
}

=== FILE: ledger_controller.dfy ===
/** `LedgerController`: confirm and reverse of a reservation, wrapped in the same
    idempotency store as the wallet endpoints. Reverse is composed with the
    corrected release of `Findings.ReverseReleasing`. */
module LedgerController {
  import opened Wrappers
  import opened Base
  import opened LedgerEntries
  import opened LedgerStore
  import opened IdempotencyStore
  import ConfirmReservation
  import Findings

  /** `confirm`: a fresh key answers 200, like a replay. */
  function Confirm(srv: Server, entryId: Uuid, key: string): (r: Result<(Server, Response), Error>)
    ensures key in srv.cache ==> r == Success((srv, Response(Ok, srv.cache[key])))
    ensures key !in srv.cache ==> (r.Success? <==> ConfirmReservation.Execute(srv.ledger, entryId).Success?)
    ensures key !in srv.cache && r.Failure? ==> r.error == ConfirmReservation.Execute(srv.ledger, entryId).error
    ensures key !in srv.cache && r.Success? ==>
              var (s', e) := ConfirmReservation.Execute(srv.ledger, entryId).value;
              r.value == (Server(s', Put(srv.cache, key, EntryBody(e))), Response(Ok, EntryBody(e)))
  {
    match GetIfPresent(srv.cache, key)
    case Some(cached) => Success((srv, Response(Ok, cached)))
    case None =>
      var done :- ConfirmReservation.Execute(srv.ledger, entryId);
      Success((Server(done.0, Put(srv.cache, key, EntryBody(done.1))), Response(Ok, EntryBody(done.1))))
  }

  /** `reverse`: a fresh key answers 201. */
  function Reverse(srv: Server, entryId: Uuid, key: string): (r: Result<(Server, Response), Error>)
    ensures key in srv.cache ==> r == Success((srv, Response(Ok, srv.cache[key])))
    ensures key !in srv.cache ==> (r.Success? <==> Findings.ReverseReleasing(srv.ledger, entryId).Success?)
    ensures key !in srv.cache && r.Failure? ==> r.error == Findings.ReverseReleasing(srv.ledger, entryId).error
    ensures key !in srv.cache && r.Success? ==>
              var (s', e) := Findings.ReverseReleasing(srv.ledger, entryId).value;
              r.value == (Server(s', Put(srv.cache, key, EntryBody(e))), Response(Created, EntryBody(e)))
  {
    match GetIfPresent(srv.cache, key)
    case Some(cached) => Success((srv, Response(Ok, cached)))
    case None =>
      var done :- Findings.ReverseReleasing(srv.ledger, entryId);
      Success((Server(done.0, Put(srv.cache, key, EntryBody(done.1))), Response(Created, EntryBody(done.1))))
  }

  /** Confirm and reverse share one key space: reversing under the key of an
      earlier confirm answers with the confirmed entry, and the entry stays
      CONFIRMED. */
  lemma ConfirmKeyAnswersReverse(srv: Server, entryId: Uuid, key: string, otherId: Uuid)
    requires key !in srv.cache
    requires Confirm(srv, entryId, key).Success?
    ensures var (srv', first) := Confirm(srv, entryId, key).value;
            && first.body.EntryBody? && first.body.entry.IsConfirmed()
            && Reverse(srv', otherId, key) == Success((srv', Response(Ok, first.body)))
  {
  }

  /** A reverse is answered 201 the first time and 200 with the same body on
      every replay, and the replay changes no balance. */
  lemma ReverseReplay(srv: Server, entryId: Uuid, key: string)
    requires key !in srv.cache
    requires Reverse(srv, entryId, key).Success?
    ensures var (srv', first) := Reverse(srv, entryId, key).value;
            && first.status == Created
            && Reverse(srv', entryId, key) == Success((srv', Response(Ok, first.body)))
            && forall w :: Balance(srv'.ledger, w) == Balance(srv.ledger, w)
  {
  }

  /** Without the cache, a second confirm or reverse under a new key is still
      harmless: both use cases are idempotent on their own. */
  lemma FreshKeyRetryIsHarmless(srv: Server, entryId: Uuid, key: string, key2: string)
    requires key !in srv.cache && key2 != key && key2 !in srv.cache
    requires Confirm(srv, entryId, key).Success?
    ensures var (srv', first) := Confirm(srv, entryId, key).value;
            var again := Confirm(srv', entryId, key2);
            && again.Success?
            && again.value.0.ledger == srv'.ledger
            && again.value.1.body == first.body
  {
    ConfirmReservation.ConfirmIdempotent(srv.ledger, entryId);
  }
}

=== FILE: ledger_entry.dfy ===
/** The `LedgerEntry` aggregate: one line of the double-entry ledger. Balances are
    never stored; they are derived from the CONFIRMED entries of a wallet. */
module LedgerEntries {
  import opened Wrappers
  import opened Base
  import opened Monetary

  datatype EntryType = CREDIT | DEBIT

  /** PENDING is a reservation, CONFIRMED is settled, REVERSED is cancelled. */
  datatype EntryStatus = PENDING | CONFIRMED | REVERSED

  datatype ReferenceType = ORDER | PAYOUT | REFUND | REVERSAL

  /** The unique index `idx_ledger_wallet_ref_type`: at most one entry per key. */
  datatype EntryKey = EntryKey(walletId: Uuid, referenceId: string, referenceType: ReferenceType)

  /** A persisted entry. `amountValue` counts units of 10^-4 (the column has
      scale 4 and is never null, since every entry is built from a `Money`). */
  datatype LedgerEntry = LedgerEntry(
    id: Uuid,
    walletId: Uuid,
    merchantId: Uuid,
    vendorId: Option<Uuid>,
    entryType: EntryType,
    amountValue: nat,
    currencyCode: string,
    referenceType: ReferenceType,
    referenceId: string,
    status: EntryStatus,
    description: string,
    createdAt: Instant)
  {
    function Key(): EntryKey {
      EntryKey(walletId, referenceId, referenceType)
    }

    /** `isConfirmed`: only these entries count towards a balance. */
    predicate IsConfirmed() {
      status == CONFIRMED
    }

    /** `isReversed`: the reservation was cancelled. */
    predicate IsReversed() {
      status == REVERSED
    }

    /** `getAmount`: the stored amount as `Money`; fails if the stored code is not
        a currency. */
    function GetAmount(iso: set<string>): (r: Result<Money, Error>)
      ensures r.Success? <==> CurrencyOf(iso, Some(currencyCode)).Success?
      ensures r.Success? ==> r.value.amount == amountValue
      ensures r.Success? ==> r.value.currency == CurrencyOf(iso, Some(currencyCode)).value
    {
      NewMoneyOfUnits(amountValue, Currency(currencyCode));
      MoneyOf(iso, FromUnits(amountValue), currencyCode)
    }

    /** What this entry adds to the balance of `wallet`: its signed amount when it
        is a CONFIRMED entry of that wallet, nothing otherwise. */
    function Contribution(wallet: Uuid): int {
      if walletId == wallet && IsConfirmed() then Signed() else 0
    }

    function Signed(): int {
      if entryType == CREDIT then amountValue as int else -(amountValue as int)
    }
  }

  /** A currency the JDK table accepts and that is already in normal form: the
      currency of every `Money` built by `Money.of`. */
  predicate ValidCurrency(iso: set<string>, c: Currency) {
    CurrencyOf(iso, Some(c.code)) == Success(c)
  }

  /** The only permitted change of a persisted entry: a PENDING entry becomes
      CONFIRMED or REVERSED, every other field is kept. */
  predicate StatusStep(before: LedgerEntry, after: LedgerEntry) {
    after == before
    || (before.status == PENDING && after.status != PENDING && after == before.(status := after.status))
  }

  /** Allowed steps compose: CONFIRMED and REVERSED are final. */
  lemma StatusStepTransitive(a: LedgerEntry, b: LedgerEntry, c: LedgerEntry)
    requires StatusStep(a, b) && StatusStep(b, c)
    ensures StatusStep(a, c)
  {
  }

  /** A status step never changes what an entry is about, and can change its
      contribution to a balance only by confirming it. */
  lemma StatusStepContribution(a: LedgerEntry, b: LedgerEntry, w: Uuid)
    requires StatusStep(a, b)
    ensures b.Key() == a.Key() && b.id == a.id && b.amountValue == a.amountValue
    ensures b.Contribution(w) != a.Contribution(w) ==> a.status == PENDING && b.status == CONFIRMED && a.walletId == w
  {
  }
}

=== FILE: ledger_entry_factory.dfy ===
/** `LedgerEntryFactory`: builds new entries, filling the defaults of absent
    arguments. The fresh id and the creation instant are supplied by the caller. */
module LedgerEntryFactory {
  import opened Wrappers
  import opened Base
  import opened Monetary
  import opened LedgerEntries

  /** The optional arguments of `createCredit` / `createDebit`. */
  datatype EntryArgs = EntryArgs(
    walletId: Uuid,
    merchantId: Uuid,
    vendorId: Option<Uuid>,
    amount: Money,
    referenceType: Option<ReferenceType>,
    referenceId: Option<string>,
    status: Option<EntryStatus>,
    description: Option<string>)

  function Build(t: EntryType, id: Uuid, a: EntryArgs, now: Instant): LedgerEntry {
    LedgerEntry(
      id, a.walletId, a.merchantId, a.vendorId, t,
      a.amount.amount, a.amount.currency.code,
      a.referenceType.GetOr(ORDER), a.referenceId.GetOr(""),
      a.status.GetOr(CONFIRMED), a.description.GetOr(""), now)
  }

  /** `createCredit`. */
  function CreateCredit(id: Uuid, a: EntryArgs, now: Instant): (e: LedgerEntry)
    ensures e.entryType == CREDIT && e.id == id && e.createdAt == now
    ensures e.walletId == a.walletId && e.merchantId == a.merchantId && e.vendorId == a.vendorId
    ensures e.amountValue == a.amount.amount && e.currencyCode == a.amount.currency.code
    ensures a.referenceType.None? ==> e.referenceType == ORDER
    ensures a.referenceId.None? ==> e.referenceId == ""
    ensures a.status.None? ==> e.status == CONFIRMED
    ensures a.description.None? ==> e.description == ""
  {
    Build(CREDIT, id, a, now)
  }

  /** `createDebit`. */
  function CreateDebit(id: Uuid, a: EntryArgs, now: Instant): (e: LedgerEntry)
    ensures e.entryType == DEBIT && e.id == id && e.createdAt == now
    ensures e.walletId == a.walletId && e.merchantId == a.merchantId && e.vendorId == a.vendorId
    ensures e.amountValue == a.amount.amount && e.currencyCode == a.amount.currency.code
    ensures a.referenceType.None? ==> e.referenceType == ORDER
    ensures a.referenceId.None? ==> e.referenceId == ""
    ensures a.status.None? ==> e.status == CONFIRMED
    ensures a.description.None? ==> e.description == ""
  {
    Build(DEBIT, id, a, now)
  }

  /** The two factory methods differ in the entry type and in nothing else. */
  lemma CreditDebitDifferOnlyInType(id: Uuid, a: EntryArgs, now: Instant)
    ensures CreateCredit(id, a, now).(entryType := DEBIT) == CreateDebit(id, a, now)
    ensures CreateCredit(id, a, now) != CreateDebit(id, a, now)
  {
  }

  /** Given arguments are kept: only absent ones are defaulted. */
  lemma GivenArgumentsKept(id: Uuid, a: EntryArgs, now: Instant, t: EntryType)
    requires a.referenceType.Some? && a.referenceId.Some? && a.status.Some? && a.description.Some?
    ensures var e := if t == CREDIT then CreateCredit(id, a, now) else CreateDebit(id, a, now);
            e.referenceType == a.referenceType.value && e.referenceId == a.referenceId.value
            && e.status == a.status.value && e.description == a.description.value
  {
  }

  /** Round trip: the entry's `getAmount` gives back the `Money` it was built from,
      whenever that money's currency came out of `Currency.of`. */
  lemma GetAmountRoundTrip(iso: set<string>, id: Uuid, a: EntryArgs, now: Instant)
    requires ValidCurrency(iso, a.amount.currency)
    ensures CreateCredit(id, a, now).GetAmount(iso) == Success(a.amount)
    ensures CreateDebit(id, a, now).GetAmount(iso) == Success(a.amount)
  {
  }
}

=== FILE: ledger_repository.dfy ===
/** The queries of `JpaLedgerEntryRepository` and `LedgerEntryRepositoryAdapter`,
    written as formulas over the entries in insertion order. The adapter maps a
    null SQL sum to zero, which is the value of every sum over no rows here. */
module LedgerRepository {
  import opened Wrappers
  import opened Base
  import opened Monetary
  import opened LedgerEntries

  /** `computeBalance` (`sumConfirmedBalanceByWalletId`): confirmed credits minus
      confirmed debits of one wallet. */
  function ComputeBalance(es: seq<LedgerEntry>, w: Uuid): int {
    if |es| == 0 then 0 else ComputeBalance(es[..|es| - 1], w) + es[|es| - 1].Contribution(w)
  }

  /** The legacy `sumBalanceByWalletId`: the same signed sum over every status. */
  function SumAllStatuses(es: seq<LedgerEntry>, w: Uuid): int {
    if |es| == 0 then 0
    else
      var e := es[|es| - 1];
      SumAllStatuses(es[..|es| - 1], w) + (if e.walletId == w then e.Signed() else 0)
  }

  /** `sumConfirmedCreditsByWalletId`. */
  function SumConfirmedCredits(es: seq<LedgerEntry>, w: Uuid): (r: nat) {
    if |es| == 0 then 0
    else
      var e := es[|es| - 1];
      SumConfirmedCredits(es[..|es| - 1], w)
      + (if e.walletId == w && e.entryType == CREDIT && e.status == CONFIRMED then e.amountValue else 0)
  }

  /** `sumConfirmedDebitsByWalletIdAndReferenceType`. */
  function SumConfirmedDebits(es: seq<LedgerEntry>, w: Uuid, t: ReferenceType): (r: nat) {
    if |es| == 0 then 0
    else
      var e := es[|es| - 1];
      SumConfirmedDebits(es[..|es| - 1], w, t)
      + (if e.walletId == w && e.entryType == DEBIT && e.status == CONFIRMED && e.referenceType == t
         then e.amountValue else 0)
  }

  /** The balance is the confirmed credits less the confirmed debits of the four
      reference types: the settlement sums cover every entry the balance counts. */
  lemma {:induction false} BalanceDecomposition(es: seq<LedgerEntry>, w: Uuid)
    ensures ComputeBalance(es, w)
            == SumConfirmedCredits(es, w)
               - SumConfirmedDebits(es, w, ORDER) - SumConfirmedDebits(es, w, PAYOUT)
               - SumConfirmedDebits(es, w, REFUND) - SumConfirmedDebits(es, w, REVERSAL)
  {
    if |es| > 0 {
      BalanceDecomposition(es[..|es| - 1], w);
    }
  }

  /** Only CONFIRMED entries count: the balance of a ledger equals the balance of
      its confirmed entries alone, while the legacy sum also counts the rest. */
  lemma {:induction false} BalanceCountsOnlyConfirmed(es: seq<LedgerEntry>, w: Uuid)
    ensures ComputeBalance(es, w) == SumAllStatuses(Confirmed(es), w)
  {
    if |es| > 0 {
      var init := es[..|es| - 1];
      var e := es[|es| - 1];
      BalanceCountsOnlyConfirmed(init, w);
      var c := Confirmed(init);
      if e.status == CONFIRMED {
        assert Confirmed(es) == c + [e];
        assert (c + [e])[..|c|] == c;
        assert SumAllStatuses(c + [e], w) == SumAllStatuses(c, w) + (if e.walletId == w then e.Signed() else 0);
      } else {
        assert Confirmed(es) == c;
      }
    }
  }

  /** The confirmed entries, in order. */
  function Confirmed(es: seq<LedgerEntry>): (r: seq<LedgerEntry>)
    ensures |r| <= |es|
  {
    if |es| == 0 then []
    else
      var e := es[|es| - 1];
      Confirmed(es[..|es| - 1]) + (if e.status == CONFIRMED then [e] else [])
  }

  lemma {:induction false} ConfirmedMembers(es: seq<LedgerEntry>)
    ensures forall e :: e in Confirmed(es) <==> e in es && e.status == CONFIRMED
  {
    if |es| > 0 {
      ConfirmedMembers(es[..|es| - 1]);
      assert es == es[..|es| - 1] + [es[|es| - 1]];
    }
  }

  /** The signed amounts of a wallet's entries that are not CONFIRMED. */
  function UnconfirmedSum(es: seq<LedgerEntry>, w: Uuid): int {
    if |es| == 0 then 0
    else
      var e := es[|es| - 1];
      UnconfirmedSum(es[..|es| - 1], w) + (if e.walletId == w && !e.IsConfirmed() then e.Signed() else 0)
  }

  /** A wallet's PENDING or REVERSED entry. */
  predicate UnconfirmedOf(e: LedgerEntry, w: Uuid) {
    e.walletId == w && !e.IsConfirmed()
  }

  /** The legacy sum is not the balance: it is the balance plus the signed
      amounts of the wallet's PENDING and REVERSED entries. Where those are all
      debits, as reservations are, the legacy sum equals the balance exactly
      when every one of them is for zero. */
  lemma {:induction false} LegacySumIsNotBalance(es: seq<LedgerEntry>, w: Uuid)
    ensures SumAllStatuses(es, w) == ComputeBalance(es, w) + UnconfirmedSum(es, w)
    ensures (forall i :: 0 <= i < |es| && UnconfirmedOf(es[i], w) ==> es[i].entryType == DEBIT) ==>
              (SumAllStatuses(es, w) == ComputeBalance(es, w) <==>
               forall i :: 0 <= i < |es| && UnconfirmedOf(es[i], w) ==> es[i].amountValue == 0)
  {
    if |es| > 0 {
      LegacySumIsNotBalance(es[..|es| - 1], w);
    }
    if forall i :: 0 <= i < |es| && UnconfirmedOf(es[i], w) ==> es[i].entryType == DEBIT {
      UnconfirmedDebits(es, w);
    }
  }

  /** When a wallet's unconfirmed entries are all debits their signed sum is
      never positive, and it is zero exactly when each of them is for zero. */
  lemma {:induction false} UnconfirmedDebits(es: seq<LedgerEntry>, w: Uuid)
    requires forall i :: 0 <= i < |es| && UnconfirmedOf(es[i], w) ==> es[i].entryType == DEBIT
    ensures UnconfirmedSum(es, w) <= 0
    ensures UnconfirmedSum(es, w) == 0 <==> forall i :: 0 <= i < |es| && UnconfirmedOf(es[i], w) ==> es[i].amountValue == 0
  {
    if |es| > 0 {
      var n := |es| - 1;
      assert forall i :: 0 <= i < n ==> es[..n][i] == es[i];
      UnconfirmedDebits(es[..n], w);
    }
  }

  /** Appending an entry changes the balance of a wallet by that entry's
      contribution only. */
  lemma BalanceAppend(es: seq<LedgerEntry>, e: LedgerEntry, w: Uuid)
    ensures ComputeBalance(es + [e], w) == ComputeBalance(es, w) + e.Contribution(w)
  {
    assert (es + [e])[..|es|] == es;
  }

  /** The balance over two runs of entries is the sum of the two balances. */
  lemma {:induction false} BalanceConcat(a: seq<LedgerEntry>, b: seq<LedgerEntry>, w: Uuid)
    ensures ComputeBalance(a + b, w) == ComputeBalance(a, w) + ComputeBalance(b, w)
  {
    if |b| > 0 {
      var n := |b| - 1;
      BalanceConcat(a, b[..n], w);
      assert (a + b)[..|a + b| - 1] == a + b[..n];
    } else {
      assert a + b == a;
    }
  }

  /** Entries of other wallets add nothing to the balance of `w`. */
  lemma {:induction false} BalanceOfOtherWallets(es: seq<LedgerEntry>, w: Uuid)
    requires forall i :: 0 <= i < |es| ==> es[i].walletId != w
    ensures ComputeBalance(es, w) == 0
  {
    if |es| > 0 {
      BalanceOfOtherWallets(es[..|es| - 1], w);
    }
  }

  /** Replacing one entry changes the balance by the difference of the two
      contributions. */
  lemma {:induction false} BalanceUpdate(es: seq<LedgerEntry>, i: nat, e: LedgerEntry, w: Uuid)
    requires i < |es|
    ensures ComputeBalance(es[i := e], w) == ComputeBalance(es, w) - es[i].Contribution(w) + e.Contribution(w)
  {
    var n := |es| - 1;
    if i < n {
      BalanceUpdate(es[..n], i, e, w);
      assert es[i := e][..n] == es[..n][i := e];
    } else {
      assert es[i := e][..n] == es[..n];
    }
  }

  /** `findById`: the entry with that id, if any. */
  function FindIndexById(es: seq<LedgerEntry>, id: Uuid): (r: Option<nat>)
    ensures r.Some? ==> r.value < |es| && es[r.value].id == id
    ensures r.None? <==> forall i :: 0 <= i < |es| ==> es[i].id != id
  {
    if |es| == 0 then None
    else if es[|es| - 1].id == id then Some(|es| - 1)
    else FindIndexById(es[..|es| - 1], id)
  }

  /** `findByWalletIdAndReferenceIdAndReferenceType`: the entry holding that key
      of the unique index, if any. */
  function FindByKey(es: seq<LedgerEntry>, k: EntryKey): (r: Option<LedgerEntry>)
    ensures r.Some? ==> r.value in es && r.value.Key() == k
    ensures r.None? <==> forall i :: 0 <= i < |es| ==> es[i].Key() != k
  {
    match LastWithKey(es, k, |es|)
    case None => None
    case Some(j) => Some(es[j])
  }

  /** The last of the first `n` entries stored under `k`. */
  function LastWithKey(es: seq<LedgerEntry>, k: EntryKey, n: nat): (r: Option<nat>)
    requires n <= |es|
    ensures r.Some? ==> r.value < n && es[r.value].Key() == k
    ensures r.None? <==> forall i :: 0 <= i < n ==> es[i].Key() != k
  {
    if n == 0 then None
    else if es[n - 1].Key() == k then Some(n - 1)
    else LastWithKey(es, k, n - 1)
  }

  /** With the unique index in force, the key determines the entry. */
  lemma FindByKeyUnique(es: seq<LedgerEntry>, k: EntryKey, i: nat)
    requires KeysUnique(es)
    requires i < |es| && es[i].Key() == k
    ensures FindByKey(es, k) == Some(es[i])
  {
    var r := FindByKey(es, k);
    var j :| 0 <= j < |es| && es[j] == r.value;
    assert j == i;
  }

  /** A status change of a stored entry does not move `findById`. */
  lemma {:induction false} FindIndexByIdUpdate(es: seq<LedgerEntry>, i: nat, x: LedgerEntry, id: Uuid)
    requires i < |es| && x.id == es[i].id
    ensures FindIndexById(es[i := x], id) == FindIndexById(es, id)
  {
    var n := |es| - 1;
    if i < n {
      assert es[i := x][..n] == es[..n][i := x];
      FindIndexByIdUpdate(es[..n], i, x, id);
    } else {
      assert es[i := x][..n] == es[..n];
    }
  }

  /** Neither does appending an entry with another id. */
  lemma FindIndexByIdAppend(es: seq<LedgerEntry>, x: LedgerEntry, id: Uuid)
    requires x.id != id
    ensures FindIndexById(es + [x], id) == FindIndexById(es, id)
  {
    assert (es + [x])[..|es|] == es;
  }

  /** Replacing an entry whose key is not `k` does not move the lookup of `k`. */
  lemma FindByKeyUpdate(es: seq<LedgerEntry>, i: nat, x: LedgerEntry, k: EntryKey)
    requires i < |es| && es[i].Key() != k && x.Key() == es[i].Key()
    ensures FindByKey(es[i := x], k) == FindByKey(es, k)
  {
    LastWithKeyUpdate(es, i, x, k, |es|);
  }

  lemma {:induction false} LastWithKeyUpdate(es: seq<LedgerEntry>, i: nat, x: LedgerEntry, k: EntryKey, n: nat)
    requires i < |es| && es[i].Key() != k && x.Key() == es[i].Key() && n <= |es|
    ensures LastWithKey(es[i := x], k, n) == LastWithKey(es, k, n)
  {
    if n > 0 {
      LastWithKeyUpdate(es, i, x, k, n - 1);
    }
  }

  /** The unique index on (walletId, referenceId, referenceType). */
  predicate KeysUnique(es: seq<LedgerEntry>) {
    forall i, j :: 0 <= i < j < |es| ==> es[i].Key() != es[j].Key()
  }

  /** `EntriesFilter`: every criterion is optional. Amount bounds are
      `BigDecimal`s compared numerically with the stored amount. */
  datatype EntriesFilter = EntriesFilter(
    walletId: Option<Uuid>,
    merchantId: Option<Uuid>,
    from: Option<Instant>,
    to: Option<Instant>,
    minAmount: Option<Decimal>,
    maxAmount: Option<Decimal>,
    referenceType: Option<ReferenceType>,
    status: Option<EntryStatus>)

  const NoFilter := EntriesFilter(None, None, None, None, None, None, None, None)

  /** The conjunction the JPA `Specification` builds: an absent criterion
      contributes no condition. */
  predicate Matches(f: EntriesFilter, e: LedgerEntry) {
    && (f.walletId.Some? ==> e.walletId == f.walletId.value)
    && (f.merchantId.Some? ==> e.merchantId == f.merchantId.value)
    && (f.from.Some? ==> e.createdAt >= f.from.value)
    && (f.to.Some? ==> e.createdAt <= f.to.value)
    && (f.minAmount.Some? ==> Compare(FromUnits(e.amountValue), f.minAmount.value) >= 0)
    && (f.maxAmount.Some? ==> Compare(FromUnits(e.amountValue), f.maxAmount.value) <= 0)
    && (f.referenceType.Some? ==> e.referenceType == f.referenceType.value)
    && (f.status.Some? ==> e.status == f.status.value)
  }

  /** `findFiltered`, without paging: the matching entries in ledger order. */
  function FindFiltered(es: seq<LedgerEntry>, f: EntriesFilter): (r: seq<LedgerEntry>)
    ensures |r| <= |es|
    ensures forall e :: e in r <==> e in es && Matches(f, e)
  {
    if |es| == 0 then []
    else
      var e := es[|es| - 1];
      FindFiltered(es[..|es| - 1], f) + (if Matches(f, e) then [e] else [])
  }

  /** With no criterion supplied every entry is returned, in order. */
  lemma {:induction false} NoFilterReturnsAll(es: seq<LedgerEntry>)
    ensures FindFiltered(es, NoFilter) == es
  {
    if |es| > 0 {
      var n := |es| - 1;
      NoFilterReturnsAll(es[..n]);
      assert Matches(NoFilter, es[n]);
      assert FindFiltered(es, NoFilter) == FindFiltered(es[..n], NoFilter) + [es[n]];
      assert es[..n] + [es[n]] == es;
    }
  }

  /** The date and amount bounds are inclusive at both ends: bounds that pin
      one instant and one amount return exactly the entries created at that
      instant for that amount. */
  lemma BoundsInclusive(es: seq<LedgerEntry>, t: Instant, a: nat)
    ensures var r := FindFiltered(es, NoFilter.(from := Some(t), to := Some(t),
                                               minAmount := Some(FromUnits(a)), maxAmount := Some(FromUnits(a))));
            forall e :: e in r <==> e in es && e.createdAt == t && e.amountValue == a
  {
    assert Pow10(0) == 1;
  }

  /** Equality criteria select exactly the entries with that value. */
  lemma EqualityCriteria(es: seq<LedgerEntry>, w: Uuid, t: ReferenceType, st: EntryStatus)
    ensures var r := FindFiltered(es, NoFilter.(walletId := Some(w), referenceType := Some(t), status := Some(st)));
            forall e :: e in r <==> e in es && e.walletId == w && e.referenceType == t && e.status == st
  {
  }
}

=== FILE: ledger_store.dfy ===
/** The persistent state of the wallet service and the repository writes the use
    cases perform. Every table is a sequence in insertion order. A use case is a
    function from a state to a new state and a result; a failure returns no state,
    which is the rollback of the `@Transactional` method. */
module LedgerStore {
  import opened Wrappers
  import opened Base
  import opened Monetary
  import opened LedgerEntries
  import opened LedgerRepository
  import opened Wallets
  import opened Users
  import opened Outbox

  /** `iso` is the JDK's table of ISO 4217 codes, read by `Currency.of` and never
      changed. `nextId` stands for `UUID.randomUUID()`: every id is drawn from it. */
  datatype LedgerState = LedgerState(
    iso: set<string>,
    wallets: seq<Wallet>,
    users: seq<User>,
    entries: seq<LedgerEntry>,
    outbox: seq<OutboxRecord>,
    nextId: nat)

  // ---- invariants of the tables

  predicate EntriesValid(es: seq<LedgerEntry>, nextId: nat) {
    && (forall i :: 0 <= i < |es| ==> es[i].id < nextId)
    && (forall i, j :: 0 <= i < j < |es| ==> es[i].id != es[j].id)
    && KeysUnique(es)
  }

  predicate WalletsValid(ws: seq<Wallet>, nextId: nat) {
    && (forall i :: 0 <= i < |ws| ==> ws[i].id < nextId)
    && (forall i :: 0 <= i < |ws| && ws[i].vendorUserId.Some? ==> ws[i].vendorUserId.value < nextId)
    && (forall i, j :: 0 <= i < j < |ws| ==> ws[i].id != ws[j].id)
    && (forall i, j :: 0 <= i < j < |ws| ==> !KeysClash(ws[i].Key(), ws[j].Key()))
  }

  predicate UsersValid(us: seq<User>, nextId: nat) {
    && (forall i :: 0 <= i < |us| ==> us[i].Complete() && us[i].id.value < nextId)
    && (forall i, j :: 0 <= i < j < |us| ==> us[i].username != us[j].username)
  }

  predicate OutboxValid(ob: seq<OutboxRecord>, nextId: nat) {
    forall i :: 0 <= i < |ob| ==> ob[i].id < nextId
  }

  /** The unique indexes hold and every stored id was drawn before `nextId`. */
  predicate Valid(s: LedgerState) {
    && EntriesValid(s.entries, s.nextId)
    && WalletsValid(s.wallets, s.nextId)
    && UsersValid(s.users, s.nextId)
    && OutboxValid(s.outbox, s.nextId)
  }

  /** Entries only grow, and an existing entry changes at most by one permitted
      status step: the immutability rule of `LedgerEntry`. */
  predicate Evolves(before: seq<LedgerEntry>, after: seq<LedgerEntry>) {
    |before| <= |after| && forall i :: 0 <= i < |before| ==> StatusStep(before[i], after[i])
  }

  lemma EvolvesTransitive(a: seq<LedgerEntry>, b: seq<LedgerEntry>, c: seq<LedgerEntry>)
    requires Evolves(a, b) && Evolves(b, c)
    ensures Evolves(a, c)
  {
    forall i | 0 <= i < |a|
      ensures StatusStep(a[i], c[i])
    {
      StatusStepTransitive(a[i], b[i], c[i]);
    }
  }

  /** Appending entries changes none of the existing ones. */
  lemma EvolvesByAppend(a: seq<LedgerEntry>, b: seq<LedgerEntry>)
    ensures Evolves(a, a + b)
  {
    assert forall i :: 0 <= i < |a| ==> (a + b)[i] == a[i];
  }

  // ---- reads

  /** `WalletRepository.findById`. The lookups of this module and of the ledger
      repository each search one table by one column; they share the shape of a
      last-match scan but not the element type or the column, so each is written
      out for its own table. */
  function FindWallet(ws: seq<Wallet>, id: Uuid): (r: Option<Wallet>)
    ensures r.Some? ==> r.value in ws && r.value.id == id
    ensures r.None? <==> forall i :: 0 <= i < |ws| ==> ws[i].id != id
  {
    if |ws| == 0 then None
    else if ws[|ws| - 1].id == id then Some(ws[|ws| - 1])
    else FindWallet(ws[..|ws| - 1], id)
  }

  /** The position of the row `findById` reads: the save of a changed wallet
      replaces that row (`UpdateWallet`), so the position is needed besides the
      row itself. */
  function FindWalletIndex(ws: seq<Wallet>, id: Uuid): (r: Option<nat>)
    ensures r.Some? ==> r.value < |ws| && ws[r.value].id == id
    ensures r.None? <==> forall i :: 0 <= i < |ws| ==> ws[i].id != id
  {
    if |ws| == 0 then None
    else if ws[|ws| - 1].id == id then Some(|ws| - 1)
    else FindWalletIndex(ws[..|ws| - 1], id)
  }

  /** `existsByMerchantIdAndCurrencyCodeAndWalletTypeAndVendorUserId`: a derived
      query turns a null argument into IS NULL, so a null matches a null column. */
  predicate WalletKeyExists(ws: seq<Wallet>, k: WalletKey) {
    exists i :: 0 <= i < |ws| && ws[i].Key() == k
  }

  /** Two rows with these keys collide on `uk_wallets_merchant_currency_type_vendor`.
      SQL never finds two NULLs equal, so a key with no wallet type or no vendor
      collides with nothing: MAIN and ESCROW wallets are not held unique by it. */
  predicate KeysClash(a: WalletKey, b: WalletKey) {
    a == b && a.walletType.Some? && a.vendorUserId.Some?
  }

  /** A stored wallet already holds the unique key `k`. */
  predicate WalletKeyTaken(ws: seq<Wallet>, k: WalletKey) {
    exists i :: 0 <= i < |ws| && KeysClash(ws[i].Key(), k)
  }

  /** Two different rows carry the key `k`. */
  predicate KeyMatchesTwice(ws: seq<Wallet>, k: WalletKey) {
    exists i, j :: 0 <= i < j < |ws| && ws[i].Key() == k && ws[j].Key() == k
  }

  /** No two rows carry one key, nulls compared as equal: what a single-row
      lookup by key takes for granted. */
  predicate KeysDistinct(ws: seq<Wallet>) {
    forall i, j :: 0 <= i < j < |ws| ==> ws[i].Key() != ws[j].Key()
  }

  /** `findByMerchantIdAndCurrencyCodeAndWalletTypeAndVendorUserId`, a query
      returning `Optional`: a null argument matches a null column, and when two
      rows match Spring throws `IncorrectResultSizeDataAccessException`. */
  function FindWalletByKey(ws: seq<Wallet>, k: WalletKey): (r: Result<Option<Wallet>, Error>)
    ensures r == Success(None) <==> !WalletKeyExists(ws, k)
    ensures r.Success? && r.value.Some? ==>
              exists i :: && 0 <= i < |ws| && ws[i] == r.value.value && ws[i].Key() == k
                          && forall j :: 0 <= j < |ws| && j != i ==> ws[j].Key() != k
    ensures r.Failure? <==> KeyMatchesTwice(ws, k)
    ensures r.Failure? ==> r.error == IncorrectResultSize
  {
    if |ws| == 0 then Success(None)
    else
      var rest := FindWalletByKey(ws[..|ws| - 1], k);
      if ws[|ws| - 1].Key() != k then rest
      else if rest == Success(None) then Success(Some(ws[|ws| - 1]))
      else Failure(IncorrectResultSize)
  }

  /** `findById` and the index of the row it reads agree. */
  lemma {:induction false} FindWalletAtIndex(ws: seq<Wallet>, id: Uuid)
    requires FindWalletIndex(ws, id).Some?
    ensures FindWallet(ws, id) == Some(ws[FindWalletIndex(ws, id).value])
  {
    if ws[|ws| - 1].id != id {
      FindWalletAtIndex(ws[..|ws| - 1], id);
    }
  }

  /** After the row that `findById` reads is replaced by `w` (same id), `findById`
      reads `w`, and lookups of other ids are unaffected. */
  lemma {:induction false} FindWalletUpdate(ws: seq<Wallet>, i: nat, w: Wallet, id: Uuid)
    requires FindWalletIndex(ws, w.id) == Some(i)
    ensures FindWallet(ws[i := w], w.id) == Some(w)
    ensures id != w.id ==> FindWallet(ws[i := w], id) == FindWallet(ws, id)
  {
    var n := |ws| - 1;
    if i < n {
      assert ws[i := w][..n] == ws[..n][i := w];
      FindWalletUpdate(ws[..n], i, w, id);
    } else {
      assert ws[i := w][..n] == ws[..n];
    }
  }

  /** `UserRepository.findByUsername`: the users table searched by its unique
      username column. */
  function FindUser(us: seq<User>, username: string): (r: Option<User>)
    ensures r.Some? ==> r.value in us && r.value.username == username
    ensures r.None? <==> forall i :: 0 <= i < |us| ==> us[i].username != username
  {
    if |us| == 0 then None
    else if us[|us| - 1].username == username then Some(us[|us| - 1])
    else FindUser(us[..|us| - 1], username)
  }

  function FindUserById(us: seq<User>, id: Uuid): (r: Option<User>)
    ensures r.Some? ==> r.value in us && r.value.id == Some(id)
    ensures r.None? <==> forall i :: 0 <= i < |us| ==> us[i].id != Some(id)
  {
    if |us| == 0 then None
    else if us[|us| - 1].id == Some(id) then Some(us[|us| - 1])
    else FindUserById(us[..|us| - 1], id)
  }

  /** The derived balance of a wallet as the repository computes it. */
  function Balance(s: LedgerState, w: Uuid): int {
    ComputeBalance(s.entries, w)
  }

  /** The checks that open credit, debit and reserve, in their order: the wallet
      must exist, be ACTIVE, and have the currency of the amount (reading the
      wallet's currency goes through `Currency.of` and may itself fail). */
  function LoadActiveWallet(s: LedgerState, walletId: Uuid, currency: Currency): (r: Result<Wallet, Error>)
    ensures FindWallet(s.wallets, walletId).None? ==> r == Failure(WalletNotFound(walletId))
    ensures FindWallet(s.wallets, walletId).Some? && !FindWallet(s.wallets, walletId).value.IsActive() ==>
              r == Failure(IllegalState(WalletNotActive))
    ensures r.Success? <==> FindWallet(s.wallets, walletId).Some? && FindWallet(s.wallets, walletId).value.IsActive()
                             && FindWallet(s.wallets, walletId).value.GetCurrency(s.iso) == Success(currency)
    ensures r.Success? ==> r.value.id == walletId && r.value in s.wallets
  {
    match FindWallet(s.wallets, walletId)
    case None => Failure(WalletNotFound(walletId))
    case Some(w) =>
      if !w.IsActive() then Failure(IllegalState(WalletNotActive))
      else
        var c :- w.GetCurrency(s.iso);
        if c != currency then Failure(IllegalArgument(CurrencyMismatch)) else Success(w)
  }

  // ---- writes

  /** No stored entry, wallet or user holds `id`. */
  predicate Unused(s: LedgerState, id: Uuid) {
    && (forall i :: 0 <= i < |s.entries| ==> s.entries[i].id != id)
    && (forall i :: 0 <= i < |s.wallets| ==> s.wallets[i].id != id)
    && (forall i :: 0 <= i < |s.users| ==> s.users[i].id != Some(id))
  }

  /** A fresh UUID: under the invariants no stored entry, wallet or user holds
      it, the invariants survive drawing it, and nothing but the source of ids
      changes. */
  function Fresh(s: LedgerState): (r: (Uuid, LedgerState))
    ensures r.1 == s.(nextId := r.1.nextId) && r.0 < r.1.nextId
    ensures Valid(s) ==> Valid(r.1) && Unused(s, r.0)
  {
    (s.nextId, s.(nextId := s.nextId + 1))
  }

  lemma FreshIsNew(s: LedgerState)
    requires Valid(s)
    ensures Valid(s.(nextId := s.nextId + 1))
    ensures forall i :: 0 <= i < |s.entries| ==> s.entries[i].id != s.nextId
    ensures forall i :: 0 <= i < |s.wallets| ==> s.wallets[i].id != s.nextId
    ensures forall i :: 0 <= i < |s.users| ==> s.users[i].id != Some(s.nextId)
  {
  }

  /** `ledgerEntryRepository.save` of a new entry: the unique index on
      (walletId, referenceId, referenceType) refuses a second entry for a key. */
  function InsertEntry(s: LedgerState, e: LedgerEntry): (r: Result<LedgerState, Error>)
    ensures r.Failure? <==> exists i :: 0 <= i < |s.entries| && s.entries[i].Key() == e.Key()
    ensures r.Failure? ==> r.error == DataIntegrityViolation
    ensures r.Success? ==> r.value == s.(entries := s.entries + [e])
    ensures (r.Success? && Valid(s) && e.id < s.nextId && forall i :: 0 <= i < |s.entries| ==> s.entries[i].id != e.id)
            ==> Valid(r.value)
  {
    if FindByKey(s.entries, e.Key()).Some? then Failure(DataIntegrityViolation)
    else Success(s.(entries := s.entries + [e]))
  }

  /** `ledgerEntryRepository.save` of a loaded entry whose status was set. */
  function SetStatus(s: LedgerState, i: nat, status: EntryStatus): (r: LedgerState)
    requires i < |s.entries|
    ensures r.entries == s.entries[i := s.entries[i].(status := status)]
    ensures r == s.(entries := r.entries)
    ensures Valid(s) ==> Valid(r)
  {
    var e := s.entries[i];
    var r := s.(entries := s.entries[i := e.(status := status)]);
    assert forall j :: 0 <= j < |r.entries| ==> r.entries[j].Key() == s.entries[j].Key() && r.entries[j].id == s.entries[j].id;
    r
  }

  /** `walletRepository.save` of a new wallet: the unique constraint on
      (merchantId, currencyCode, walletType, vendorUserId) refuses a duplicate
      VENDOR wallet, and lets a duplicate MAIN or ESCROW wallet through. */
  function InsertWallet(s: LedgerState, w: Wallet): (r: Result<LedgerState, Error>)
    ensures r.Failure? <==> WalletKeyTaken(s.wallets, w.Key())
    ensures r.Failure? ==> r.error == DataIntegrityViolation
    ensures r.Success? ==> r.value == s.(wallets := s.wallets + [w])
    ensures (&& r.Success? && Valid(s) && w.id < s.nextId
             && (w.vendorUserId.Some? ==> w.vendorUserId.value < s.nextId)
             && forall i :: 0 <= i < |s.wallets| ==> s.wallets[i].id != w.id)
            ==> Valid(r.value)
  {
    if WalletKeyTaken(s.wallets, w.Key()) then Failure(DataIntegrityViolation)
    else Success(s.(wallets := s.wallets + [w]))
  }

  /** `walletRepository.save` of a loaded wallet: its row is replaced. */
  function UpdateWallet(s: LedgerState, i: nat, w: Wallet): (r: LedgerState)
    requires i < |s.wallets| && w.id == s.wallets[i].id && w.Key() == s.wallets[i].Key()
    ensures r.wallets == s.wallets[i := w] && |r.wallets| == |s.wallets|
    ensures r == s.(wallets := r.wallets)
    ensures Valid(s) ==> Valid(r)
  {
    var r := s.(wallets := s.wallets[i := w]);
    assert forall j :: 0 <= j < |r.wallets| ==> r.wallets[j].Key() == s.wallets[j].Key() && r.wallets[j].id == s.wallets[j].id;
    r
  }

  /** `userRepository.save` of a new user: defaults are filled, and the unique
      username column refuses a duplicate. */
  function InsertUser(s: LedgerState, u: User, now: Instant): (r: Result<(LedgerState, User), Error>)
    ensures r.Failure? <==> exists i :: 0 <= i < |s.users| && s.users[i].username == u.username
    ensures r.Failure? ==> r.error == DataIntegrityViolation
    ensures r.Success? ==> r.value.1 == EnsureDefaults(u, s.nextId, now) && r.value.1.Complete()
    ensures r.Success? ==> r.value.0 == s.(users := s.users + [r.value.1], nextId := s.nextId + 1)
    ensures r.Success? && Valid(s) && (u.id.Some? ==> u.id.value < s.nextId) ==> Valid(r.value.0)
  {
    if FindUser(s.users, u.username).Some? then Failure(DataIntegrityViolation)
    else
      var saved := EnsureDefaults(u, s.nextId, now);
      Success((s.(users := s.users + [saved], nextId := s.nextId + 1), saved))
  }

  /** `eventPublisher.publish`: one unpublished outbox record per event. */
  function Publish(s: LedgerState, ev: DomainEvent, now: Instant): (r: LedgerState)
    ensures r.outbox == s.outbox + [OutboxRecord(s.nextId, ev, now, false)]
    ensures r == s.(outbox := r.outbox, nextId := s.nextId + 1)
    ensures Valid(s) ==> Valid(r)
  {
    s.(outbox := s.outbox + [OutboxRecord(s.nextId, ev, now, false)], nextId := s.nextId + 1)
  }
}

=== FILE: mock_webhook.dfy ===
/** `MockWebhookService`: a simulated payment gateway. A payment success credits
    the merchant's ESCROW wallet and records a pending order for the vendor; an
    order completion splits the escrowed amount between the vendor's wallet and
    the merchant's MAIN wallet by commission. Neither method is transactional:
    the ledger call is made first, and the pending-order table is written only
    when it returned. */
module MockWebhook {
  import opened Wrappers
  import opened Base
  import opened Monetary
  import opened WalletPort
  import opened Commission
  import Transfer

  /** A row of `pending_orders`; the amount column has scale 4, so it is kept
      in units of 10^-4. */
  datatype PendingOrder = PendingOrder(id: Uuid, merchantId: Uuid, vendorId: Uuid, orderId: string, amount: int,
                                       currencyCode: string, splitDone: bool, createdAt: Instant)

  /** The `pending_orders` table in insertion order, and the next fresh id. */
  datatype WebhookState = WebhookState(orders: seq<PendingOrder>, nextId: nat)

  predicate Matches(o: PendingOrder, merchantId: Uuid, orderId: string) {
    o.merchantId == merchantId && o.orderId == orderId
  }

  /** The table's constraints: the primary key, ids from the counter, and the
      unique (merchant_id, order_id). */
  predicate Valid(ws: WebhookState) {
    && (forall i :: 0 <= i < |ws.orders| ==> ws.orders[i].id < ws.nextId)
    && (forall i, j :: 0 <= i < j < |ws.orders| ==> ws.orders[i].id != ws.orders[j].id)
    && (forall i, j :: 0 <= i < j < |ws.orders| ==>
          !Matches(ws.orders[j], ws.orders[i].merchantId, ws.orders[i].orderId))
  }

  /** `findByMerchantIdAndOrderId`, as the index of the row. */
  function FindOrder(os: seq<PendingOrder>, merchantId: Uuid, orderId: string): (r: Option<nat>)
    ensures r.Some? ==> r.value < |os| && Matches(os[r.value], merchantId, orderId)
    ensures r.Some? ==> forall k :: 0 <= k < r.value ==> !Matches(os[k], merchantId, orderId)
    ensures r.None? ==> forall k :: 0 <= k < |os| ==> !Matches(os[k], merchantId, orderId)
  {
    if |os| == 0 then None
    else if Matches(os[|os| - 1], merchantId, orderId) && FindOrder(os[..|os| - 1], merchantId, orderId).None?
    then Some(|os| - 1)
    else FindOrder(os[..|os| - 1], merchantId, orderId)
  }

  /** In a valid table only the row found matches the (merchant, order) key. */
  lemma OnlyMatch(ws: WebhookState, merchantId: Uuid, orderId: string)
    requires Valid(ws) && FindOrder(ws.orders, merchantId, orderId).Some?
    ensures forall k :: 0 <= k < |ws.orders| && Matches(ws.orders[k], merchantId, orderId) ==>
              k == FindOrder(ws.orders, merchantId, orderId).value
  {
  }

  // ---- Payment success

  /** The escrow credit of a payment: reference type ORDER, reference id the
      order id, wallet idempotency key `mock-payment-<orderId>`. */
  function PaymentCredit(walletId: Uuid, orderId: string, amount: Decimal, currencyCode: string,
                         token: Option<string>): PortCall {
    CreditCall(walletId, amount, currencyCode, orderId, "ORDER", "Mock payment for order " + orderId,
               "mock-payment-" + orderId, token)
  }

  /** The pending-order upsert: an existing row for (merchant, order) takes the
      new vendor, amount and currency and keeps its `splitDone`; otherwise a new
      row is added with `splitDone` false. */
  function RecordPayment(ws: WebhookState, merchantId: Uuid, vendorId: Uuid, orderId: string, amount: Decimal,
                         currencyCode: string, now: Instant): (r: WebhookState)
    ensures FindOrder(ws.orders, merchantId, orderId).Some? ==>
              var i := FindOrder(ws.orders, merchantId, orderId).value;
              && r.nextId == ws.nextId
              && r.orders == ws.orders[i := ws.orders[i].(vendorId := vendorId, amount := SetScale4(amount),
                                                          currencyCode := currencyCode)]
              && FindOrder(r.orders, merchantId, orderId) == Some(i)
    ensures FindOrder(ws.orders, merchantId, orderId).None? ==>
              && r.nextId == ws.nextId + 1
              && r.orders == ws.orders + [PendingOrder(ws.nextId, merchantId, vendorId, orderId, SetScale4(amount),
                                                       currencyCode, false, now)]
              && FindOrder(r.orders, merchantId, orderId) == Some(|ws.orders|)
  {
    match FindOrder(ws.orders, merchantId, orderId)
    case Some(i) =>
      var o := ws.orders[i];
      var os := ws.orders[i := o.(vendorId := vendorId, amount := SetScale4(amount), currencyCode := currencyCode)];
      FindOrderSame(ws.orders, os, merchantId, orderId);
      ws.(orders := os)
    case None =>
      var o := PendingOrder(ws.nextId, merchantId, vendorId, orderId, SetScale4(amount), currencyCode, false, now);
      var os := ws.orders + [o];
      assert os[..|os| - 1] == ws.orders;
      WebhookState(os, ws.nextId + 1)
  }

  /** The upsert keeps the table's constraints, leaves every other order's row
      as it was, and leaves exactly one row for the order: with the new vendor,
      amount and currency, and the `splitDone` it had (false for a new row). */
  lemma RecordPaymentUpserts(ws: WebhookState, merchantId: Uuid, vendorId: Uuid, orderId: string, amount: Decimal,
                             currencyCode: string, now: Instant)
    requires Valid(ws)
    ensures var r := RecordPayment(ws, merchantId, vendorId, orderId, amount, currencyCode, now);
            && Valid(r)
            && FindOrder(r.orders, merchantId, orderId).Some?
            && var o := r.orders[FindOrder(r.orders, merchantId, orderId).value];
               && o.vendorId == vendorId && o.amount == SetScale4(amount) && o.currencyCode == currencyCode
               && o.splitDone == (FindOrder(ws.orders, merchantId, orderId).Some?
                                  && ws.orders[FindOrder(ws.orders, merchantId, orderId).value].splitDone)
               && (forall k :: 0 <= k < |ws.orders| && !Matches(ws.orders[k], merchantId, orderId) ==>
                     r.orders[k] == ws.orders[k])
               && (forall k :: 0 <= k < |r.orders| && Matches(r.orders[k], merchantId, orderId) ==>
                     k == FindOrder(r.orders, merchantId, orderId).value)
  {
    var r := RecordPayment(ws, merchantId, vendorId, orderId, amount, currencyCode, now);
    match FindOrder(ws.orders, merchantId, orderId)
    case Some(i) => RewriteKeepsValid(ws, i, r.orders[i]);
    case None => AppendKeepsValid(ws, r.orders[|ws.orders|]);
    OnlyMatch(r, merchantId, orderId);
  }

  /** Rewriting a row's other columns keeps the constraints. */
  lemma RewriteKeepsValid(ws: WebhookState, i: nat, o: PendingOrder)
    requires Valid(ws) && i < |ws.orders|
    requires o.id == ws.orders[i].id && Matches(o, ws.orders[i].merchantId, ws.orders[i].orderId)
    ensures Valid(ws.(orders := ws.orders[i := o]))
  {
  }

  /** A row with the next id and a (merchant, order) key not yet taken keeps the
      constraints. */
  lemma AppendKeepsValid(ws: WebhookState, o: PendingOrder)
    requires Valid(ws) && o.id == ws.nextId
    requires forall k :: 0 <= k < |ws.orders| ==> !Matches(ws.orders[k], o.merchantId, o.orderId)
    ensures Valid(WebhookState(ws.orders + [o], ws.nextId + 1))
  {
  }

  /** Changing rows without changing which of them match leaves the lookup as it was. */
  lemma {:induction false} FindOrderSame(a: seq<PendingOrder>, b: seq<PendingOrder>, merchantId: Uuid, orderId: string)
    requires |a| == |b|
    requires forall k :: 0 <= k < |a| ==> (Matches(a[k], merchantId, orderId) <==> Matches(b[k], merchantId, orderId))
    ensures FindOrder(a, merchantId, orderId) == FindOrder(b, merchantId, orderId)
  {
    if |a| > 0 {
      FindOrderSame(a[..|a| - 1], b[..|b| - 1], merchantId, orderId);
    }
  }

  /** `handlePaymentSuccess`. The escrow wallet is the one given, or looked up;
      the credit's failure, if any, is `creditReply`. */
  function HandlePaymentSuccess(ws: WebhookState, merchantId: Uuid, vendorId: Uuid, orderId: string, amount: Decimal,
                                currencyCode: string, escrowWalletId: Option<Uuid>, token: Option<string>,
                                now: Instant, directory: Directory, creditReply: Outcome<Error>)
    : (r: Attempt<WebhookState>)
    ensures var e := ResolveWallet(escrowWalletId, directory, merchantId, currencyCode, "ESCROW", None);
            && (e.result.Failure? ==> r == Attempt(Failure(e.result.error), e.calls))
            && (e.result.Success? ==>
                  && r.calls == e.calls + [PaymentCredit(e.result.value, orderId, amount, currencyCode, token)]
                  && (creditReply.Fail? ==> r.result == Failure(creditReply.error))
                  && (creditReply.Pass? ==>
                        r.result == Success(RecordPayment(ws, merchantId, vendorId, orderId, amount, currencyCode, now))))
    ensures r.result.Success? ==> |r.calls| >= 1 && r.calls[|r.calls| - 1].CreditCall?
  {
    var e := ResolveWallet(escrowWalletId, directory, merchantId, currencyCode, "ESCROW", None);
    match e.result
    case Failure(err) => Attempt(Failure(err), e.calls)
    case Success(walletId) =>
      var calls := e.calls + [PaymentCredit(walletId, orderId, amount, currencyCode, token)];
      match creditReply
      case Fail(err) => Attempt(Failure(err), calls)
      case Pass => Attempt(Success(RecordPayment(ws, merchantId, vendorId, orderId, amount, currencyCode, now)), calls)
  }

  // ---- Order completion

  /** The split legs: the vendor's share to the vendor wallet, the platform's
      share to the MAIN wallet. */
  function SplitLegs(configs: Configs, merchantId: Uuid, amount: Decimal, mainWalletId: Uuid, vendorWalletId: Uuid)
    : seq<Transfer.CreditLeg>
  {
    [Transfer.CreditLeg(vendorWalletId, VendorShare(configs, merchantId, amount)),
     Transfer.CreditLeg(mainWalletId, PlatformShare(configs, merchantId, amount))]
  }

  /** The split transfer: out of escrow, the whole amount, reference id
      `<orderId>-split`, wallet idempotency key `mock-split-<orderId>`. */
  function SplitTransfer(configs: Configs, merchantId: Uuid, orderId: string, amount: Decimal, currencyCode: string,
                         escrowWalletId: Uuid, mainWalletId: Uuid, vendorWalletId: Uuid, token: Option<string>)
    : PortCall
  {
    TransferCall(escrowWalletId, orderId + "-split", currencyCode, amount,
                 SplitLegs(configs, merchantId, amount, mainWalletId, vendorWalletId),
                 "Order split " + orderId, "mock-split-" + orderId, token)
  }

  /** Marks the pending row of (merchant, order), if there is one, as split. */
  function MarkSplit(ws: WebhookState, merchantId: Uuid, orderId: string): (r: WebhookState)
    ensures r.nextId == ws.nextId && |r.orders| == |ws.orders|
    ensures FindOrder(ws.orders, merchantId, orderId).None? ==> r == ws
    ensures FindOrder(ws.orders, merchantId, orderId).Some? ==>
              var i := FindOrder(ws.orders, merchantId, orderId).value;
              r.orders == ws.orders[i := ws.orders[i].(splitDone := true)]
    ensures Valid(ws) ==> Valid(r)
  {
    match FindOrder(ws.orders, merchantId, orderId)
    case None => ws
    case Some(i) => ws.(orders := ws.orders[i := ws.orders[i].(splitDone := true)])
  }

  /** `handleOrderComplete`. ESCROW, MAIN and VENDOR wallets are the ones given
      or looked up, in that order; the commission is computed; the transfer is
      made (its failure, if any, is `transferReply`); then the pending row is
      marked split. */
  function HandleOrderComplete(ws: WebhookState, configs: Configs, merchantId: Uuid, orderId: string, amount: Decimal,
                               currencyCode: string, vendorId: Uuid, escrowWalletId: Option<Uuid>,
                               mainWalletId: Option<Uuid>, vendorWalletId: Option<Uuid>, token: Option<string>,
                               directory: Directory, transferReply: Outcome<Error>)
    : (r: Attempt<WebhookState>)
    ensures r.result.Success? <==>
              && ResolveWallet(escrowWalletId, directory, merchantId, currencyCode, "ESCROW", None).result.Success?
              && ResolveWallet(mainWalletId, directory, merchantId, currencyCode, "MAIN", None).result.Success?
              && ResolveWallet(vendorWalletId, directory, merchantId, currencyCode, "VENDOR", Some(vendorId)).result.Success?
              && transferReply.Pass?
    ensures r.result.Success? ==>
              && r.result.value == MarkSplit(ws, merchantId, orderId)
              && |r.calls| >= 1
              && r.calls[|r.calls| - 1] ==
                   SplitTransfer(configs, merchantId, orderId, amount, currencyCode,
                                 ResolveWallet(escrowWalletId, directory, merchantId, currencyCode, "ESCROW", None).result.value,
                                 ResolveWallet(mainWalletId, directory, merchantId, currencyCode, "MAIN", None).result.value,
                                 ResolveWallet(vendorWalletId, directory, merchantId, currencyCode, "VENDOR", Some(vendorId)).result.value,
                                 token)
    ensures forall k :: 0 <= k < |r.calls| - 1 ==> r.calls[k].WalletByTypeCall?
    ensures r.result.Success? && Valid(ws) ==> Valid(r.result.value)
  {
    var e := ResolveWallet(escrowWalletId, directory, merchantId, currencyCode, "ESCROW", None);
    match e.result
    case Failure(err) => Attempt(Failure(err), e.calls)
    case Success(escrow) =>
      var m := ResolveWallet(mainWalletId, directory, merchantId, currencyCode, "MAIN", None);
      match m.result
      case Failure(err) => Attempt(Failure(err), e.calls + m.calls)
      case Success(main) =>
        var v := ResolveWallet(vendorWalletId, directory, merchantId, currencyCode, "VENDOR", Some(vendorId));
        match v.result
        case Failure(err) => Attempt(Failure(err), e.calls + m.calls + v.calls)
        case Success(vendor) =>
          var calls := e.calls + m.calls + v.calls
                       + [SplitTransfer(configs, merchantId, orderId, amount, currencyCode, escrow, main, vendor, token)];
          match transferReply
          case Fail(err) => Attempt(Failure(err), calls)
          case Pass => Attempt(Success(MarkSplit(ws, merchantId, orderId)), calls)
  }

  // ---- Listing

  /** `listPendingOrdersByVendor`: the rows of that merchant and vendor whose
      split is not done, in table order. */
  function ListPending(ws: WebhookState, merchantId: Uuid, vendorId: Uuid): (r: seq<PendingOrder>)
    ensures forall o :: o in r <==> o in ws.orders && o.merchantId == merchantId && o.vendorId == vendorId && !o.splitDone
    ensures |r| <= |ws.orders|
  {
    Filter(ws.orders, merchantId, vendorId)
  }

  function Filter(os: seq<PendingOrder>, merchantId: Uuid, vendorId: Uuid): (r: seq<PendingOrder>)
    ensures forall o :: o in r <==> o in os && o.merchantId == merchantId && o.vendorId == vendorId && !o.splitDone
    ensures |r| <= |os|
  {
    if |os| == 0 then []
    else
      var rest := Filter(os[1..], merchantId, vendorId);
      assert forall o :: o in os <==> o == os[0] || o in os[1..];
      if os[0].merchantId == merchantId && os[0].vendorId == vendorId && !os[0].splitDone then [os[0]] + rest
      else rest
  }

  // ---- Properties

  /** For an amount of at most four decimals the legs add up to the total, both
      exactly and as rounded, so the ledger's transfer accepts the split's sum
      under the check as written and under the corrected one. */
  lemma SplitSumMatches(configs: Configs, merchantId: Uuid, amount: Decimal, mainWalletId: Uuid, vendorWalletId: Uuid)
    requires amount.scale <= Scale
    ensures var legs := SplitLegs(configs, merchantId, amount, mainWalletId, vendorWalletId);
            && Compare(amount, Transfer.SumLegs(legs)) == 0
            && SetScale4(amount) == Transfer.RoundedSum(legs)
  {
    var legs := SplitLegs(configs, merchantId, amount, mainWalletId, vendorWalletId);
    var platform := PlatformShare(configs, merchantId, amount);
    var vendor := VendorShare(configs, merchantId, amount);
    assert legs[..1][..0] == [];
    assert legs[..1] == [legs[0]];
    assert legs[..|legs| - 1] == legs[..1];
    assert Transfer.RoundedSum(legs[..1]) == Transfer.RoundedSum(legs[..1][..0]) + SetScale4(legs[0].amount);
    assert Transfer.RoundedSum(legs) == Transfer.RoundedSum(legs[..1]) + SetScale4(legs[1].amount);
    SetScale4OfUnits(vendor.unscaled);
    Transfer.SumLegsExact(legs);
    CompareExact(amount, Transfer.SumLegs(legs));
  }

  /** A split never shares a ledger reference with its own order's payment, and
      the two wallet idempotency keys never coincide for any pair of orders. */
  lemma SplitKeysApart(orderId: string, otherOrderId: string)
    ensures orderId + "-split" != orderId
    ensures "mock-payment-" + otherOrderId != "mock-split-" + orderId
  {
    assert ("mock-payment-" + otherOrderId)[5] == 'p';
    assert ("mock-split-" + orderId)[5] == 's';
  }

  /** As written, though, the split's reference id lives in the same ORDER
      reference space as payment order ids: the split of order `o` carries the
      reference id of the payment of an order named `o-split` on the same escrow. */
  lemma SplitReferenceShared(configs: Configs, merchantId: Uuid, orderId: string, amount: Decimal, amount2: Decimal,
                             currencyCode: string, escrowWalletId: Uuid, mainWalletId: Uuid, vendorWalletId: Uuid,
                             token: Option<string>, token2: Option<string>)
    ensures SplitTransfer(configs, merchantId, orderId, amount, currencyCode, escrowWalletId, mainWalletId,
                          vendorWalletId, token).referenceId
            == PaymentCredit(escrowWalletId, orderId + "-split", amount2, currencyCode, token2).referenceId
  {
  }

  /** A successful payment for an order lists it as pending for its vendor,
      unless its row was already marked split. */
  lemma PaymentListsOrder(ws: WebhookState, merchantId: Uuid, vendorId: Uuid, orderId: string, amount: Decimal,
                          currencyCode: string, escrowWalletId: Option<Uuid>, token: Option<string>, now: Instant,
                          directory: Directory)
    requires Valid(ws)
    requires FindOrder(ws.orders, merchantId, orderId).None? || !ws.orders[FindOrder(ws.orders, merchantId, orderId).value].splitDone
    requires HandlePaymentSuccess(ws, merchantId, vendorId, orderId, amount, currencyCode, escrowWalletId, token, now,
                                  directory, Pass).result.Success?
    ensures var ws1 := HandlePaymentSuccess(ws, merchantId, vendorId, orderId, amount, currencyCode, escrowWalletId,
                                            token, now, directory, Pass).result.value;
            exists o :: o in ListPending(ws1, merchantId, vendorId) && o.orderId == orderId
  {
    var ws1 := RecordPayment(ws, merchantId, vendorId, orderId, amount, currencyCode, now);
    RecordPaymentUpserts(ws, merchantId, vendorId, orderId, amount, currencyCode, now);
    var i := FindOrder(ws1.orders, merchantId, orderId).value;
    assert ws1.orders[i] in ListPending(ws1, merchantId, vendorId);
  }

  /** After a successful completion the order is listed as pending for no vendor. */
  lemma SplitUnlistsOrder(ws: WebhookState, configs: Configs, merchantId: Uuid, orderId: string, amount: Decimal,
                          currencyCode: string, vendorId: Uuid, escrowWalletId: Option<Uuid>, mainWalletId: Option<Uuid>,
                          vendorWalletId: Option<Uuid>, token: Option<string>, directory: Directory, anyVendor: Uuid)
    requires Valid(ws)
    requires HandleOrderComplete(ws, configs, merchantId, orderId, amount, currencyCode, vendorId, escrowWalletId,
                                 mainWalletId, vendorWalletId, token, directory, Pass).result.Success?
    ensures var ws2 := HandleOrderComplete(ws, configs, merchantId, orderId, amount, currencyCode, vendorId,
                                           escrowWalletId, mainWalletId, vendorWalletId, token, directory,
                                           Pass).result.value;
            forall o :: o in ListPending(ws2, merchantId, anyVendor) ==> o.orderId != orderId
  {
    var ws2 := MarkSplit(ws, merchantId, orderId);
    forall o | o in ListPending(ws2, merchantId, anyVendor)
      ensures o.orderId != orderId
    {
      var k :| 0 <= k < |ws2.orders| && ws2.orders[k] == o;
      if FindOrder(ws.orders, merchantId, orderId).Some? {
        OnlyMatch(ws, merchantId, orderId);
      }
    }
  }
}

=== FILE: money.dfy ===
/** The `Money` and `Currency` value objects of the wallet service.
    Amounts are integers counting units of 10^-4, the fixed scale of `Money`. */
module Monetary {
  import opened Wrappers
  import opened Base
  import Text

  /** `Money.SCALE`: every stored amount has four decimals. */
  const Scale: nat := 4
  const UnitsPerWhole: nat := 10000

  function Pow10(k: nat): (r: nat)
    ensures r >= 1
  {
    if k == 0 then 1 else 10 * Pow10(k - 1)
  }

  lemma {:induction false} Pow10Add(a: nat, b: nat)
    ensures Pow10(a + b) == Pow10(a) * Pow10(b)
  {
    if a > 0 {
      Pow10Add(a - 1, b);
      assert Pow10(a + b) == 10 * Pow10(a - 1 + b);
    }
  }

  /** A `BigDecimal`: the value `unscaled * 10^-scale`. */
  datatype Decimal = Decimal(unscaled: int, scale: nat)

  /** A non-negative amount in units of 10^-4 as a `BigDecimal` of scale 4. */
  function FromUnits(units: int): Decimal {
    Decimal(units, Scale)
  }

  /** `n / d` rounded to an integer with `RoundingMode.HALF_UP`: to the nearest
      integer, ties away from zero. */
  function RoundHalfUp(n: int, d: nat): (r: int)
    requires d >= 1
    ensures n >= 0 ==> r >= 0 && 2 * r * d - d <= 2 * n < 2 * r * d + d
    ensures n < 0 ==> r <= 0 && 2 * r * d - d < 2 * n <= 2 * r * d + d
  {
    if n >= 0 then RoundNonNegative(n, d) else var q: int := RoundNonNegative(-n, d); -q
  }

  function RoundNonNegative(n: nat, d: nat): (r: nat)
    requires d >= 1
    ensures 2 * r * d - d <= 2 * n < 2 * r * d + d
  {
    var q := (2 * n + d) / (2 * d);
    assert 2 * n + d == q * (2 * d) + (2 * n + d) % (2 * d);
    assert 2 * q * d == q * (2 * d);
    q
  }

  /** `setScale(4, HALF_UP)`: the value in units of 10^-4. */
  function SetScale4(x: Decimal): (r: int)
    ensures x.unscaled >= 0 ==> r >= 0
    ensures x.unscaled >= 0 ==>
              2 * r * Pow10(x.scale) - Pow10(x.scale) <= 2 * x.unscaled * UnitsPerWhole
              < 2 * r * Pow10(x.scale) + Pow10(x.scale)
    ensures x.unscaled < 0 ==> r <= 0
    ensures x.unscaled < 0 ==>
              2 * r * Pow10(x.scale) - Pow10(x.scale) < 2 * x.unscaled * UnitsPerWhole
              <= 2 * r * Pow10(x.scale) + Pow10(x.scale)
  {
    if x.scale <= Scale then
      Pow10Add(Scale - x.scale, x.scale);
      x.unscaled * Pow10(Scale - x.scale)
    else
      Pow10Add(x.scale - Scale, Scale);
      var d := Pow10(x.scale - Scale);
      var r := RoundHalfUp(x.unscaled, d);
      assert Pow10(x.scale) == d * UnitsPerWhole;
      if x.unscaled >= 0 then ScaleInequalities(r, d, x.unscaled); r
      else ScaleInequalitiesNegative(r, d, x.unscaled); r
  }

  lemma ScaleInequalities(r: int, d: nat, n: int)
    requires d >= 1
    requires 2 * r * d - d <= 2 * n < 2 * r * d + d
    ensures 2 * r * (d * UnitsPerWhole) - d * UnitsPerWhole <= 2 * n * UnitsPerWhole
    ensures 2 * n * UnitsPerWhole < 2 * r * (d * UnitsPerWhole) + d * UnitsPerWhole
  {
    var lhs := 2 * r * d - d;
    var rhs := 2 * r * d + d;
    assert lhs * UnitsPerWhole <= 2 * n * UnitsPerWhole;
    assert 2 * n * UnitsPerWhole < rhs * UnitsPerWhole;
  }

  /** The bounds of a negative `HALF_UP` quotient, carried to units of 10^-4. */
  lemma ScaleInequalitiesNegative(r: int, d: nat, n: int)
    requires d >= 1
    requires 2 * r * d - d < 2 * n <= 2 * r * d + d
    ensures 2 * r * (d * UnitsPerWhole) - d * UnitsPerWhole < 2 * n * UnitsPerWhole
    ensures 2 * n * UnitsPerWhole <= 2 * r * (d * UnitsPerWhole) + d * UnitsPerWhole
  {
    var lhs := 2 * r * d - d;
    var rhs := 2 * r * d + d;
    assert lhs * UnitsPerWhole < 2 * n * UnitsPerWhole;
    assert 2 * n * UnitsPerWhole <= rhs * UnitsPerWhole;
  }

  /** A value already at scale 4 is kept exactly. */
  lemma SetScale4OfUnits(units: int)
    ensures SetScale4(FromUnits(units)) == units
  {
  }

  /** Exact comparison of two `BigDecimal` values (`compareTo`), by rescaling. */
  function Compare(a: Decimal, b: Decimal): int {
    var s := if a.scale <= b.scale then b.scale else a.scale;
    var x := a.unscaled * Pow10(s - a.scale);
    var y := b.unscaled * Pow10(s - b.scale);
    if x < y then -1 else if x == y then 0 else 1
  }

  /** Exact `BigDecimal.add`: the result has the larger of the two scales. */
  function DecimalAdd(a: Decimal, b: Decimal): (r: Decimal)
    ensures r.scale == if a.scale <= b.scale then b.scale else a.scale
  {
    var s := if a.scale <= b.scale then b.scale else a.scale;
    Decimal(a.unscaled * Pow10(s - a.scale) + b.unscaled * Pow10(s - b.scale), s)
  }

  /** `BigDecimal.subtract`, exact. */
  function DecimalSub(a: Decimal, b: Decimal): (r: Decimal) {
    DecimalAdd(a, Decimal(-b.unscaled, b.scale))
  }

  /** With at most four decimals `setScale(4)` only appends zeros. */
  lemma SetScale4Small(x: Decimal)
    requires x.scale <= Scale
    ensures SetScale4(x) == x.unscaled * Pow10(Scale - x.scale)
  {
  }

  /** `x * 10^(s - scale) * 10^(4 - s)` is `x * 10^(4 - scale)`. */
  lemma Rescale(u: int, scale: nat, s: nat)
    requires scale <= s <= Scale
    ensures u * Pow10(s - scale) * Pow10(Scale - s) == u * Pow10(Scale - scale)
  {
    Pow10Add(s - scale, Scale - s);
    MulAssoc(u, Pow10(s - scale), Pow10(Scale - s));
  }

  lemma MulAssoc(a: int, b: int, c: int)
    ensures a * b * c == a * (b * c)
  {
  }

  /** With at most four decimals `setScale(4)` is exact, so it carries sums over. */
  lemma SetScale4Add(a: Decimal, b: Decimal)
    requires a.scale <= Scale && b.scale <= Scale
    ensures SetScale4(DecimalAdd(a, b)) == SetScale4(a) + SetScale4(b)
  {
    var s := if a.scale <= b.scale then b.scale else a.scale;
    var x, y, q := a.unscaled * Pow10(s - a.scale), b.unscaled * Pow10(s - b.scale), Pow10(Scale - s);
    assert SetScale4(DecimalAdd(a, b)) == (x + y) * q by {
      assert DecimalAdd(a, b) == Decimal(x + y, s);
      SetScale4Small(DecimalAdd(a, b));
    }
    assert (x + y) * q == x * q + y * q by { Distribute(x, y, q); }
    assert x * q == SetScale4(a) by {
      SetScale4Small(a);
      Rescale(a.unscaled, a.scale, s);
    }
    assert y * q == SetScale4(b) by {
      SetScale4Small(b);
      Rescale(b.unscaled, b.scale, s);
    }
  }

  lemma Distribute(x: int, y: int, q: int)
    ensures (x + y) * q == x * q + y * q
  {
  }

  /** ... and comparisons: two values of at most four decimals are equal exactly
      when their unit counts are. */
  lemma CompareExact(a: Decimal, b: Decimal)
    requires a.scale <= Scale && b.scale <= Scale
    ensures Compare(a, b) == 0 <==> SetScale4(a) == SetScale4(b)
  {
    var s := if a.scale <= b.scale then b.scale else a.scale;
    var x, y, q := a.unscaled * Pow10(s - a.scale), b.unscaled * Pow10(s - b.scale), Pow10(Scale - s);
    SetScale4Small(a);
    SetScale4Small(b);
    Rescale(a.unscaled, a.scale, s);
    Rescale(b.unscaled, b.scale, s);
    assert Compare(a, b) == 0 <==> x == y;
    MulCancel(x, y, q);
  }

  lemma MulCancel(x: int, y: int, q: int)
    requires q >= 1
    ensures x * q == y * q <==> x == y
  {
    if x * q == y * q {
      assert (x - y) * q == 0;
    }
  }

  /** A non-negative value not above `b` units is still not above it once
      rounded HALF_UP to four decimals. */
  lemma RoundedNotAbove(b: int, x: Decimal)
    requires x.unscaled >= 0 && Compare(FromUnits(b), x) >= 0
    ensures SetScale4(x) <= b
  {
    if x.scale > Scale {
      var r := SetScale4(x);
      var d := Pow10(x.scale - Scale);
      Pow10Add(x.scale - Scale, Scale);
      assert b * d >= x.unscaled;
      assert 2 * r * (d * UnitsPerWhole) - d * UnitsPerWhole <= 2 * x.unscaled * UnitsPerWhole;
      RoundedBelow(r, b, d, x.unscaled);
    } else {
      SetScale4Small(x);
    }
  }

  lemma RoundedBelow(r: int, b: int, d: nat, n: int)
    requires d >= 1 && b * d >= n
    requires 2 * r * (d * UnitsPerWhole) - d * UnitsPerWhole <= 2 * n * UnitsPerWhole
    ensures r <= b
  {
    var k := 2 * r * d - d;
    assert k * UnitsPerWhole <= (2 * n) * UnitsPerWhole;
    MulLeCancel(k, 2 * n, UnitsPerWhole);
    assert (2 * r - 1 - 2 * b) * d <= 0;
    if r > b {
      assert 2 * r - 1 - 2 * b >= 1;
      MulLeCancel(1, 2 * r - 1 - 2 * b, d);
    }
  }

  lemma MulLeCancel(x: int, y: int, q: int)
    requires q >= 1
    ensures x * q <= y * q <==> x <= y
  {
    var t := y - x;
    MulDistributes(x, t, q);
    MulSign(t, q);
  }

  lemma MulDistributes(a: int, b: int, q: int)
    ensures (a + b) * q == a * q + b * q
  {
  }

  lemma MulSign(t: int, q: int)
    requires q >= 1
    ensures t >= 0 <==> t * q >= 0
  {
  }

  /** The ISO 4217 code of a `Currency`: validated and upper-cased at construction. */
  datatype Currency = Currency(code: string)

  /** `Currency.of(code)`: null is refused by Lombok's `@NonNull`, a length other
      than 3 is refused, the code is upper-cased and must then be known to the JDK,
      whose table of codes is the parameter `iso`. */
  function CurrencyOf(iso: set<string>, code: Option<string>): (r: Result<Currency, Error>)
    ensures code.None? ==> r == Failure(NullPointer)
    ensures code.Some? && |code.value| != 3 ==> r == Failure(IllegalArgument(BadCurrencyLength))
    ensures r.Success? ==> code.Some? && |r.value.code| == 3 && r.value.code in iso
    ensures r.Success? ==> r.value.code == Text.ToUpper(code.value)
    ensures code.Some? && |code.value| == 3 ==> (r.Success? <==> Text.ToUpper(code.value) in iso)
    ensures code.Some? && |code.value| == 3 && Text.ToUpper(code.value) !in iso ==>
              r == Failure(IllegalArgument(UnknownCurrency))
  {
    match code
    case None => Failure(NullPointer)
    case Some(c) =>
      if |c| != 3 then Failure(IllegalArgument(BadCurrencyLength))
      else
        var upper := Text.ToUpper(c);
        if upper in iso then Success(Currency(upper)) else Failure(IllegalArgument(UnknownCurrency))
  }

  /** Codes that agree up to ASCII case denote equal currencies ("inr" and "INR"). */
  lemma CurrencyOfIgnoresCase(iso: set<string>, a: string, b: string)
    requires Text.ToUpper(a) == Text.ToUpper(b)
    ensures CurrencyOf(iso, Some(a)) == CurrencyOf(iso, Some(b))
  {
    assert |a| == |Text.ToUpper(a)| == |b|;
  }

  /** A validated currency's own code is accepted again and gives back the same
      currency: validation is a normalisation. */
  lemma CurrencyOfNormalises(iso: set<string>, code: string)
    requires CurrencyOf(iso, Some(code)).Success?
    ensures CurrencyOf(iso, Some(CurrencyOf(iso, Some(code)).value.code)) == CurrencyOf(iso, Some(code))
  {
    Text.ToUpperIdempotent(code);
  }

  /** A monetary amount: never negative, always at scale 4. */
  datatype Money = Money(amount: nat, currency: Currency)

  /** `new Money(amount, currency)`: a negative amount is refused, otherwise the
      amount is rounded HALF_UP to four decimals. */
  function NewMoney(amount: Decimal, currency: Currency): (r: Result<Money, Error>)
    ensures amount.unscaled < 0 <==> r == Failure(IllegalArgument(NegativeAmount))
    ensures r.Success? ==> r.value.currency == currency
    ensures r.Success? ==>
              2 * r.value.amount * Pow10(amount.scale) - Pow10(amount.scale)
              <= 2 * amount.unscaled * UnitsPerWhole
              < 2 * r.value.amount * Pow10(amount.scale) + Pow10(amount.scale)
  {
    if amount.unscaled < 0 then Failure(IllegalArgument(NegativeAmount))
    else Success(Money(SetScale4(amount), currency))
  }

  /** `Money.of(amount, code)`: the currency is built first (Java evaluates the
      argument `Currency.of(code)` before the constructor runs). */
  function MoneyOf(iso: set<string>, amount: Decimal, code: string): (r: Result<Money, Error>)
    ensures CurrencyOf(iso, Some(code)).Failure? ==> r == CurrencyOf(iso, Some(code)).PropagateFailure()
    ensures r.Success? ==> CurrencyOf(iso, Some(code)) == Success(r.value.currency)
    ensures CurrencyOf(iso, Some(code)).Success? ==> r == NewMoney(amount, CurrencyOf(iso, Some(code)).value)
  {
    var currency :- CurrencyOf(iso, Some(code));
    NewMoney(amount, currency)
  }

  /** Scale-4 amounts are kept exactly. */
  lemma NewMoneyOfUnits(units: nat, c: Currency)
    ensures NewMoney(FromUnits(units), c) == Success(Money(units, c))
  {
  }

  function RequireSameCurrency(a: Money, b: Money): Outcome<Error> {
    if a.currency == b.currency then Pass else Fail(IllegalArgument(CurrencyMismatch))
  }

  /** `Money.add`. */
  function Add(a: Money, b: Money): (r: Result<Money, Error>)
    ensures a.currency != b.currency <==> r == Failure(IllegalArgument(CurrencyMismatch))
    ensures r.Success? ==> r.value == Money(a.amount + b.amount, a.currency)
  {
    if RequireSameCurrency(a, b).Fail? then Failure(RequireSameCurrency(a, b).error) else
    NewMoney(FromUnits(a.amount + b.amount), a.currency)
  }

  /** `Money.subtract`: fails rather than go below zero. */
  function Subtract(a: Money, b: Money): (r: Result<Money, Error>)
    ensures a.currency != b.currency ==> r == Failure(IllegalArgument(CurrencyMismatch))
    ensures a.currency == b.currency && a.amount < b.amount ==> r == Failure(IllegalArgument(NegativeResult))
    ensures r.Success? <==> a.currency == b.currency && b.amount <= a.amount
    ensures r.Success? ==> r.value.currency == a.currency && r.value.amount + b.amount == a.amount
  {
    if RequireSameCurrency(a, b).Fail? then Failure(RequireSameCurrency(a, b).error) else
    var result := a.amount - b.amount;
    if result < 0 then Failure(IllegalArgument(NegativeResult))
    else NewMoney(FromUnits(result), a.currency)
  }

  /** `Money.isZero`. */
  predicate IsZero(m: Money) {
    m.amount == 0
  }

  /** Subtracting what was added gives the original amount back. */
  lemma AddThenSubtract(a: Money, b: Money)
    requires a.currency == b.currency
    ensures Add(a, b).Success?
    ensures Subtract(Add(a, b).value, b) == Success(a)
  {
  }

  /** `isZero` holds exactly for the additive identity of its currency. */
  lemma IsZeroIsIdentity(m: Money, x: Money)
    requires m.currency == x.currency
    ensures IsZero(m) <==> Add(m, x) == Success(x)
  {
  }
}

=== FILE: outbox.dfy ===
/** The transactional outbox: domain events are appended in the same transaction
    as the ledger change, and `OutboxKafkaRelay` later sends the unpublished ones.
    The outbox is kept in creation order, which is the relay's `createdAt` order. */
module Outbox {
  import opened Base

  /** The payload fields that `OutboxDomainEventPublisher` writes per event kind. */
  datatype DomainEvent =
    | WalletCreated(walletId: Uuid, merchantId: Uuid, currencyCode: string)
    | WalletCredited(walletId: Uuid, amount: nat, currencyCode: string, referenceId: string)
    | WalletDebited(walletId: Uuid, amount: nat, currencyCode: string, referenceId: string)

  datatype OutboxRecord = OutboxRecord(id: Uuid, event: DomainEvent, createdAt: Instant, published: bool)

  /** `BATCH_SIZE`. */
  const BatchSize: nat := 100

  /** Positions of the unpublished records, oldest first. */
  function Unpublished(outbox: seq<OutboxRecord>): (r: seq<nat>)
    ensures forall k :: 0 <= k < |r| ==> r[k] < |outbox| && !outbox[r[k]].published
    ensures forall k, l :: 0 <= k < l < |r| ==> r[k] < r[l]
    ensures forall i :: 0 <= i < |outbox| && !outbox[i].published ==> i in r
  {
    if |outbox| == 0 then []
    else
      var n := |outbox| - 1;
      Unpublished(outbox[..n]) + (if outbox[n].published then [] else [n])
  }

  /** `findByPublishedFalseOrderByCreatedAtAsc(PageRequest.of(0, BATCH_SIZE))`. */
  function Batch(outbox: seq<OutboxRecord>): (r: seq<nat>)
    ensures |r| <= BatchSize
    ensures forall k :: 0 <= k < |r| ==> r[k] < |outbox| && !outbox[r[k]].published
    ensures forall k, l :: 0 <= k < l < |r| ==> r[k] < r[l]
    // oldest first: an unpublished record is left out only of a full batch, and
    // only when it is newer than every record taken
    ensures forall i :: 0 <= i < |outbox| && !outbox[i].published && i !in r ==>
              |r| == BatchSize && forall k :: 0 <= k < |r| ==> r[k] < i
  {
    var u := Unpublished(outbox);
    if |u| <= BatchSize then u
    else
      assert forall i :: 0 <= i < |outbox| && !outbox[i].published && i !in u[..BatchSize] ==>
               forall k :: 0 <= k < BatchSize ==> u[k] < i by {
        forall i | 0 <= i < |outbox| && !outbox[i].published && i !in u[..BatchSize]
          ensures forall k :: 0 <= k < BatchSize ==> u[k] < i
        {
          var j :| 0 <= j < |u| && u[j] == i;
          assert j >= BatchSize;
        }
      }
      u[..BatchSize]
  }

  /** `relay`: hands the batch in order to `send`, marks each handed-over record
      published, and stops at the first failure. `send` is `kafkaTemplate.send`,
      which is asynchronous: `true` means the call returned without throwing, not
      that the broker acknowledged the record. `sent` is how many records of the
      batch were marked published. */
  method Relay(outbox: seq<OutboxRecord>, send: OutboxRecord -> bool) returns (after: seq<OutboxRecord>, sent: nat)
    ensures var batch := Batch(outbox);
            && sent <= |batch|
            && (forall k :: 0 <= k < sent ==> send(outbox[batch[k]]))
            && (sent < |batch| ==> !send(outbox[batch[sent]]))
    ensures |after| == |outbox|
    ensures forall k :: 0 <= k < sent ==> after[Batch(outbox)[k]] == outbox[Batch(outbox)[k]].(published := true)
    ensures forall i :: 0 <= i < |outbox| && (forall k :: 0 <= k < sent ==> Batch(outbox)[k] != i) ==>
              after[i] == outbox[i]
  {
    after, sent := SendInOrder(outbox, Batch(outbox), send);
  }

  /** The loop of `relay` over any batch of distinct positions, in increasing order. */
  method SendInOrder(outbox: seq<OutboxRecord>, batch: seq<nat>, send: OutboxRecord -> bool)
    returns (after: seq<OutboxRecord>, sent: nat)
    requires forall k :: 0 <= k < |batch| ==> batch[k] < |outbox|
    requires forall k, l :: 0 <= k < l < |batch| ==> batch[k] < batch[l]
    ensures sent <= |batch|
    ensures forall k :: 0 <= k < sent ==> send(outbox[batch[k]])
    ensures sent < |batch| ==> !send(outbox[batch[sent]])
    ensures |after| == |outbox|
    ensures forall k :: 0 <= k < sent ==> after[batch[k]] == outbox[batch[k]].(published := true)
    ensures forall i :: 0 <= i < |outbox| && (forall k :: 0 <= k < sent ==> batch[k] != i) ==> after[i] == outbox[i]
  {
    after := outbox;
    sent := 0;
    var stopped := false;
    while sent < |batch| && !stopped
      invariant sent <= |batch|
      invariant |after| == |outbox|
      invariant forall k :: 0 <= k < sent ==> send(outbox[batch[k]])
      invariant stopped ==> sent < |batch| && !send(outbox[batch[sent]])
      invariant forall k :: 0 <= k < sent ==> after[batch[k]] == outbox[batch[k]].(published := true)
      invariant forall i :: 0 <= i < |outbox| && (forall k :: 0 <= k < sent ==> batch[k] != i) ==>
                  after[i] == outbox[i]
      decreases |batch| - sent, if stopped then 0 else 1
    {
      var j := batch[sent];
      var record := outbox[j];
      if send(record) {
        assert forall k :: 0 <= k < sent ==> batch[k] < j;
        after := after[j := record.(published := true)];
        sent := sent + 1;
      } else {
        stopped := true;
      }
    }
  }

  /** Every record a run published is left out of the next run's batch. */
  lemma PublishedNotFetchedAgain(outbox: seq<OutboxRecord>, after: seq<OutboxRecord>, sent: nat)
    requires sent <= |Batch(outbox)| && |after| == |outbox|
    requires forall k :: 0 <= k < sent ==> after[Batch(outbox)[k]] == outbox[Batch(outbox)[k]].(published := true)
    ensures forall k, m :: 0 <= k < sent && 0 <= m < |Batch(after)| ==> Batch(after)[m] != Batch(outbox)[k]
  {
  }
}

=== FILE: payout.dfy ===
/** The `Payout` aggregate of the orchestrator and the `payouts` table it is
    stored in. */
module Payouts {
  import opened Wrappers
  import opened Base
  import opened Monetary

  /** `PayoutStatus`: CREATED → PROCESSING → SETTLED | FAILED. */
  datatype PayoutStatus = CREATED | PROCESSING | SETTLED | FAILED

  /** A payout. Only `ledgerEntryId` and `idempotencyKey` are nullable columns;
      `Payout.builder()...build()` is this constructor, every field as given. */
  datatype Payout = Payout(
    id: Uuid,
    merchantId: Uuid,
    vendorId: Uuid,
    vendorWalletId: Uuid,
    amount: Decimal,
    currencyCode: string,
    status: PayoutStatus,
    ledgerEntryId: Option<Uuid>,
    idempotencyKey: Option<string>,
    createdAt: Instant,
    updatedAt: Instant)

  /** The row as read back: the `amount` column has scale 4, so the stored
      amount is the given one rounded HALF_UP to four decimals. */
  function Stored(p: Payout): (r: Payout)
    ensures r.amount.scale == Scale && r.amount.unscaled == SetScale4(p.amount)
    ensures r.(amount := p.amount) == p
    ensures p.amount.scale <= Scale ==> Compare(r.amount, p.amount) == 0
  {
    if p.amount.scale <= Scale then
      SetScale4Small(p.amount);
      CompareExact(FromUnits(SetScale4(p.amount)), p.amount);
      SetScale4OfUnits(SetScale4(p.amount));
      p.(amount := FromUnits(SetScale4(p.amount)))
    else
      SetScale4OfUnits(SetScale4(p.amount));
      p.(amount := FromUnits(SetScale4(p.amount)))
  }

  /** Reading back a stored row changes nothing. */
  lemma StoredIdempotent(p: Payout)
    ensures Stored(Stored(p)) == Stored(p)
  {
    SetScale4OfUnits(SetScale4(p.amount));
  }

  /** The decimal digits of an id: stands in for `UUID.toString()`, which the
      orchestrator uses as the reserve's reference id. */
  function IdText(id: Uuid): (r: string)
    ensures |r| >= 1
    ensures forall i :: 0 <= i < |r| ==> '0' <= r[i] <= '9'
  {
    (if id < 10 then "" else IdText(id / 10)) + [Digit(id % 10)]
  }

  function Digit(d: nat): (c: char)
    requires d < 10
    ensures '0' <= c <= '9' && c as int - '0' as int == d
  {
    ('0' as int + d) as char
  }

  /** Like `UUID.toString()`, the text determines the id. */
  lemma {:induction false} IdTextInjective(a: Uuid, b: Uuid)
    requires IdText(a) == IdText(b)
    ensures a == b
  {
    var ra, rb := IdText(a), IdText(b);
    assert ra[|ra| - 1] == Digit(a % 10);
    assert rb[|rb| - 1] == Digit(b % 10);
    var pa := if a < 10 then "" else IdText(a / 10);
    var pb := if b < 10 then "" else IdText(b / 10);
    assert ra[..|ra| - 1] == pa;
    assert rb[..|rb| - 1] == pb;
    if a >= 10 && b >= 10 {
      IdTextInjective(a / 10, b / 10);
    }
  }

  /** The `payouts` table: rows in insertion order, and the next fresh id. */
  datatype PayoutStore = PayoutStore(payouts: seq<Payout>, nextId: nat)

  /** `findById`. */
  function FindById(ps: seq<Payout>, id: Uuid): (r: Option<Payout>)
    ensures r.Some? ==> r.value in ps && r.value.id == id
    ensures r.None? ==> forall k :: 0 <= k < |ps| ==> ps[k].id != id
  {
    if |ps| == 0 then None
    else if ps[0].id == id then Some(ps[0])
    else FindById(ps[1..], id)
  }

  /** `findByIdempotencyKey`. */
  function FindByKey(ps: seq<Payout>, key: string): (r: Option<Payout>)
    ensures r.Some? ==> r.value in ps && r.value.idempotencyKey == Some(key)
    ensures r.None? ==> forall k :: 0 <= k < |ps| ==> ps[k].idempotencyKey != Some(key)
  {
    if |ps| == 0 then None
    else if ps[0].idempotencyKey == Some(key) then Some(ps[0])
    else FindByKey(ps[1..], key)
  }

  /** The table's constraints: the primary key, the unique `idempotency_key`
      (NULLs never clash), ids drawn from the counter, and amounts at scale 4. */
  predicate Valid(st: PayoutStore) {
    && (forall i, j :: 0 <= i < j < |st.payouts| ==> st.payouts[i].id != st.payouts[j].id)
    && (forall i, j :: 0 <= i < j < |st.payouts| && st.payouts[i].idempotencyKey.Some? ==>
          st.payouts[i].idempotencyKey != st.payouts[j].idempotencyKey)
    && (forall i :: 0 <= i < |st.payouts| ==> st.payouts[i].id < st.nextId)
    && (forall i :: 0 <= i < |st.payouts| ==> st.payouts[i].amount.scale == Scale)
  }

  /** `save` of a new payout (the id and key are not in the table yet). */
  function Insert(st: PayoutStore, p: Payout): (r: PayoutStore)
    requires p.id == st.nextId
    requires p.idempotencyKey.Some? ==> FindByKey(st.payouts, p.idempotencyKey.value).None?
    ensures r.payouts == st.payouts + [Stored(p)] && r.nextId == st.nextId + 1
    ensures Valid(st) ==> FindById(r.payouts, p.id) == Some(Stored(p))
    ensures p.idempotencyKey.Some? ==> FindByKey(r.payouts, p.idempotencyKey.value) == Some(Stored(p))
    ensures Valid(st) ==> Valid(r)
  {
    var r := PayoutStore(st.payouts + [Stored(p)], st.nextId + 1);
    assert p.idempotencyKey.Some? ==> FindByKey(r.payouts, p.idempotencyKey.value) == Some(Stored(p)) by {
      if p.idempotencyKey.Some? { FindByKeyAppend(st.payouts, Stored(p), p.idempotencyKey.value); }
    }
    assert Valid(st) ==> FindById(r.payouts, p.id) == Some(Stored(p)) by {
      if Valid(st) { FindByIdAppend(st.payouts, Stored(p), p.id); }
    }
    r
  }

  /** `save` of a payout loaded from the table, under its id. */
  function Update(st: PayoutStore, p: Payout): (r: PayoutStore)
    ensures FindById(st.payouts, p.id).None? ==> r == st
    ensures FindById(st.payouts, p.id).Some? ==>
              && r.nextId == st.nextId && |r.payouts| == |st.payouts|
              && forall k :: 0 <= k < |st.payouts| ==>
                   r.payouts[k] == if st.payouts[k].id == p.id then Stored(p) else st.payouts[k]
    ensures Valid(st) && FindById(st.payouts, p.id).Some? && FindById(st.payouts, p.id).value.idempotencyKey == p.idempotencyKey ==>
              Valid(r)
  {
    var r := PayoutStore(Replace(st.payouts, p), st.nextId);
    assert Valid(st) && FindById(st.payouts, p.id).Some? && FindById(st.payouts, p.id).value.idempotencyKey == p.idempotencyKey ==>
           Valid(r) by {
      if Valid(st) && FindById(st.payouts, p.id).Some? && FindById(st.payouts, p.id).value.idempotencyKey == p.idempotencyKey {
        ReplaceKeepsValid(st, p);
      }
    }
    r
  }

  /** Rewriting the one row with `p`'s id, key unchanged, keeps the constraints. */
  lemma ReplaceKeepsValid(st: PayoutStore, p: Payout)
    requires Valid(st) && FindById(st.payouts, p.id).Some?
    requires FindById(st.payouts, p.id).value.idempotencyKey == p.idempotencyKey
    ensures Valid(PayoutStore(Replace(st.payouts, p), st.nextId))
  {
    var q := FindById(st.payouts, p.id).value;
    var j :| 0 <= j < |st.payouts| && st.payouts[j] == q;
    ReplaceOne(st.payouts, p, j);
    SetRowKeepsValid(st, j, Stored(p));
  }

  /** With distinct ids, `Replace` rewrites exactly the row at `p`'s id. */
  lemma ReplaceOne(ps: seq<Payout>, p: Payout, j: nat)
    requires j < |ps| && ps[j].id == p.id
    requires forall a, b :: 0 <= a < b < |ps| ==> ps[a].id != ps[b].id
    ensures Replace(ps, p) == ps[j := Stored(p)]
  {
    forall k | 0 <= k < |ps|
      ensures Replace(ps, p)[k] == ps[j := Stored(p)][k]
    {
      if k < j {
        assert ps[k].id != ps[j].id;
      } else if k > j {
        assert ps[j].id != ps[k].id;
      }
    }
  }

  lemma SetRowKeepsValid(st: PayoutStore, j: nat, x: Payout)
    requires Valid(st) && j < |st.payouts|
    requires x.id == st.payouts[j].id && x.idempotencyKey == st.payouts[j].idempotencyKey && x.amount.scale == Scale
    ensures Valid(PayoutStore(st.payouts[j := x], st.nextId))
  {
  }

  function Replace(ps: seq<Payout>, p: Payout): (r: seq<Payout>)
    ensures |r| == |ps|
    ensures forall k :: 0 <= k < |ps| ==> r[k] == if ps[k].id == p.id then Stored(p) else ps[k]
    ensures FindById(ps, p.id).None? ==> r == ps
  {
    if |ps| == 0 then []
    else [if ps[0].id == p.id then Stored(p) else ps[0]] + Replace(ps[1..], p)
  }

  lemma {:induction false} FindByKeyAppend(ps: seq<Payout>, p: Payout, key: string)
    requires FindByKey(ps, key).None? && p.idempotencyKey == Some(key)
    ensures FindByKey(ps + [p], key) == Some(p)
  {
    if |ps| > 0 {
      assert (ps + [p])[1..] == ps[1..] + [p];
      FindByKeyAppend(ps[1..], p, key);
    }
  }

  lemma {:induction false} FindByIdAppend(ps: seq<Payout>, p: Payout, id: Uuid)
    requires FindById(ps, id).None? && p.id == id
    ensures FindById(ps + [p], id) == Some(p)
  {
    if |ps| > 0 {
      assert (ps + [p])[1..] == ps[1..] + [p];
      FindByIdAppend(ps[1..], p, id);
    }
  }

  /** In a valid table the row found by id is the one at its index. */
  lemma {:induction false} FindByIdAt(ps: seq<Payout>, k: nat)
    requires k < |ps|
    requires forall i, j :: 0 <= i < j < |ps| ==> ps[i].id != ps[j].id
    ensures FindById(ps, ps[k].id) == Some(ps[k])
  {
    if k > 0 {
      assert ps[0].id != ps[k].id;
      FindByIdAt(ps[1..], k - 1);
    }
  }

  /** In a valid table the row found by key is the one at its index. */
  lemma {:induction false} FindByKeyAt(ps: seq<Payout>, k: nat)
    requires k < |ps| && ps[k].idempotencyKey.Some?
    requires forall i, j :: 0 <= i < j < |ps| && ps[i].idempotencyKey.Some? ==>
               ps[i].idempotencyKey != ps[j].idempotencyKey
    ensures FindByKey(ps, ps[k].idempotencyKey.value) == Some(ps[k])
  {
    if k > 0 {
      if ps[0].idempotencyKey.Some? {
        assert ps[0].idempotencyKey != ps[k].idempotencyKey;
      }
      FindByKeyAt(ps[1..], k - 1);
    }
  }
}

=== FILE: payout_orchestration.dfy ===
/** `PayoutOrchestrationService`: create → reserve on the ledger → (bank, outside
    this service) → confirm or reverse. Each operation is `@Transactional`: a
    failure leaves the payout table as it was, but a ledger call made before the
    failure has happened, and stays in the recorded calls. */
module PayoutOrchestration {
  import opened Wrappers
  import opened Base
  import opened Monetary
  import opened Payouts
  import opened PayoutStateMachine
  import opened WalletPort

  /** The reserve a new payout `id` asks the ledger for: on the vendor wallet, for
      the requested amount, referenced by the payout id, under the wallet
      service's idempotency key `<key>-reserve`. */
  function ReserveRequest(id: Uuid, vendorWalletId: Uuid, amount: Decimal, currencyCode: string,
                          idempotencyKey: string, token: Option<string>): PortCall {
    ReserveCall(vendorWalletId, amount, currencyCode, IdText(id), "Vendor payout " + IdText(id),
                idempotencyKey + "-reserve", token)
  }

  /** Every payout keeps its row and place, and its status stays or moves along
      an edge of the lifecycle graph. */
  predicate Progresses(a: PayoutStore, b: PayoutStore) {
    && |a.payouts| <= |b.payouts|
    && forall k :: 0 <= k < |a.payouts| ==>
         && b.payouts[k].id == a.payouts[k].id
         && (b.payouts[k].status == a.payouts[k].status || Edge(a.payouts[k].status, b.payouts[k].status))
  }

  /** `requestPayout`. A known key answers with the stored payout and calls
      nothing. Otherwise a CREATED payout is made, moved to PROCESSING, and the
      vendor wallet is reserved; the reserve's reply (its ledger entry id, or the
      failure it raised) is `reserveReply`. A failed reserve rolls the payout
      back. The payout returned is the one in memory; the table keeps it with
      the amount at scale 4. */
  function RequestPayout(st: PayoutStore, merchantId: Uuid, vendorId: Uuid, vendorWalletId: Uuid, amount: Decimal,
                         currencyCode: string, idempotencyKey: string, token: Option<string>, now: Instant,
                         reserveReply: Result<Uuid, Error>)
    : (r: Attempt<(PayoutStore, Payout)>)
    ensures FindByKey(st.payouts, idempotencyKey).Some? ==>
              r == Attempt(Success((st, FindByKey(st.payouts, idempotencyKey).value)), [])
    ensures FindByKey(st.payouts, idempotencyKey).None? ==>
              && r.calls == [ReserveRequest(st.nextId, vendorWalletId, amount, currencyCode, idempotencyKey, token)]
              && (r.result.Success? <==> reserveReply.Success?)
              && (reserveReply.Failure? ==> r.result == Failure(reserveReply.error))
              && (reserveReply.Success? ==>
                    var p := r.result.value.1;
                    && p == Payout(st.nextId, merchantId, vendorId, vendorWalletId, amount, currencyCode, PROCESSING,
                                   Some(reserveReply.value), Some(idempotencyKey), now, now)
                    && r.result.value.0 == PayoutStore(st.payouts + [Stored(p)], st.nextId + 1))
    ensures r.result.Success? && Valid(st) ==>
              && Valid(r.result.value.0)
              && Progresses(st, r.result.value.0)
              && FindByKey(r.result.value.0.payouts, idempotencyKey) == Some(Stored(r.result.value.1))
              && FindById(r.result.value.0.payouts, r.result.value.1.id) == Some(Stored(r.result.value.1))
  {
    match FindByKey(st.payouts, idempotencyKey)
    case Some(existing) =>
      assert Valid(st) ==> Stored(existing) == existing && FindById(st.payouts, existing.id) == Some(existing) by {
        if Valid(st) { StoredAtScale(st, existing); }
      }
      Attempt(Success((st, existing)), [])
    case None =>
      var created := Payout(st.nextId, merchantId, vendorId, vendorWalletId, amount, currencyCode, CREATED,
                            None, Some(idempotencyKey), now, now);
      var processing := ToProcessing(created).value;
      var call := ReserveRequest(st.nextId, vendorWalletId, amount, currencyCode, idempotencyKey, token);
      match reserveReply
      case Failure(e) => Attempt(Failure(e), [call])
      case Success(entryId) =>
        var p := processing.(ledgerEntryId := Some(entryId), updatedAt := now);
        assert Valid(st) ==> FindById(st.payouts, p.id).None?;
        Attempt(Success((Insert(st, p), p)), [call])
  }

  /** A row of a valid table is at scale 4, so reading it back changes nothing,
      and looking it up by id finds it. */
  lemma StoredAtScale(st: PayoutStore, p: Payout)
    requires Valid(st) && p in st.payouts
    ensures Stored(p) == p
    ensures FindById(st.payouts, p.id) == Some(p)
  {
    var k :| 0 <= k < |st.payouts| && st.payouts[k] == p;
    SetScale4OfUnits(p.amount.unscaled);
    FindByIdAt(st.payouts, k);
  }

  /** Saving a loaded payout back under its id keeps the table valid and makes
      the saved row the one found by that id. */
  lemma UpdateFinds(st: PayoutStore, p: Payout)
    requires Valid(st) && FindById(st.payouts, p.id).Some?
    requires FindById(st.payouts, p.id).value.idempotencyKey == p.idempotencyKey
    ensures Valid(Update(st, p))
    ensures FindById(Update(st, p).payouts, p.id) == Some(Stored(p))
  {
    var q := FindById(st.payouts, p.id).value;
    var k :| 0 <= k < |st.payouts| && st.payouts[k] == q;
    var st' := Update(st, p);
    assert st'.payouts[k] == Stored(p);
    FindByIdAt(st'.payouts, k);
  }

  /** Saving a loaded payout after one move of the lifecycle keeps the table
      valid, progresses it, and makes the saved row the one found by its id. */
  lemma SaveMove(st: PayoutStore, p: Payout, saved: Payout)
    requires Valid(st) && FindById(st.payouts, p.id) == Some(p)
    requires saved == p.(status := saved.status, updatedAt := saved.updatedAt) && Edge(p.status, saved.status)
    ensures Valid(Update(st, saved)) && Progresses(st, Update(st, saved))
    ensures FindById(Update(st, saved).payouts, p.id) == Some(saved)
  {
    UpdateFinds(st, saved);
    StoredAtScale(st, p);
    assert Stored(saved) == saved by { SetScale4OfUnits(p.amount.unscaled); }
  }

  /** Confirm and reverse differ only in the status that makes them a no-op,
      the ledger call they make and the move they end with. */
  datatype Resolution = Settling | Failing {
    function Done(): PayoutStatus {
      if Settling? then SETTLED else FAILED
    }
    function Call(entryId: Uuid, idempotencyKey: string): PortCall {
      if Settling? then ConfirmCall(entryId, idempotencyKey) else ReverseCall(entryId, idempotencyKey)
    }
  }

  /** The shared body of `confirmPayout` and `reversePayout`. An unknown id is
      refused; a payout already in the final status is returned with no ledger
      call; one without a ledger entry is refused. Otherwise the ledger call is
      made first (its failure, if any, is `reply`), and only then is the move
      attempted, which can still refuse after the ledger has acted. */
  function Resolve(st: PayoutStore, how: Resolution, payoutId: Uuid, idempotencyKey: string, now: Instant,
                   reply: Outcome<Error>)
    : (r: Attempt<(PayoutStore, Payout)>)
    ensures FindById(st.payouts, payoutId).None? ==> r == Attempt(Failure(IllegalArgument(PayoutNotFound)), [])
    ensures FindById(st.payouts, payoutId).Some? ==>
              var p := FindById(st.payouts, payoutId).value;
              && (p.status == how.Done() ==> r == Attempt(Success((st, p)), []))
              && (p.status != how.Done() && p.ledgerEntryId.None? ==>
                    r == Attempt(Failure(IllegalState(NoLedgerEntry)), []))
              && (p.status != how.Done() && p.ledgerEntryId.Some? ==>
                    && r.calls == [how.Call(p.ledgerEntryId.value, idempotencyKey)]
                    && (r.result.Success? <==> reply.Pass? && p.status == PROCESSING)
                    && (reply.Fail? ==> r.result == Failure(reply.error))
                    && (reply.Pass? && p.status != PROCESSING ==>
                          r.result == Failure(IllegalState(IllegalPayoutTransition)))
                    && (r.result.Success? ==>
                          && r.result.value.1 == p.(status := how.Done(), updatedAt := now)
                          && r.result.value.0 == Update(st, r.result.value.1)))
    ensures r.result.Success? && Valid(st) ==>
              && Valid(r.result.value.0)
              && Progresses(st, r.result.value.0)
              && r.result.value.1.status == how.Done()
              && FindById(r.result.value.0.payouts, payoutId) == Some(r.result.value.1)
  {
    match FindById(st.payouts, payoutId)
    case None => Attempt(Failure(IllegalArgument(PayoutNotFound)), [])
    case Some(p) =>
      if p.status == how.Done() then
        assert Valid(st) ==> FindById(st.payouts, payoutId) == Some(p);
        Attempt(Success((st, p)), [])
      else
        match p.ledgerEntryId
        case None => Attempt(Failure(IllegalState(NoLedgerEntry)), [])
        case Some(entryId) =>
          var call := how.Call(entryId, idempotencyKey);
          match reply
          case Fail(e) => Attempt(Failure(e), [call])
          case Pass =>
            var moved := if how.Settling? then ToSettled(p) else ToFailed(p);
            match moved
            case Failure(e) => Attempt(Failure(e), [call])
            case Success(q) =>
              var saved := q.(updatedAt := now);
              assert Valid(st) ==> && Valid(Update(st, saved)) && Progresses(st, Update(st, saved))
                                   && FindById(Update(st, saved).payouts, payoutId) == Some(saved) by {
                if Valid(st) { SaveMove(st, p, saved); }
              }
              Attempt(Success((Update(st, saved), saved)), [call])
  }

  /** `confirmPayout`: after the bank paid out, confirm the reservation and
      settle the payout. The caller's token is passed on in the source but has
      no place in the port's `confirmLedgerEntry`, so it is ghost here. */
  function ConfirmPayout(st: PayoutStore, payoutId: Uuid, idempotencyKey: string, ghost token: Option<string>,
                         now: Instant, confirmReply: Outcome<Error>)
    : (r: Attempt<(PayoutStore, Payout)>)
    ensures r == Resolve(st, Settling, payoutId, idempotencyKey, now, confirmReply)
    ensures r.result.Success? ==> r.result.value.1.status == SETTLED
    ensures forall c :: c in r.calls ==> c.ConfirmCall?
  {
    Resolve(st, Settling, payoutId, idempotencyKey, now, confirmReply)
  }

  /** `reversePayout`: after the bank refused, reverse the reservation and fail
      the payout. The token is ghost for the same reason as in confirm. */
  function ReversePayout(st: PayoutStore, payoutId: Uuid, idempotencyKey: string, ghost token: Option<string>,
                         now: Instant, reverseReply: Outcome<Error>)
    : (r: Attempt<(PayoutStore, Payout)>)
    ensures r == Resolve(st, Failing, payoutId, idempotencyKey, now, reverseReply)
    ensures r.result.Success? ==> r.result.value.1.status == FAILED
    ensures forall c :: c in r.calls ==> c.ReverseCall?
  {
    Resolve(st, Failing, payoutId, idempotencyKey, now, reverseReply)
  }

  // ---- Properties of the saga

  /** Requesting again with a key that succeeded before answers with the stored
      payout, whatever the other arguments and the reserve's reply, and makes
      no ledger call: the vendor is reserved at most once per key. */
  lemma RequestReplay(st: PayoutStore, merchantId: Uuid, vendorId: Uuid, vendorWalletId: Uuid, amount: Decimal,
                      currencyCode: string, idempotencyKey: string, token: Option<string>, now: Instant,
                      reserveReply: Result<Uuid, Error>,
                      merchantId2: Uuid, vendorId2: Uuid, vendorWalletId2: Uuid, amount2: Decimal,
                      currencyCode2: string, token2: Option<string>, now2: Instant, reserveReply2: Result<Uuid, Error>)
    requires Valid(st)
    requires RequestPayout(st, merchantId, vendorId, vendorWalletId, amount, currencyCode, idempotencyKey, token, now,
                           reserveReply).result.Success?
    ensures var (st', p) := RequestPayout(st, merchantId, vendorId, vendorWalletId, amount, currencyCode, idempotencyKey,
                                          token, now, reserveReply).result.value;
            RequestPayout(st', merchantId2, vendorId2, vendorWalletId2, amount2, currencyCode2, idempotencyKey, token2,
                          now2, reserveReply2) == Attempt(Success((st', Stored(p))), [])
  {
  }

  /** A failed reserve persists nothing, so a retry with the same key sends the
      very same reserve again, under the same wallet idempotency key; the
      wallet service's cache is what keeps a reserve that did land remotely
      from being made twice. */
  lemma RetryAfterFailedReserve(st: PayoutStore, merchantId: Uuid, vendorId: Uuid, vendorWalletId: Uuid,
                                amount: Decimal, currencyCode: string, idempotencyKey: string, token: Option<string>,
                                now: Instant, reserveReply: Result<Uuid, Error>, now2: Instant,
                                reserveReply2: Result<Uuid, Error>)
    requires reserveReply.Failure?
    requires FindByKey(st.payouts, idempotencyKey).None?
    ensures var r := RequestPayout(st, merchantId, vendorId, vendorWalletId, amount, currencyCode, idempotencyKey,
                                   token, now, reserveReply);
            var r2 := RequestPayout(st, merchantId, vendorId, vendorWalletId, amount, currencyCode, idempotencyKey,
                                    token, now2, reserveReply2);
            && r.result.Failure?
            && r2.calls == r.calls
            && r.calls[0].idempotencyKey == idempotencyKey + "-reserve"
  {
  }

  /** Distinct payouts reserve under distinct reference ids, so their
      reservations never share a ledger key. */
  lemma ReservationsDistinct(a: Uuid, b: Uuid, walletA: Uuid, walletB: Uuid, amountA: Decimal, amountB: Decimal,
                             codeA: string, codeB: string, keyA: string, keyB: string,
                             tokenA: Option<string>, tokenB: Option<string>)
    requires a != b
    ensures ReserveRequest(a, walletA, amountA, codeA, keyA, tokenA).referenceId
            != ReserveRequest(b, walletB, amountB, codeB, keyB, tokenB).referenceId
  {
    if IdText(a) == IdText(b) {
      IdTextInjective(a, b);
    }
  }

  /** Confirming is idempotent: once settled, a payout is returned as is, with
      no ledger call, whatever key and reply the retry brings. Reversing is
      idempotent in the same way. */
  lemma ResolveIdempotent(st: PayoutStore, how: Resolution, payoutId: Uuid, idempotencyKey: string, now: Instant,
                          reply: Outcome<Error>, idempotencyKey2: string, now2: Instant, reply2: Outcome<Error>)
    requires Valid(st)
    requires Resolve(st, how, payoutId, idempotencyKey, now, reply).result.Success?
    ensures var (st', p) := Resolve(st, how, payoutId, idempotencyKey, now, reply).result.value;
            Resolve(st', how, payoutId, idempotencyKey2, now2, reply2) == Attempt(Success((st', p)), [])
  {
  }

  /** The whole happy path: a new request reserves and leaves the payout
      PROCESSING with the reserved entry; confirming it calls the ledger's
      confirm for exactly that entry and settles the payout. */
  lemma RequestThenConfirmSettles(st: PayoutStore, merchantId: Uuid, vendorId: Uuid, vendorWalletId: Uuid,
                                  amount: Decimal, currencyCode: string, idempotencyKey: string,
                                  token: Option<string>, now: Instant, entryId: Uuid,
                                  confirmKey: string, now2: Instant)
    requires Valid(st)
    requires FindByKey(st.payouts, idempotencyKey).None?
    ensures var r := RequestPayout(st, merchantId, vendorId, vendorWalletId, amount, currencyCode, idempotencyKey,
                                   token, now, Success(entryId));
            && r.result.Success?
            && var (st1, p) := r.result.value;
               var c := ConfirmPayout(st1, p.id, confirmKey, token, now2, Pass);
               && c.calls == [ConfirmCall(entryId, confirmKey)]
               && c.result.Success?
               && c.result.value.1 == Stored(p).(status := SETTLED, updatedAt := now2)
  {
    var r := RequestPayout(st, merchantId, vendorId, vendorWalletId, amount, currencyCode, idempotencyKey,
                           token, now, Success(entryId));
    var (st1, p) := r.result.value;
    assert FindById(st1.payouts, p.id) == Some(Stored(p));
  }

  /** As written, the ledger call comes before the state machine's check: a
      payout that is not PROCESSING but has a ledger entry (a FAILED payout
      being confirmed, a SETTLED one being reversed) reaches the ledger, and
      only then is refused. */
  lemma LedgerCalledBeforeRefusal(st: PayoutStore, how: Resolution, payoutId: Uuid, idempotencyKey: string,
                                  now: Instant)
    requires FindById(st.payouts, payoutId).Some?
    requires var p := FindById(st.payouts, payoutId).value;
             p.status != PROCESSING && p.status != how.Done() && p.ledgerEntryId.Some?
    ensures var p := FindById(st.payouts, payoutId).value;
            var r := Resolve(st, how, payoutId, idempotencyKey, now, Pass);
            && r.calls == [how.Call(p.ledgerEntryId.value, idempotencyKey)]
            && r.result == Failure(IllegalState(IllegalPayoutTransition))
  {
  }
}

=== FILE: payout_state_machine.dfy ===
/** `PayoutStateMachine`: the only three moves a payout's status can make. A
    refused move throws before writing, so the payout is left as it was. */
module PayoutStateMachine {
  import opened Wrappers
  import opened Base
  import opened Payouts

  /** The lifecycle graph documented on `PayoutStatus`:
      CREATED → PROCESSING → SETTLED | FAILED. */
  predicate Edge(from: PayoutStatus, to: PayoutStatus) {
    (from, to) in {(CREATED, PROCESSING), (PROCESSING, SETTLED), (PROCESSING, FAILED)}
  }

  /** A status that no move leaves. */
  predicate Terminal(st: PayoutStatus) {
    forall to: PayoutStatus :: !Edge(st, to)
  }

  /** The one move shape: from the required status only, touching the status only. */
  function Move(p: Payout, required: PayoutStatus, target: PayoutStatus): (r: Result<Payout, Error>)
    ensures r.Success? <==> p.status == required
    ensures r.Success? ==> r.value == p.(status := target)
    ensures r.Failure? ==> r.error == IllegalState(IllegalPayoutTransition)
  {
    if p.status != required then Failure(IllegalState(IllegalPayoutTransition))
    else Success(p.(status := target))
  }

  /** `toProcessing`. */
  function ToProcessing(p: Payout): (r: Result<Payout, Error>)
    ensures r.Success? <==> Edge(p.status, PROCESSING)
    ensures r.Success? ==> r.value == p.(status := PROCESSING)
    ensures r.Failure? ==> r.error == IllegalState(IllegalPayoutTransition)
  {
    Move(p, CREATED, PROCESSING)
  }

  /** `toSettled`. */
  function ToSettled(p: Payout): (r: Result<Payout, Error>)
    ensures r.Success? <==> Edge(p.status, SETTLED)
    ensures r.Success? ==> r.value == p.(status := SETTLED)
    ensures r.Failure? ==> r.error == IllegalState(IllegalPayoutTransition)
  {
    Move(p, PROCESSING, SETTLED)
  }

  /** `toFailed`. */
  function ToFailed(p: Payout): (r: Result<Payout, Error>)
    ensures r.Success? <==> Edge(p.status, FAILED)
    ensures r.Success? ==> r.value == p.(status := FAILED)
    ensures r.Failure? ==> r.error == IllegalState(IllegalPayoutTransition)
  {
    Move(p, PROCESSING, FAILED)
  }

  /** Some move succeeds exactly along an edge of the lifecycle graph, and it
      lands on that edge's target. */
  lemma MovesAreEdges(p: Payout, to: PayoutStatus)
    ensures Edge(p.status, to) <==>
              || (to == PROCESSING && ToProcessing(p) == Success(p.(status := to)))
              || (to == SETTLED && ToSettled(p) == Success(p.(status := to)))
              || (to == FAILED && ToFailed(p) == Success(p.(status := to)))
  {
  }

  /** SETTLED and FAILED are terminal: every move from them is refused. */
  lemma SettledAndFailedAreTerminal(p: Payout)
    requires p.status == SETTLED || p.status == FAILED
    ensures Terminal(p.status)
    ensures ToProcessing(p).Failure? && ToSettled(p).Failure? && ToFailed(p).Failure?
  {
  }

  /** Two successful moves in a row always go CREATED → PROCESSING → SETTLED or
      FAILED; no payout is settled and then failed, or the reverse. */
  lemma NoSecondOutcome(p: Payout)
    requires ToSettled(p).Success? || ToFailed(p).Success?
    ensures ToSettled(p).Success? ==> ToFailed(ToSettled(p).value).Failure? && ToSettled(ToSettled(p).value).Failure?
    ensures ToFailed(p).Success? ==> ToSettled(ToFailed(p).value).Failure? && ToFailed(ToFailed(p).value).Failure?
  {
  }
}

=== FILE: reserve_wallet.dfy ===
/** `ReserveWalletUseCase`: holds money for a payout as a PENDING PAYOUT debit.
    A pending entry does not count towards the balance, and the funds check sees
    only the confirmed balance, not earlier reservations. */
module ReserveWallet {
  import opened Wrappers
  import opened Base
  import opened Monetary
  import opened LedgerEntries
  import opened LedgerEntryFactory
  import opened LedgerRepository
  import opened Wallets
  import opened Outbox
  import opened LedgerStore

  function NewReservation(s: LedgerState, w: Wallet, amount: Money, referenceId: string,
                          description: Option<string>, now: Instant): LedgerEntry
  {
    CreateDebit(s.nextId, EntryArgs(w.id, w.merchantId, w.vendorUserId, amount, Some(PAYOUT),
                                    Some(referenceId), Some(PENDING), description), now)
  }

  /** `execute`: wallet checks, then the funds check, and only then the lookup of
      an existing reservation for (wallet, referenceId, PAYOUT). */
  function Execute(s: LedgerState, walletId: Uuid, amount: Money, referenceId: string,
                   description: Option<string>, now: Instant)
    : (r: Result<(LedgerState, LedgerEntry), Error>)
    ensures LoadActiveWallet(s, walletId, amount.currency).Failure? ==>
              r == LoadActiveWallet(s, walletId, amount.currency).PropagateFailure()
    ensures LoadActiveWallet(s, walletId, amount.currency).Success? && Balance(s, walletId) < amount.amount ==>
              r == Failure(InsufficientBalance(walletId))
    ensures LoadActiveWallet(s, walletId, amount.currency).Success? && Balance(s, walletId) >= amount.amount ==>
              var existing := FindByKey(s.entries, EntryKey(walletId, referenceId, PAYOUT));
              && (existing.Some? && existing.value.status == PENDING ==> r == Success((s, existing.value)))
              && (existing.Some? && existing.value.status != PENDING ==> r == Failure(IllegalState(ReservationResolved)))
              && (existing.None? ==> r.Success? && r.value.0 != s)
    ensures r.Success? && r.value.0 != s ==>
              var (s', e) := r.value;
              && s'.entries == s.entries + [e]
              && e.entryType == DEBIT && e.status == PENDING && e.amountValue == amount.amount
              && e.Key() == EntryKey(walletId, referenceId, PAYOUT)
              && s'.outbox == s.outbox && s'.wallets == s.wallets && s'.users == s.users && s'.iso == s.iso
    ensures r.Success? ==> r.value.1.status == PENDING && r.value.1.Key() == EntryKey(walletId, referenceId, PAYOUT)
    ensures r.Success? ==> forall w :: Balance(r.value.0, w) == Balance(s, w)
    ensures r.Success? ==> Evolves(s.entries, r.value.0.entries)
    ensures r.Success? && Valid(s) ==> Valid(r.value.0)
  {
    var w :- LoadActiveWallet(s, walletId, amount.currency);
    if Balance(s, walletId) < amount.amount then Failure(InsufficientBalance(walletId))
    else
      var existing := FindByKey(s.entries, EntryKey(walletId, referenceId, PAYOUT));
      if existing.Some? then
        if existing.value.status == PENDING then Success((s, existing.value))
        else Failure(IllegalState(ReservationResolved))
      else
        var e := NewReservation(s, w, amount, referenceId, description, now);
        var (id, s1) := Fresh(s);
        match InsertEntry(s1, e)
        case Failure(err) => Failure(err)
        case Success(s2) =>
          assert forall x :: Balance(s2, x) == Balance(s, x) by {
            forall x ensures Balance(s2, x) == Balance(s, x) {
              BalanceAppend(s.entries, e, x);
            }
          }
          assert Valid(s) ==> Valid(s1) by {
            if Valid(s) { FreshIsNew(s); }
          }
          assert s2 != s by { assert |s2.entries| != |s.entries|; }
          Success((s2, e))
  }

  /** A reservation is replayed while it is pending and the funds check still
      passes: the same entry comes back and nothing is written. */
  lemma PendingReplay(s: LedgerState, walletId: Uuid, amount: Money, referenceId: string,
                      description: Option<string>, now: Instant, now2: Instant)
    requires Execute(s, walletId, amount, referenceId, description, now).Success?
    ensures var (s', e) := Execute(s, walletId, amount, referenceId, description, now).value;
            Execute(s', walletId, amount, referenceId, description, now2) == Success((s', e))
  {
    var (s', e) := Execute(s, walletId, amount, referenceId, description, now).value;
    assert LoadActiveWallet(s', walletId, amount.currency) == LoadActiveWallet(s, walletId, amount.currency);
    if s' != s {
      assert s'.entries[|s'.entries| - 1] == e;
    }
  }
}

=== FILE: reverse_reservation.dfy ===
/** `ReverseReservationUseCase`, as written: cancels a PENDING reservation by
    marking it REVERSED and appending a CONFIRMED compensating CREDIT with
    reference type REVERSAL and reference id `<referenceId>-reversal`. Since the
    pending debit never counted towards the balance, the credit raises the balance
    above its level before the reservation (see `Findings.ReserveThenReverseMints`). */
module ReverseReservation {
  import opened Wrappers
  import opened Base
  import opened Monetary
  import Text
  import opened LedgerEntries
  import opened LedgerEntryFactory
  import opened LedgerRepository
  import opened LedgerStore

  /** The key the compensating credit of `pending` is stored under. */
  function ReversalKey(pending: LedgerEntry): EntryKey {
    EntryKey(pending.walletId, pending.referenceId + "-reversal", REVERSAL)
  }

  /** The compensating credit: same wallet, parties and amount as the reservation. */
  function CompensatingCredit(id: Uuid, pending: LedgerEntry, amount: Money, now: Instant): LedgerEntry {
    CreateCredit(id, EntryArgs(pending.walletId, pending.merchantId, pending.vendorId, amount,
                               Some(REVERSAL), Some(pending.referenceId + "-reversal"), Some(CONFIRMED),
                               Some("Reversal of " + pending.referenceId)), now)
  }

  /** A reservation key never collides with its own reversal key. */
  lemma ReversalKeyDiffers(e: LedgerEntry)
    ensures ReversalKey(e) != e.Key()
  {
    assert |ReversalKey(e).referenceId| == |e.referenceId| + 9;
  }

  /** The first reversal of the PENDING entry at `i` when no compensating credit
      is stored yet: the credit is appended, then the entry is flipped. */
  function ReverseFresh(s: LedgerState, i: nat, now: Instant): (r: Result<(LedgerState, LedgerEntry), Error>)
    requires i < |s.entries| && s.entries[i].status == PENDING
    requires FindByKey(s.entries, ReversalKey(s.entries[i])).None?
    ensures r.Success? <==> s.entries[i].GetAmount(s.iso).Success?
    ensures r.Failure? ==> r == s.entries[i].GetAmount(s.iso).PropagateFailure()
    ensures r.Success? ==>
              var p := s.entries[i];
              var (s', c) := r.value;
              && s' == s.(entries := s.entries[i := p.(status := REVERSED)] + [c], nextId := s.nextId + 1)
              && c.id == s.nextId && c.entryType == CREDIT && c.status == CONFIRMED && c.Key() == ReversalKey(p)
              && c.amountValue == p.amountValue && c.currencyCode == Text.ToUpper(p.currencyCode)
              && Balance(s', p.walletId) == Balance(s, p.walletId) + p.amountValue
              && (forall w :: w != p.walletId ==> Balance(s', w) == Balance(s, w))
    ensures r.Success? ==> Evolves(s.entries, r.value.0.entries)
    ensures r.Success? && Valid(s) ==> Valid(r.value.0)
  {
    var p := s.entries[i];
    var flipped := p.(status := REVERSED);
    var amount :- p.GetAmount(s.iso);
    var c := CompensatingCredit(s.nextId, p, amount, now);
    var (id, s1) := Fresh(s);
    match InsertEntry(s1, c)
    case Failure(err) => Failure(err)
    case Success(s2) =>
      var s3 := SetStatus(s2, i, REVERSED);
      assert s3.entries == s.entries[i := flipped] + [c];
      FlipKeepsBalances(s.entries, i, flipped);
      assert forall w :: Balance(s3, w) == ComputeBalance(s.entries[i := flipped], w) + c.Contribution(w) by {
        forall w ensures Balance(s3, w) == ComputeBalance(s.entries[i := flipped], w) + c.Contribution(w) {
          BalanceAppend(s.entries[i := flipped], c, w);
        }
      }
      assert Valid(s) ==> Valid(s1) by {
        if Valid(s) { FreshIsNew(s); }
      }
      Success((s3, c))
  }

  /** `execute`. A REVERSED entry answers with its compensating credit (or with
      itself when none is stored) and writes nothing; a CONFIRMED one is refused;
      a PENDING one is flipped to REVERSED, reusing a stored compensating credit
      or appending a new one. Reading the amount back goes through `Money.of`. */
  function Execute(s: LedgerState, entryId: Uuid, now: Instant): (r: Result<(LedgerState, LedgerEntry), Error>)
    ensures FindIndexById(s.entries, entryId).None? ==> r == Failure(LedgerEntryNotFound(entryId))
    ensures FindIndexById(s.entries, entryId).Some? ==>
              var i := FindIndexById(s.entries, entryId).value;
              var p := s.entries[i];
              var k := ReversalKey(p);
              && (p.status == CONFIRMED ==> r == Failure(IllegalState(NotPending)))
              && (p.status == REVERSED ==> r == Success((s, FindByKey(s.entries, k).GetOr(p))))
              && (p.status == PENDING && FindByKey(s.entries, k).Some? ==>
                    r == Success((s.(entries := s.entries[i := p.(status := REVERSED)]), FindByKey(s.entries, k).value)))
              && (p.status == PENDING && FindByKey(s.entries, k).None? ==> r == ReverseFresh(s, i, now))
    ensures r.Success? ==> Evolves(s.entries, r.value.0.entries)
    ensures r.Success? ==> forall w :: w != s.entries[FindIndexById(s.entries, entryId).value].walletId ==>
                                       Balance(r.value.0, w) == Balance(s, w)
    ensures r.Success? && Valid(s) ==> Valid(r.value.0)
  {
    match FindIndexById(s.entries, entryId)
    case None => Failure(LedgerEntryNotFound(entryId))
    case Some(i) =>
      var p := s.entries[i];
      var k := ReversalKey(p);
      if p.status == REVERSED then Success((s, FindByKey(s.entries, k).GetOr(p)))
      else if p.status != PENDING then Failure(IllegalState(NotPending))
      else match FindByKey(s.entries, k)
        case Some(existing) =>
          FlipKeepsBalances(s.entries, i, p.(status := REVERSED));
          Success((SetStatus(s, i, REVERSED), existing))
        case None => ReverseFresh(s, i, now)
  }

  /** Marking a PENDING entry REVERSED changes no balance. */
  lemma FlipKeepsBalances(es: seq<LedgerEntry>, i: nat, flipped: LedgerEntry)
    requires i < |es| && es[i].status == PENDING && flipped == es[i].(status := REVERSED)
    ensures forall w :: ComputeBalance(es[i := flipped], w) == ComputeBalance(es, w)
  {
    forall w ensures ComputeBalance(es[i := flipped], w) == ComputeBalance(es, w) {
      BalanceUpdate(es, i, flipped, w);
    }
  }

  /** Reversing is idempotent on a valid ledger: a second call returns the same
      entry and writes nothing, so at most one compensating credit is ever made. */
  lemma ReverseIdempotent(s: LedgerState, entryId: Uuid, now: Instant, now2: Instant)
    requires Valid(s)
    requires Execute(s, entryId, now).Success?
    ensures var (s', e) := Execute(s, entryId, now).value;
            Execute(s', entryId, now2) == Success((s', e))
  {
    var i := FindIndexById(s.entries, entryId).value;
    var p := s.entries[i];
    if p.status == PENDING {
      if FindByKey(s.entries, ReversalKey(p)).None? {
        ReverseAgainFresh(s, i, entryId, now, now2);
      } else {
        ReverseAgainStored(s, i, entryId, now2);
      }
    }
  }

  /** The second reversal after a first one that appended the credit. */
  lemma ReverseAgainFresh(s: LedgerState, i: nat, entryId: Uuid, now: Instant, now2: Instant)
    requires Valid(s) && FindIndexById(s.entries, entryId) == Some(i) && s.entries[i].status == PENDING
    requires FindByKey(s.entries, ReversalKey(s.entries[i])).None?
    requires ReverseFresh(s, i, now).Success?
    ensures var (s', c) := ReverseFresh(s, i, now).value;
            Execute(s', entryId, now2) == Success((s', c))
  {
    var p := s.entries[i];
    var k := ReversalKey(p);
    var flipped := p.(status := REVERSED);
    var (s', c) := ReverseFresh(s, i, now).value;
    ReversalKeyDiffers(p);
    FindIndexByIdUpdate(s.entries, i, flipped, entryId);
    FindByKeyUpdate(s.entries, i, flipped, k);
    assert p.id < s.nextId;
    FindIndexByIdAppend(s.entries[i := flipped], c, entryId);
    var es' := s.entries[i := flipped] + [c];
    assert es'[|es'| - 1] == c;
    assert s'.entries[i] == flipped;
  }

  /** The second reversal after a first one that reused a stored credit. */
  lemma ReverseAgainStored(s: LedgerState, i: nat, entryId: Uuid, now2: Instant)
    requires Valid(s) && FindIndexById(s.entries, entryId) == Some(i) && s.entries[i].status == PENDING
    requires FindByKey(s.entries, ReversalKey(s.entries[i])).Some?
    ensures var s' := s.(entries := s.entries[i := s.entries[i].(status := REVERSED)]);
            Execute(s', entryId, now2) == Success((s', FindByKey(s.entries, ReversalKey(s.entries[i])).value))
  {
    var p := s.entries[i];
    var flipped := p.(status := REVERSED);
    ReversalKeyDiffers(p);
    FindIndexByIdUpdate(s.entries, i, flipped, entryId);
    FindByKeyUpdate(s.entries, i, flipped, ReversalKey(p));
  }
}

=== FILE: role_set_converter.dfy ===
/** `RoleSetConverter`: the `roles` column stores a role set as the role names
    joined by commas. */
module RoleSetConverter {
  import opened Wrappers
  import opened Base
  import opened Users
  import Text

  /** `Enum.name`. */
  function Name(r: Role): string {
    match r
    case MERCHANT => "MERCHANT"
    case VENDOR => "VENDOR"
    case ADMIN => "ADMIN"
    case SYSTEM => "SYSTEM"
  }

  /** `Role.valueOf`: exact, case-sensitive match on the name. */
  function ValueOf(s: string): (r: Result<Role, Error>)
    ensures r.Success? ==> Name(r.value) == s
    ensures r.Failure? ==> r.error == IllegalArgument(UnknownEnumName)
  {
    if s == "MERCHANT" then Success(MERCHANT)
    else if s == "VENDOR" then Success(VENDOR)
    else if s == "ADMIN" then Success(ADMIN)
    else if s == "SYSTEM" then Success(SYSTEM)
    else Failure(IllegalArgument(UnknownEnumName))
  }

  lemma ValueOfName(r: Role)
    ensures ValueOf(Name(r)) == Success(r)
  {
  }

  /** The set's iteration order, which `Set.stream()` leaves unspecified: any
      duplicate-free listing of the set. */
  predicate Enumerates(order: seq<Role>, roles: set<Role>) {
    (forall i, j :: 0 <= i < j < |order| ==> order[i] != order[j])
    && (forall r :: r in roles <==> r in order)
  }

  function Names(order: seq<Role>): (r: seq<string>)
    ensures |r| == |order|
    ensures forall i :: 0 <= i < |order| ==> r[i] == Name(order[i])
  {
    if |order| == 0 then [] else [Name(order[0])] + Names(order[1..])
  }

  /** `convertToDatabaseColumn`. */
  function Encode(roles: Option<set<Role>>, order: seq<Role>): (db: string)
    requires roles.Some? ==> Enumerates(order, roles.value)
    ensures roles.None? || roles.value == {} <==> db == ""
  {
    if roles.None? || roles.value == {} then ""
    else
      assert order[0] in roles.value;
      NamesNotEmpty(order);
      Text.Join(Names(order))
  }

  /** `convertToEntityAttribute`: null and blank read as no roles; otherwise every
      comma-separated piece, trimmed, must be a role name. */
  function Decode(db: Option<string>): (r: Result<set<Role>, Error>)
    ensures db.None? ==> r == Success({})
    ensures db.Some? && Text.IsBlank(db.value) ==> r == Success({})
  {
    if db.None? || Text.IsBlank(db.value) then Success({})
    else DecodePieces(Text.Split(db.value))
  }

  /** One piece of the column, trimmed and looked up. */
  function ReadPiece(piece: string): Result<Role, Error> {
    ValueOf(Text.Trim(piece))
  }

  /** Trims and looks up every piece; the first unknown name fails the whole read. */
  function DecodePieces(pieces: seq<string>): (r: Result<set<Role>, Error>)
    ensures r.Success? <==> forall i :: 0 <= i < |pieces| ==> ReadPiece(pieces[i]).Success?
    ensures r.Success? ==> forall role :: role in r.value <==>
              exists i :: 0 <= i < |pieces| && ReadPiece(pieces[i]) == Success(role)
  {
    if |pieces| == 0 then Success({})
    else
      var first :- ReadPiece(pieces[0]);
      var rest :- DecodePieces(pieces[1..]);
      PiecesCons(ReadPiece, pieces, first, rest);
      Success({first} + rest)
  }

  /** The values read from the first piece and from the rest are the values read
      from all the pieces (`read` stands for trim-then-`valueOf`). */
  lemma PiecesCons<T>(read: string -> Result<T, Error>, pieces: seq<string>, first: T, rest: set<T>)
    requires |pieces| > 0 && read(pieces[0]) == Success(first)
    requires forall i :: 0 <= i < |pieces[1..]| ==> read(pieces[1..][i]).Success?
    requires forall v :: v in rest <==> exists i :: 0 <= i < |pieces[1..]| && read(pieces[1..][i]) == Success(v)
    ensures forall i :: 0 <= i < |pieces| ==> read(pieces[i]).Success?
    ensures forall v :: v in {first} + rest <==> exists i :: 0 <= i < |pieces| && read(pieces[i]) == Success(v)
  {
    assert forall i :: 1 <= i < |pieces| ==> pieces[i] == pieces[1..][i - 1];
    forall v
      ensures v in {first} + rest <==> exists i :: 0 <= i < |pieces| && read(pieces[i]) == Success(v)
    {
      if v in rest {
        var i :| 0 <= i < |pieces[1..]| && read(pieces[1..][i]) == Success(v);
        assert read(pieces[i + 1]) == Success(v);
      }
      if exists i :: 0 <= i < |pieces| && read(pieces[i]) == Success(v) {
        var i :| 0 <= i < |pieces| && read(pieces[i]) == Success(v);
        if i > 0 {
          assert read(pieces[1..][i - 1]) == Success(v);
        }
      }
    }
  }

  lemma NamesNotEmpty(order: seq<Role>)
    requires |order| > 0
    ensures Text.Join(Names(order)) != ""
    ensures !Text.IsBlank(Text.Join(Names(order)))
  {
    var n := Names(order);
    FirstLetter(order[0]);
    JoinStartsWith(n);
    var s := Text.Join(n);
    assert !Text.IsWhitespace(s[0]);
  }

  lemma FirstLetter(r: Role)
    ensures |Name(r)| > 0 && 'A' <= Name(r)[0] <= 'Z'
  {
  }

  lemma JoinStartsWith(parts: seq<string>)
    requires |parts| > 0 && |parts[0]| > 0
    ensures |Text.Join(parts)| > 0 && Text.Join(parts)[0] == parts[0][0]
  {
    if |parts| > 1 {
      assert Text.Join(parts) == parts[0] + "," + Text.Join(parts[1..]);
    }
  }

  /** A role name has no comma, no character `trim` removes, and is not empty. */
  lemma NameShape(r: Role)
    ensures |Name(r)| > 0 && Text.NoComma(Name(r))
    ensures forall i :: 0 <= i < |Name(r)| ==> !Text.Trimmable(Name(r)[i])
  {
  }

  /** Looking up the listed names gives back the listed roles. */
  lemma {:induction false} DecodeNames(order: seq<Role>)
    ensures DecodePieces(Names(order)) == Success(set r | r in order)
  {
    if |order| > 0 {
      var n := Names(order);
      var rest := set r | r in order[1..];
      DecodeNames(order[1..]);
      assert n[1..] == Names(order[1..]);
      NameShape(order[0]);
      Text.TrimIdentity(n[0]);
      ValueOfName(order[0]);
      DecodePiecesCons(n, order[0], rest);
      SetOfCons(order);
    } else {
      assert (set r | r in order) == {};
    }
  }

  /** One step of `DecodePieces`: a known first name joins the roles of the rest. */
  lemma DecodePiecesCons(pieces: seq<string>, first: Role, rest: set<Role>)
    requires |pieces| > 0 && ReadPiece(pieces[0]) == Success(first)
    requires DecodePieces(pieces[1..]) == Success(rest)
    ensures DecodePieces(pieces) == Success({first} + rest)
  {
  }

  lemma SetOfCons(order: seq<Role>)
    requires |order| > 0
    ensures (set r | r in order) == {order[0]} + (set r | r in order[1..])
  {
    assert forall r :: r in order <==> r == order[0] || r in order[1..];
  }

  /** Splitting the stored column gives back exactly the names that were joined. */
  lemma SplitJoinNames(order: seq<Role>)
    requires |order| > 0
    ensures Text.Split(Text.Join(Names(order))) == Names(order)
  {
    var n := Names(order);
    NamesNotEmpty(order);
    forall i | 0 <= i < |n|
      ensures Text.NoComma(n[i]) && n[i] != ""
    {
      NameShape(order[i]);
    }
    Text.SplitAllJoin(n);
    assert n[|n| - 1] != "";
  }

  /** The column written for a non-empty listing reads back as the listed roles. */
  lemma DecodeJoinedNames(order: seq<Role>)
    requires |order| > 0
    ensures Decode(Some(Text.Join(Names(order)))) == Success(set r | r in order)
  {
    NamesNotEmpty(order);
    SplitJoinNames(order);
    DecodeNames(order);
  }

  /** Round trip: whatever order the set is listed in, reading back what was
      written gives the same role set. */
  lemma DecodeEncode(roles: set<Role>, order: seq<Role>)
    requires Enumerates(order, roles)
    ensures Decode(Some(Encode(Some(roles), order))) == Success(roles)
  {
    if roles == {} {
      assert Encode(Some(roles), order) == "";
    } else {
      var r :| r in roles;
      assert r in order;
      assert Encode(Some(roles), order) == Text.Join(Names(order));
      DecodeJoinedNames(order);
      assert (set x | x in order) == roles;
    }
  }
}

=== FILE: scenarios.dfy ===
/** Runs of several use cases in a row, and what the ledger looks like after. */
module Scenarios {
  import opened Wrappers
  import opened Base
  import opened Monetary
  import opened LedgerEntries
  import opened LedgerRepository
  import opened Wallets
  import opened LedgerStore
  import ReserveWallet
  import ConfirmReservation
  import GetWallet

  /** Under unique ids, the entry with a given id is found at its own index. */
  lemma FoundAt(es: seq<LedgerEntry>, nextId: nat, i: nat)
    requires EntriesValid(es, nextId) && i < |es|
    ensures FindIndexById(es, es[i].id) == Some(i)
  {
    var r := FindIndexById(es, es[i].id);
    assert r.Some?;
  }

  /** A reservation under a free key is accepted when the confirmed balance
      covers it, and appends one pending debit of the wallet. */
  lemma ReserveFresh(s: LedgerState, walletId: Uuid, amount: Money, ref: string, d: Option<string>, now: Instant)
    requires Valid(s)
    requires LoadActiveWallet(s, walletId, amount.currency).Success?
    requires amount.amount <= Balance(s, walletId)
    requires FindByKey(s.entries, EntryKey(walletId, ref, PAYOUT)).None?
    ensures var r := ReserveWallet.Execute(s, walletId, amount, ref, d, now);
            && r.Success?
            && r.value.0 == s.(entries := s.entries + [r.value.1], nextId := r.value.0.nextId)
            && r.value.1.walletId == walletId && r.value.1.referenceId == ref
            && r.value.1.entryType == DEBIT && r.value.1.status == PENDING && r.value.1.amountValue == amount.amount
            && Valid(r.value.0)
  {
  }

  /** Confirming a pending debit, found by its id, takes its amount off the
      wallet's balance. */
  lemma ConfirmDebit(s: LedgerState, i: nat)
    requires Valid(s) && i < |s.entries|
    requires s.entries[i].status == PENDING && s.entries[i].entryType == DEBIT
    ensures var c := ConfirmReservation.Execute(s, s.entries[i].id);
            && c.Success?
            && c.value.0 == s.(entries := s.entries[i := s.entries[i].(status := CONFIRMED)])
            && Balance(c.value.0, s.entries[i].walletId) == Balance(s, s.entries[i].walletId) - s.entries[i].amountValue
            && Valid(c.value.0)
  {
    FoundAt(s.entries, s.nextId, i);
  }

  /** The second key is still free once the first reservation is stored. */
  lemma KeyStillFree(es: seq<LedgerEntry>, e: LedgerEntry, k: EntryKey)
    requires FindByKey(es, k).None? && e.Key() != k
    ensures FindByKey(es + [e], k).None?
  {
    assert forall i :: 0 <= i < |es + [e]| ==> (es + [e])[i].Key() != k by {
      forall i | 0 <= i < |es + [e]|
        ensures (es + [e])[i].Key() != k
      {
        if i < |es| { assert (es + [e])[i] == es[i]; }
      }
    }
  }

  /** Two reservations under two free keys, each covered by the balance. */
  lemma TwoReservations(s: LedgerState, walletId: Uuid, amount: Money, ref1: string, ref2: string,
                        d1: Option<string>, d2: Option<string>, now: Instant)
    requires Valid(s)
    requires LoadActiveWallet(s, walletId, amount.currency).Success?
    requires amount.amount <= Balance(s, walletId)
    requires ref1 != ref2
    requires FindByKey(s.entries, EntryKey(walletId, ref1, PAYOUT)).None?
    requires FindByKey(s.entries, EntryKey(walletId, ref2, PAYOUT)).None?
    ensures var r1 := ReserveWallet.Execute(s, walletId, amount, ref1, d1, now);
            && r1.Success?
            && var r2 := ReserveWallet.Execute(r1.value.0, walletId, amount, ref2, d2, now);
            && r2.Success?
            && var (s2, n) := (r2.value.0, |s.entries|);
            && |s2.entries| == n + 2 && s2.entries[n] == r1.value.1 && s2.entries[n + 1] == r2.value.1
            && r1.value.1.id != r2.value.1.id
            && Pending(s2.entries[n], walletId, amount.amount) && Pending(s2.entries[n + 1], walletId, amount.amount)
            && Valid(s2) && Balance(s2, walletId) == Balance(s, walletId)
            && s2.wallets == s.wallets && s2.iso == s.iso
  {
    ReserveFresh(s, walletId, amount, ref1, d1, now);
    var (s1, e1) := ReserveWallet.Execute(s, walletId, amount, ref1, d1, now).value;
    BalanceAppend(s.entries, e1, walletId);
    KeyStillFree(s.entries, e1, EntryKey(walletId, ref2, PAYOUT));
    ReserveFresh(s1, walletId, amount, ref2, d2, now);
    var (s2, e2) := ReserveWallet.Execute(s1, walletId, amount, ref2, d2, now).value;
    BalanceAppend(s1.entries, e2, walletId);
    var n := |s.entries|;
    assert s2.entries[n] == e1 && s2.entries[n + 1] == e2;
  }

  /** A pending debit of `amount` units on wallet `w`. */
  predicate Pending(e: LedgerEntry, w: Uuid, amount: nat) {
    e.walletId == w && e.entryType == DEBIT && e.status == PENDING && e.amountValue == amount
  }

  /** Confirming two pending debits of a wallet, one after the other. */
  lemma ConfirmBoth(s: LedgerState, i: nat, j: nat, w: Uuid, amount: nat)
    requires Valid(s) && i < |s.entries| && j < |s.entries| && i != j
    requires Pending(s.entries[i], w, amount) && Pending(s.entries[j], w, amount)
    ensures var c1 := ConfirmReservation.Execute(s, s.entries[i].id);
            && c1.Success?
            && var c2 := ConfirmReservation.Execute(c1.value.0, s.entries[j].id);
            && c2.Success?
            && Balance(c2.value.0, w) == Balance(s, w) - 2 * amount
            && c2.value.0.wallets == s.wallets && c2.value.0.iso == s.iso
  {
    ConfirmDebit(s, i);
    var s3 := ConfirmReservation.Execute(s, s.entries[i].id).value.0;
    assert s3.entries[j] == s.entries[j];
    ConfirmDebit(s3, j);
  }

  /** Reserving checks the confirmed balance only, never the amounts already
      held by pending reservations. Two reservations that each fit the balance
      but not together are both accepted and can both be confirmed; the
      wallet's balance is then negative and the wallet can no longer be read. */
  lemma Oversubscription(s: LedgerState, walletId: Uuid, amount: Money, ref1: string, ref2: string,
                         d1: Option<string>, d2: Option<string>, now: Instant)
    requires Valid(s)
    requires LoadActiveWallet(s, walletId, amount.currency).Success?
    requires amount.amount <= Balance(s, walletId) < 2 * amount.amount
    requires ref1 != ref2
    requires FindByKey(s.entries, EntryKey(walletId, ref1, PAYOUT)).None?
    requires FindByKey(s.entries, EntryKey(walletId, ref2, PAYOUT)).None?
    ensures var r1 := ReserveWallet.Execute(s, walletId, amount, ref1, d1, now);
            && r1.Success?
            && var r2 := ReserveWallet.Execute(r1.value.0, walletId, amount, ref2, d2, now);
            && r2.Success?
            && var c1 := ConfirmReservation.Execute(r2.value.0, r1.value.1.id);
            && c1.Success?
            && var c2 := ConfirmReservation.Execute(c1.value.0, r2.value.1.id);
            && c2.Success?
            && Balance(c2.value.0, walletId) == Balance(s, walletId) - 2 * amount.amount < 0
            && GetWallet.Execute(c2.value.0, walletId) == Failure(IllegalArgument(NegativeAmount))
  {
    TwoReservations(s, walletId, amount, ref1, ref2, d1, d2, now);
    var s2 := ReserveWallet.Execute(ReserveWallet.Execute(s, walletId, amount, ref1, d1, now).value.0,
                                    walletId, amount, ref2, d2, now).value.0;
    ConfirmBoth(s2, |s.entries|, |s.entries| + 1, walletId, amount.amount);
  }
}

=== FILE: settlement.dfy ===
/** `SettlementCalculationUseCase`: reconciles a merchant's ESCROW wallet. The
    ledger net balance is compared with the confirmed credits less the PAYOUT and
    REFUND debits. */
module Settlement {
  import opened Wrappers
  import opened Base
  import opened LedgerEntries
  import opened LedgerRepository
  import opened Wallets
  import opened LedgerStore
  import Text
  import CreateWallet

  /** `SettlementResult`; a null escrow wallet id is `None`. */
  datatype SettlementResult = SettlementResult(
    merchantId: Uuid,
    currencyCode: string,
    escrowWalletId: Option<Uuid>,
    totalConfirmedEscrowCredits: nat,
    totalPayoutDebits: nat,
    totalRefundDebits: nat,
    expectedBalance: int,
    ledgerNetBalance: int,
    reconciled: bool)

  /** `SettlementResult.noEscrowWallet`: all zero, and reconciled. */
  function NoEscrowWallet(merchantId: Uuid, currencyCode: string): SettlementResult {
    SettlementResult(merchantId, currencyCode, None, 0, 0, 0, 0, 0, true)
  }

  /** The ESCROW wallet of a merchant: type ESCROW, no vendor, and the currency
      code exactly as given (stored codes are upper case). */
  function EscrowKey(merchantId: Uuid, currencyCode: string): WalletKey {
    WalletKey(merchantId, currencyCode, Some(ESCROW), None)
  }

  /** `execute`. The lookup of the ESCROW wallet fails when two ESCROW wallets
      share the merchant and code, which the unique constraint does not prevent. */
  function Execute(s: LedgerState, merchantId: Uuid, currencyCode: string): (r: Result<SettlementResult, Error>)
    ensures r.Failure? <==> KeyMatchesTwice(s.wallets, EscrowKey(merchantId, currencyCode))
    ensures r.Failure? ==> r.error == IncorrectResultSize
    ensures !WalletKeyExists(s.wallets, EscrowKey(merchantId, currencyCode)) ==>
              r == Success(NoEscrowWallet(merchantId, currencyCode))
    ensures r.Success? && r.value.escrowWalletId.Some? ==>
              var w := r.value.escrowWalletId.value;
              // the one wallet carrying the ESCROW key
              && (exists i :: && 0 <= i < |s.wallets| && s.wallets[i].id == w
                              && s.wallets[i].Key() == EscrowKey(merchantId, currencyCode)
                              && forall j :: 0 <= j < |s.wallets| && j != i ==> s.wallets[j].Key() != EscrowKey(merchantId, currencyCode))
              && r.value.ledgerNetBalance == Balance(s, w)
              && r.value.totalConfirmedEscrowCredits == SumConfirmedCredits(s.entries, w)
              && r.value.totalPayoutDebits == SumConfirmedDebits(s.entries, w, PAYOUT)
              && r.value.totalRefundDebits == SumConfirmedDebits(s.entries, w, REFUND)
              // the expectation leaves out exactly the ORDER and REVERSAL debits
              && r.value.expectedBalance
                 == r.value.ledgerNetBalance + SumConfirmedDebits(s.entries, w, ORDER) + SumConfirmedDebits(s.entries, w, REVERSAL)
    ensures r.Success? && r.value.escrowWalletId.None? ==> r.value == NoEscrowWallet(merchantId, currencyCode)
    ensures r.Success? ==> r.value.merchantId == merchantId && r.value.currencyCode == currencyCode
  {
    match FindWalletByKey(s.wallets, EscrowKey(merchantId, currencyCode))
    case Failure(e) => Failure(e)
    case Success(None) => Success(NoEscrowWallet(merchantId, currencyCode))
    case Success(Some(escrow)) =>
      var w := escrow.id;
      var credits := SumConfirmedCredits(s.entries, w);
      var payouts := SumConfirmedDebits(s.entries, w, PAYOUT);
      var refunds := SumConfirmedDebits(s.entries, w, REFUND);
      var net := Balance(s, w);
      var expected := credits - payouts - refunds;
      BalanceDecomposition(s.entries, w);
      Success(SettlementResult(merchantId, currencyCode, Some(w), credits, payouts, refunds, expected, net, net == expected))
  }

  /** The escrow is reconciled exactly when it carries no confirmed ORDER or
      REVERSAL debit (or there is no escrow wallet). An order split, which debits
      the escrow with an ORDER debit, therefore leaves it unreconciled. */
  lemma ReconciledIff(s: LedgerState, merchantId: Uuid, currencyCode: string)
    requires Execute(s, merchantId, currencyCode).Success?
    ensures var r := Execute(s, merchantId, currencyCode).value;
            r.reconciled <==>
              || r.escrowWalletId.None?
              || (&& SumConfirmedDebits(s.entries, r.escrowWalletId.value, ORDER) == 0
                  && SumConfirmedDebits(s.entries, r.escrowWalletId.value, REVERSAL) == 0)
  {
  }

  /** While no two wallets share a key the lookup is unambiguous and the
      reconciliation always answers. */
  lemma SettlesOnDistinctKeys(s: LedgerState, merchantId: Uuid, currencyCode: string)
    requires KeysDistinct(s.wallets)
    ensures Execute(s, merchantId, currencyCode).Success?
  {
  }

  /** Creating an ESCROW wallet twice with a lower-case code succeeds both times,
      and the reconciliation of that merchant and currency then fails on the
      two matching rows. */
  lemma DuplicateEscrowBlocksSettlement(s: LedgerState, merchantId: Uuid, code: string, now: Instant, now2: Instant)
    requires CreateWallet.Execute(s, merchantId, code, ESCROW, None, now).Success?
    requires Text.ToUpper(code) != code
    ensures var s1 := CreateWallet.Execute(s, merchantId, code, ESCROW, None, now).value.0;
            var again := CreateWallet.Execute(s1, merchantId, code, ESCROW, None, now2);
            && again.Success?
            && Execute(again.value.0, merchantId, Text.ToUpper(code)) == Failure(IncorrectResultSize)
  {
    CreateWallet.CreateAgain(s, merchantId, code, ESCROW, None, now, now2);
    var w := CreateWallet.Execute(s, merchantId, code, ESCROW, None, now).value.1;
    assert w.Key() == EscrowKey(merchantId, Text.ToUpper(code));
  }
}

=== FILE: text.dfy ===
/** The few `java.lang.String` operations the core relies on: `trim`, `isBlank`,
    `toUpperCase` (ASCII letters only), `split(",")` and `String.join(",", ...)`. */
module Text {

  /** `Character.isWhitespace`: the ASCII controls it accepts plus the Unicode
      space separators other than the non-breaking ones. */
  predicate IsWhitespace(c: char) {
    || c == ' ' || c == '\t' || c == '\n' || c == '\U{000B}' || c == '\U{000C}' || c == '\r'
    || ('\U{001C}' <= c <= '\U{001F}')
    || c == '\U{1680}' || ('\U{2000}' <= c <= '\U{2006}') || ('\U{2008}' <= c <= '\U{200A}')
    || c == '\U{2028}' || c == '\U{2029}' || c == '\U{205F}' || c == '\U{3000}'
  }

  /** `String.isBlank`: empty, or whitespace only. */
  predicate IsBlank(s: string) {
    forall i :: 0 <= i < |s| ==> IsWhitespace(s[i])
  }

  /** `String.trim` removes every character up to U+0020 at both ends. */
  predicate Trimmable(c: char) {
    c <= ' '
  }

  function TrimStart(s: string): (r: string)
    ensures |r| <= |s| && r == s[|s| - |r|..]
    ensures |r| > 0 ==> !Trimmable(r[0])
    ensures forall i :: 0 <= i < |s| - |r| ==> Trimmable(s[i])
  {
    if |s| > 0 && Trimmable(s[0]) then TrimStart(s[1..]) else s
  }

  function TrimEnd(s: string): (r: string)
    ensures |r| <= |s| && r == s[..|r|]
    ensures |r| > 0 ==> !Trimmable(r[|r| - 1])
    ensures forall i :: |r| <= i < |s| ==> Trimmable(s[i])
  {
    if |s| > 0 && Trimmable(s[|s| - 1]) then TrimEnd(s[..|s| - 1]) else s
  }

  function Trim(s: string): (r: string)
    ensures |r| <= |s|
    ensures |r| > 0 ==> !Trimmable(r[0]) && !Trimmable(r[|r| - 1])
  {
    TrimEnd(TrimStart(s))
  }

  lemma TrimIdentity(s: string)
    requires forall i :: 0 <= i < |s| ==> !Trimmable(s[i])
    ensures Trim(s) == s
  {
  }

  function UpperChar(c: char): char {
    if 'a' <= c <= 'z' then (c as int - 'a' as int + 'A' as int) as char else c
  }

  /** `String.toUpperCase` on ASCII letters; other characters are kept. */
  function ToUpper(s: string): (r: string)
    ensures |r| == |s|
    ensures forall i :: 0 <= i < |s| ==> r[i] == UpperChar(s[i])
  {
    if |s| == 0 then "" else [UpperChar(s[0])] + ToUpper(s[1..])
  }

  lemma ToUpperIdempotent(s: string)
    ensures ToUpper(ToUpper(s)) == ToUpper(s)
  {
    assert forall i :: 0 <= i < |s| ==> UpperChar(UpperChar(s[i])) == UpperChar(s[i]);
  }

  /** Splitting on every comma, keeping every empty piece (`split(",", -1)`). */
  function SplitAll(s: string): (r: seq<string>)
    ensures |r| >= 1
  {
    if |s| == 0 then [""]
    else if s[0] == ',' then [""] + SplitAll(s[1..])
    else
      var rest := SplitAll(s[1..]);
      [[s[0]] + rest[0]] + rest[1..]
  }

  function DropTrailingEmpty(parts: seq<string>): (r: seq<string>)
    ensures |r| <= |parts| && r == parts[..|r|]
    ensures |r| > 0 ==> r[|r| - 1] != ""
    ensures forall i :: |r| <= i < |parts| ==> parts[i] == ""
  {
    if |parts| > 0 && parts[|parts| - 1] == "" then DropTrailingEmpty(parts[..|parts| - 1]) else parts
  }

  /** `String.split(",")`: trailing empty strings are removed, except that an
      empty input yields one empty string. */
  function Split(s: string): seq<string> {
    if s == "" then [""] else DropTrailingEmpty(SplitAll(s))
  }

  /** `String.join(",", parts)`, i.e. `Collectors.joining(",")`. */
  function Join(parts: seq<string>): string {
    if |parts| == 0 then ""
    else if |parts| == 1 then parts[0]
    else parts[0] + "," + Join(parts[1..])
  }

  predicate NoComma(s: string) {
    forall i :: 0 <= i < |s| ==> s[i] != ','
  }

  lemma {:induction false} SplitAllNoComma(p: string)
    requires NoComma(p)
    ensures SplitAll(p) == [p]
  {
    if |p| > 0 {
      SplitAllNoComma(p[1..]);
      assert [p[0]] + p[1..] == p;
    }
  }

  lemma {:induction false} SplitAllCons(p: string, rest: string)
    requires NoComma(p)
    ensures SplitAll(p + "," + rest) == [p] + SplitAll(rest)
  {
    if |p| == 0 {
      assert p + "," + rest == [','] + rest;
      assert (p + "," + rest)[1..] == rest;
    } else {
      var s := p + "," + rest;
      assert s[0] == p[0];
      assert s[1..] == p[1..] + "," + rest;
      SplitAllCons(p[1..], rest);
      assert [p[0]] + p[1..] == p;
    }
  }

  /** Splitting a join of comma-free pieces gives the pieces back. */
  lemma {:induction false} SplitAllJoin(parts: seq<string>)
    requires |parts| >= 1
    requires forall i :: 0 <= i < |parts| ==> NoComma(parts[i])
    ensures SplitAll(Join(parts)) == parts
  {
    if |parts| == 1 {
      SplitAllNoComma(parts[0]);
    } else {
      SplitAllJoin(parts[1..]);
      SplitAllCons(parts[0], Join(parts[1..]));
      assert [parts[0]] + parts[1..] == parts;
    }
  }
}

=== FILE: transfer.dfy ===
/** `TransferUseCase`: one CONFIRMED ORDER debit on a source wallet and one
    CONFIRMED ORDER credit per leg, all under the same reference id. The debit is
    written before any credit; a failing leg rolls the whole transfer back. */
module Transfer {
  import opened Wrappers
  import opened Base
  import opened Monetary
  import opened LedgerEntries
  import opened LedgerEntryFactory
  import opened LedgerRepository
  import opened Wallets
  import opened LedgerStore

  /** `CreditLeg`: a destination wallet and the amount it receives, as given. */
  datatype CreditLeg = CreditLeg(toWalletId: Uuid, amount: Decimal)

  /** `TransferResult`: `reused` marks the idempotent answer, which carries no
      entries. */
  datatype TransferResult = TransferResult(debitEntry: Option<LedgerEntry>, creditEntries: seq<LedgerEntry>, reused: bool)

  /** `TransferResult.idempotent()`. */
  const Reused := TransferResult(None, [], true)

  /** The exact `BigDecimal` sum of the leg amounts, folded from `BigDecimal.ZERO`. */
  function SumLegs(legs: seq<CreditLeg>): Decimal {
    if |legs| == 0 then Decimal(0, 0)
    else DecimalAdd(SumLegs(legs[..|legs| - 1]), legs[|legs| - 1].amount)
  }

  /** What the legs credit once each amount is rounded by `Money.of` on its own. */
  function RoundedSum(legs: seq<CreditLeg>): int {
    if |legs| == 0 then 0
    else RoundedSum(legs[..|legs| - 1]) + SetScale4(legs[|legs| - 1].amount)
  }

  /** The amounts of some entries, in units. */
  function Total(es: seq<LedgerEntry>): nat {
    if |es| == 0 then 0 else Total(es[..|es| - 1]) + es[|es| - 1].amountValue
  }

  /** The credit entry of leg `k` as the loop builds it. */
  predicate IsLegCredit(c: LedgerEntry, leg: CreditLeg, referenceId: string) {
    && c.entryType == CREDIT && c.status == CONFIRMED
    && c.Key() == EntryKey(leg.toWalletId, referenceId, ORDER)
    && c.amountValue == SetScale4(leg.amount)
  }

  /** A leg passes the per-leg checks: its wallet exists and is ACTIVE, and its
      amount makes a `Money` (it is not negative). */
  predicate LegAccepted(s: LedgerState, leg: CreditLeg, currencyCode: string) {
    && FindWallet(s.wallets, leg.toWalletId).Some?
    && FindWallet(s.wallets, leg.toWalletId).value.IsActive()
    && MoneyOf(s.iso, leg.amount, currencyCode).Success?
  }

  /** No two legs credit the same wallet. */
  predicate DistinctTargets(legs: seq<CreditLeg>) {
    forall j, k :: 0 <= j < k < |legs| ==> legs[j].toWalletId != legs[k].toWalletId
  }

  /** One iteration of the loop over the legs, up to the save: the destination
      must exist and be ACTIVE, and the amount must make a `Money`. The credit
      takes the UUID `id` the factory draws for it. */
  function LegCredit(s: LedgerState, leg: CreditLeg, referenceId: string, currencyCode: string,
                     description: string, now: Instant, id: Uuid): (r: Result<LedgerEntry, Error>)
    requires CurrencyOf(s.iso, Some(currencyCode)).Success?
    ensures FindWallet(s.wallets, leg.toWalletId).None? ==> r == Failure(WalletNotFound(leg.toWalletId))
    ensures r.Success? <==> LegAccepted(s, leg, currencyCode)
    ensures r.Success? ==> IsLegCredit(r.value, leg, referenceId) && r.value.id == id
  {
    match FindWallet(s.wallets, leg.toWalletId)
    case None => Failure(WalletNotFound(leg.toWalletId))
    case Some(to) =>
      if !to.IsActive() then Failure(IllegalState(WalletNotActive))
      else
        var amount :- MoneyOf(s.iso, leg.amount, currencyCode);
        Success(CreateCredit(id, EntryArgs(to.id, to.merchantId, to.vendorUserId, amount, Some(ORDER),
                                           Some(referenceId), Some(CONFIRMED), Some(description)), now))
  }

  predicate AllAccepted(s: LedgerState, legs: seq<CreditLeg>, currencyCode: string) {
    forall k :: 0 <= k < |legs| ==> LegAccepted(s, legs[k], currencyCode)
  }

  /** The loop over the legs. The factory has already given each entry its
      UUID, so `save` merges it and JPA holds the INSERT until the flush at
      commit; nothing inside the loop flushes. The loop therefore fails only on
      a leg's own checks, and otherwise collects one credit per leg, the credit
      of leg `k` taking the id `firstId + k`. */
  function CreditLegs(s: LedgerState, legs: seq<CreditLeg>, referenceId: string, currencyCode: string,
                      description: string, now: Instant, firstId: Uuid): (r: Result<seq<LedgerEntry>, Error>)
    requires CurrencyOf(s.iso, Some(currencyCode)).Success?
    ensures r.Success? <==> AllAccepted(s, legs, currencyCode)
    ensures r.Success? ==>
              && |r.value| == |legs|
              && forall k :: 0 <= k < |legs| ==> IsLegCredit(r.value[k], legs[k], referenceId) && r.value[k].id == firstId + k
    decreases |legs|
  {
    if |legs| == 0 then Success([])
    else
      var c := LegCredit(s, legs[0], referenceId, currencyCode, description, now, firstId);
      var rest := CreditLegs(s, legs[1..], referenceId, currencyCode, description, now, firstId + 1);
      AcceptedCons(s, legs, currencyCode);
      if c.Failure? then Failure(c.error)
      else if rest.Failure? then Failure(rest.error)
      else
        ConsLegCredits(c.value, rest.value, legs, referenceId, firstId);
        Success([c.value] + rest.value)
  }

  /** All legs pass exactly when the first does and all the others do. */
  lemma AcceptedCons(s: LedgerState, legs: seq<CreditLeg>, currencyCode: string)
    requires |legs| > 0
    ensures AllAccepted(s, legs, currencyCode) <==>
              LegAccepted(s, legs[0], currencyCode) && AllAccepted(s, legs[1..], currencyCode)
  {
    assert forall k :: 0 < k < |legs| ==> legs[k] == legs[1..][k - 1];
  }

  /** The credit of the first leg and those of the others line up with all the legs. */
  lemma ConsLegCredits(c: LedgerEntry, rest: seq<LedgerEntry>, legs: seq<CreditLeg>, referenceId: string, firstId: Uuid)
    requires |legs| > 0 && |rest| == |legs| - 1
    requires IsLegCredit(c, legs[0], referenceId) && c.id == firstId
    requires forall k :: 0 <= k < |rest| ==> IsLegCredit(rest[k], legs[1..][k], referenceId) && rest[k].id == firstId + 1 + k
    ensures forall k :: 0 <= k < |legs| ==> IsLegCredit(([c] + rest)[k], legs[k], referenceId) && ([c] + rest)[k].id == firstId + k
  {
    forall k | 0 <= k < |legs|
      ensures IsLegCredit(([c] + rest)[k], legs[k], referenceId) && ([c] + rest)[k].id == firstId + k
    {
      if k > 0 { assert ([c] + rest)[k] == rest[k - 1] && legs[k] == legs[1..][k - 1]; }
    }
  }

  /** The loop reports the first refused leg: when every leg before leg `k`
      passes and leg `k` does not, the loop fails with leg `k`'s own error,
      whatever the legs after it would do. */
  lemma {:induction false} RefusedLegFailsLoop(s: LedgerState, legs: seq<CreditLeg>, referenceId: string, currencyCode: string,
                                               description: string, now: Instant, firstId: Uuid, k: nat)
    requires CurrencyOf(s.iso, Some(currencyCode)).Success?
    requires k < |legs| && AllAccepted(s, legs[..k], currencyCode) && !LegAccepted(s, legs[k], currencyCode)
    ensures CreditLegs(s, legs, referenceId, currencyCode, description, now, firstId) ==
              Failure(LegCredit(s, legs[k], referenceId, currencyCode, description, now, firstId + k).error)
    decreases k
  {
    if k > 0 {
      assert legs[..k][0] == legs[0];
      var tail := legs[1..][..k - 1];
      forall j | 0 <= j < |tail|
        ensures LegAccepted(s, tail[j], currencyCode)
      {
        assert tail[j] == legs[..k][j + 1];
      }
      assert legs[1..][k - 1] == legs[k];
      RefusedLegFailsLoop(s, legs[1..], referenceId, currencyCode, description, now, firstId + 1, k - 1);
    }
  }

  /** The key leg credits are saved under. */
  function LegKey(leg: CreditLeg, referenceId: string): EntryKey {
    EntryKey(leg.toWalletId, referenceId, ORDER)
  }

  /** No entry holds `key`. */
  predicate KeyFree(es: seq<LedgerEntry>, key: EntryKey) {
    forall i :: 0 <= i < |es| ==> es[i].Key() != key
  }

  predicate AllKeysFree(es: seq<LedgerEntry>, legs: seq<CreditLeg>, referenceId: string) {
    forall k :: 0 <= k < |legs| ==> KeyFree(es, LegKey(legs[k], referenceId))
  }

  /** No entry of `batch` meets its key on a stored entry or on an earlier entry
      of the batch. */
  predicate BatchFree(es: seq<LedgerEntry>, batch: seq<LedgerEntry>) {
    forall k :: 0 <= k < |batch| ==> KeyFree(es + batch[..k], batch[k].Key())
  }

  /** A batch is free exactly when its first entry's key is, and the rest is
      free of the stored entries and that first one. */
  lemma BatchFreeCons(es: seq<LedgerEntry>, batch: seq<LedgerEntry>)
    requires |batch| > 0
    ensures BatchFree(es, batch) <==> KeyFree(es, batch[0].Key()) && BatchFree(es + [batch[0]], batch[1..])
  {
    assert batch[..0] == [];
    assert es + batch[..0] == es;
    forall k | 0 < k < |batch|
      ensures es + batch[..k] == (es + [batch[0]]) + batch[1..][..k - 1] && batch[k] == batch[1..][k - 1]
    {
      assert batch[..k] == [batch[0]] + batch[1..][..k - 1];
    }
  }

  /** The flush at commit: the pending INSERTs run in the order the entries were
      saved, and the first whose key is taken, by a stored entry or an earlier
      pending one, fails the commit with `DataIntegrityViolation`, rolling the
      whole transaction back. */
  function Flush(s: LedgerState, batch: seq<LedgerEntry>): (r: Result<LedgerState, Error>)
    ensures r.Success? <==> BatchFree(s.entries, batch)
    ensures r.Failure? ==> r.error == DataIntegrityViolation
    ensures r.Success? ==> r.value == s.(entries := s.entries + batch)
    decreases |batch|
  {
    if |batch| == 0 then Success(s)
    else
      BatchFreeCons(s.entries, batch);
      var s1 := InsertEntry(s, batch[0]);
      if s1.Failure? then Failure(s1.error)
      else
        assert s1.value.entries + batch[1..] == s.entries + batch;
        Flush(s1.value, batch[1..])
  }

  /** The flush keeps the ledger valid when the batch's ids run on from `base`,
      above every stored entry's id and below `nextId`. */
  lemma {:induction false} FlushKeepsValid(s: LedgerState, batch: seq<LedgerEntry>, base: Uuid)
    requires Valid(s) && Flush(s, batch).Success?
    requires forall i :: 0 <= i < |s.entries| ==> s.entries[i].id < base
    requires forall k :: 0 <= k < |batch| ==> batch[k].id == base + k
    requires base + |batch| <= s.nextId
    ensures Valid(Flush(s, batch).value)
    decreases |batch|
  {
    if |batch| > 0 {
      var s1 := InsertEntry(s, batch[0]).value;
      assert forall i :: 0 <= i < |s1.entries| ==> s1.entries[i].id < base + 1 by {
        assert s1.entries == s.entries + [batch[0]];
      }
      FlushKeepsValid(s1, batch[1..], base + 1);
    }
  }

  /** The credits of the legs are free of some entries exactly when no two legs
      share a wallet and none of the entries holds a leg's key. */
  lemma LegBatchFree(es: seq<LedgerEntry>, cs: seq<LedgerEntry>, legs: seq<CreditLeg>, referenceId: string)
    requires |cs| == |legs|
    requires forall k :: 0 <= k < |legs| ==> IsLegCredit(cs[k], legs[k], referenceId)
    ensures BatchFree(es, cs) <==> DistinctTargets(legs) && AllKeysFree(es, legs, referenceId)
  {
    forall k | 0 <= k < |cs|
      ensures KeyFree(es + cs[..k], cs[k].Key()) <==>
                KeyFree(es, LegKey(legs[k], referenceId)) && forall j :: 0 <= j < k ==> legs[j].toWalletId != legs[k].toWalletId
    {
      assert forall i :: 0 <= i < |es| ==> (es + cs[..k])[i] == es[i];
      assert forall j :: 0 <= j < k ==> (es + cs[..k])[|es| + j] == cs[j];
    }
  }

  /** The credits are free of the stored entries and the source's debit exactly
      when they are free of the stored entries and no leg credits the source. */
  lemma DebitKeyApart(es: seq<LedgerEntry>, d: LedgerEntry, legs: seq<CreditLeg>, referenceId: string)
    requires d.Key() == EntryKey(d.walletId, referenceId, ORDER)
    ensures AllKeysFree(es + [d], legs, referenceId) <==>
              AllKeysFree(es, legs, referenceId) && forall k :: 0 <= k < |legs| ==> legs[k].toWalletId != d.walletId
  {
    assert (es + [d])[|es|] == d;
    assert forall i :: 0 <= i < |es| ==> (es + [d])[i] == es[i];
  }

  /** The credits of the legs add up to the legs' rounded amounts. */
  lemma {:induction false} TotalOfLegCredits(cs: seq<LedgerEntry>, legs: seq<CreditLeg>, referenceId: string)
    requires |cs| == |legs|
    requires forall k :: 0 <= k < |legs| ==> IsLegCredit(cs[k], legs[k], referenceId)
    ensures Total(cs) == RoundedSum(legs)
  {
    if |legs| > 0 {
      var n := |legs| - 1;
      TotalOfLegCredits(cs[..n], legs[..n], referenceId);
    }
  }

  /** The part of `execute` from the idempotency lookup on: the existing ORDER
      DEBIT of the source for this reference makes the call a no-op; otherwise the
      confirmed balance must cover the total (compared exactly), the total is
      debited, and the legs are credited. */
  function Settle(s: LedgerState, from: Wallet, referenceId: string, currencyCode: string,
                  totalDebit: Decimal, legs: seq<CreditLeg>, description: Option<string>, now: Instant)
    : (r: Result<(LedgerState, TransferResult), Error>)
    ensures var existing := FindByKey(s.entries, EntryKey(from.id, referenceId, ORDER));
            existing.Some? && existing.value.entryType == DEBIT ==> r == Success((s, Reused))
    ensures var existing := FindByKey(s.entries, EntryKey(from.id, referenceId, ORDER));
            !(existing.Some? && existing.value.entryType == DEBIT) && Compare(FromUnits(Balance(s, from.id)), totalDebit) < 0 ==>
              r == Failure(InsufficientBalance(from.id))
    ensures r.Success? && r.value.1.reused ==> r.value == (s, Reused)
    ensures r.Success? && !r.value.1.reused ==> Settled(s, r.value.0, r.value.1, from, referenceId, totalDebit, legs)
    ensures r.Success? ==> Evolves(s.entries, r.value.0.entries)
    ensures r.Success? && Valid(s) ==> Valid(r.value.0)
  {
    var key := EntryKey(from.id, referenceId, ORDER);
    var existing := FindByKey(s.entries, key);
    if existing.Some? && existing.value.entryType == DEBIT then Success((s, Reused))
    else if Compare(FromUnits(Balance(s, from.id)), totalDebit) < 0 then Failure(InsufficientBalance(from.id))
    else DebitThenCredit(s, from, referenceId, currencyCode, totalDebit, legs, description, now)
  }

  /** What a settled (not reused) transfer wrote: one confirmed debit of the
      rounded total on the source, then one credit per leg, and the balances
      that follow from them. */
  ghost predicate Settled(s: LedgerState, s': LedgerState, t: TransferResult, from: Wallet, referenceId: string,
                    totalDebit: Decimal, legs: seq<CreditLeg>)
  {
    && t.debitEntry.Some?
    && var d := t.debitEntry.value;
    && s'.entries == s.entries + [d] + t.creditEntries
    && d.entryType == DEBIT && d.status == CONFIRMED
    && d.Key() == EntryKey(from.id, referenceId, ORDER)
    && totalDebit.unscaled >= 0 && d.amountValue == SetScale4(totalDebit)
    && |t.creditEntries| == |legs|
    && (forall k :: 0 <= k < |legs| ==> IsLegCredit(t.creditEntries[k], legs[k], referenceId))
    && Total(t.creditEntries) == RoundedSum(legs)
    && s'.wallets == s.wallets && s'.users == s.users && s'.outbox == s.outbox && s'.iso == s.iso
    && Balance(s', from.id) == Balance(s, from.id) - d.amountValue >= 0
    && (forall w :: w != from.id ==> Balance(s', w) == Balance(s, w) + ComputeBalance(t.creditEntries, w))
  }

  /** The debit a covered transfer writes on its source, under the UUID `id`. */
  function SourceDebit(from: Wallet, total: Money, referenceId: string, desc: string, now: Instant, id: Uuid): (d: LedgerEntry)
    ensures d.entryType == DEBIT && d.status == CONFIRMED && d.id == id
    ensures d.walletId == from.id && d.Key() == EntryKey(from.id, referenceId, ORDER) && d.amountValue == total.amount
  {
    CreateDebit(id, EntryArgs(from.id, from.merchantId, from.vendorUserId, total, Some(ORDER),
                              Some(referenceId), Some(CONFIRMED), Some(desc)), now)
  }

  /** The writes of a transfer the balance covers. The debit and then one credit
      per leg are saved under fresh UUIDs; their INSERTs wait for the commit, so
      a refused leg is reported before any key clash, and a clash, with a stored
      entry or within the transfer, surfaces only at the commit. The transfer is
      written exactly when the total makes a `Money`, every leg passes its
      checks, no two legs share a wallet, no leg credits the source, and no
      stored entry holds the debit's key or a leg's key. */
  function DebitThenCredit(s: LedgerState, from: Wallet, referenceId: string, currencyCode: string,
                           totalDebit: Decimal, legs: seq<CreditLeg>, description: Option<string>, now: Instant)
    : (r: Result<(LedgerState, TransferResult), Error>)
    requires Compare(FromUnits(Balance(s, from.id)), totalDebit) >= 0
    ensures r.Success? <==>
              && MoneyOf(s.iso, totalDebit, currencyCode).Success?
              && AllAccepted(s, legs, currencyCode)
              && DistinctTargets(legs)
              && (forall k :: 0 <= k < |legs| ==> legs[k].toWalletId != from.id)
              && KeyFree(s.entries, EntryKey(from.id, referenceId, ORDER))
              && AllKeysFree(s.entries, legs, referenceId)
    ensures r.Failure? && MoneyOf(s.iso, totalDebit, currencyCode).Success? && AllAccepted(s, legs, currencyCode) ==>
              r.error == DataIntegrityViolation
    ensures r.Success? ==> !r.value.1.reused && Settled(s, r.value.0, r.value.1, from, referenceId, totalDebit, legs)
    ensures r.Success? ==> Evolves(s.entries, r.value.0.entries)
    ensures r.Success? && Valid(s) ==> Valid(r.value.0)
  {
    var total := MoneyOf(s.iso, totalDebit, currencyCode);
    if total.Failure? then Failure(total.error)
    else
      var desc := description.GetOr("Transfer " + referenceId);
      var d := SourceDebit(from, total.value, referenceId, desc, now, s.nextId);
      var cs := CreditLegs(s, legs, referenceId, currencyCode, desc, now, s.nextId + 1);
      if cs.Failure? then Failure(cs.error)
      else
        var pending := s.(nextId := s.nextId + 1 + |legs|);
        var flushed := Flush(pending, [d] + cs.value);
        TransferBatchFree(s.entries, d, cs.value, legs, referenceId);
        if flushed.Failure? then Failure(flushed.error)
        else
          var s' := flushed.value;
          assert s'.entries == s.entries + [d] + cs.value;
          EvolvesByAppend(s.entries, [d] + cs.value);
          assert Valid(s) ==> Valid(s') by {
            if Valid(s) {
              FlushKeepsValid(pending, [d] + cs.value, s.nextId);
            }
          }
          SettleEffects(s, s.(entries := s.entries + [d]), s', d, cs.value, legs, referenceId, totalDebit);
          Success((s', TransferResult(Some(d), cs.value, false)))
  }

  /** The deferred INSERTs put a refused leg ahead of any key clash: when the
      total makes a `Money`, every leg before leg `k` passes and leg `k` does
      not, a covered transfer fails with leg `k`'s own error (an unknown wallet
      with `WalletNotFound`), whatever keys the debit and the credits would take. */
  lemma RefusedLegBeforeClash(s: LedgerState, from: Wallet, referenceId: string, currencyCode: string,
                              totalDebit: Decimal, legs: seq<CreditLeg>, description: Option<string>, now: Instant, k: nat)
    requires Compare(FromUnits(Balance(s, from.id)), totalDebit) >= 0
    requires MoneyOf(s.iso, totalDebit, currencyCode).Success?
    requires k < |legs| && AllAccepted(s, legs[..k], currencyCode) && !LegAccepted(s, legs[k], currencyCode)
    ensures var r := DebitThenCredit(s, from, referenceId, currencyCode, totalDebit, legs, description, now);
            && r.Failure? && r.error != DataIntegrityViolation
            && (FindWallet(s.wallets, legs[k].toWalletId).None? ==> r.error == WalletNotFound(legs[k].toWalletId))
  {
    var desc := description.GetOr("Transfer " + referenceId);
    RefusedLegFailsLoop(s, legs, referenceId, currencyCode, desc, now, s.nextId + 1, k);
  }

  /** The debit and the credits are free of the stored entries exactly when the
      debit's key is free, no two legs share a wallet, no leg credits the
      source, and no leg's key is taken. */
  lemma TransferBatchFree(es: seq<LedgerEntry>, d: LedgerEntry, cs: seq<LedgerEntry>, legs: seq<CreditLeg>, referenceId: string)
    requires d.Key() == EntryKey(d.walletId, referenceId, ORDER)
    requires |cs| == |legs|
    requires forall k :: 0 <= k < |legs| ==> IsLegCredit(cs[k], legs[k], referenceId)
    ensures BatchFree(es, [d] + cs) <==>
              && KeyFree(es, d.Key())
              && DistinctTargets(legs)
              && (forall k :: 0 <= k < |legs| ==> legs[k].toWalletId != d.walletId)
              && AllKeysFree(es, legs, referenceId)
  {
    BatchFreeCons(es, [d] + cs);
    assert ([d] + cs)[1..] == cs;
    LegBatchFree(es + [d], cs, legs, referenceId);
    DebitKeyApart(es, d, legs, referenceId);
  }

  /** The balances after a settled transfer: the source loses the debit and only
      the legs' wallets gain. No leg can credit the source, whose key the debit
      already holds. */
  lemma SettleEffects(s: LedgerState, s2: LedgerState, s3: LedgerState, d: LedgerEntry, cs: seq<LedgerEntry>,
                      legs: seq<CreditLeg>, referenceId: string, totalDebit: Decimal)
    requires totalDebit.unscaled >= 0 && Compare(FromUnits(Balance(s, d.walletId)), totalDebit) >= 0
    requires d.entryType == DEBIT && d.status == CONFIRMED && d.amountValue == SetScale4(totalDebit)
    requires d.Key() == EntryKey(d.walletId, referenceId, ORDER)
    requires s2.entries == s.entries + [d]
    requires s3.entries == s2.entries + cs
    requires |cs| == |legs|
    requires forall k :: 0 <= k < |legs| ==> IsLegCredit(cs[k], legs[k], referenceId)
    requires forall k :: 0 <= k < |cs| ==> KeyFree(s2.entries, cs[k].Key())
    ensures Total(cs) == RoundedSum(legs)
    ensures Balance(s3, d.walletId) == Balance(s, d.walletId) - d.amountValue >= 0
    ensures forall w :: w != d.walletId ==> Balance(s3, w) == Balance(s, w) + ComputeBalance(cs, w)
  {
    TotalOfLegCredits(cs, legs, referenceId);
    RoundedNotAbove(Balance(s, d.walletId), totalDebit);
    forall k | 0 <= k < |cs|
      ensures cs[k].walletId != d.walletId
    {
      assert s2.entries[|s.entries|] == d;
    }
    BalanceOfOtherWallets(cs, d.walletId);
    forall w ensures Balance(s3, w) == Balance(s, w) + d.Contribution(w) + ComputeBalance(cs, w) {
      BalanceAppend(s.entries, d, w);
      BalanceConcat(s2.entries, cs, w);
    }
  }

  /** `execute`: the source wallet must exist and be ACTIVE, and the exact sum of
      the leg amounts must equal the total before anything else is looked at. */
  function Execute(s: LedgerState, fromWalletId: Uuid, referenceId: string, currencyCode: string,
                   totalDebit: Decimal, legs: seq<CreditLeg>, description: Option<string>, now: Instant)
    : (r: Result<(LedgerState, TransferResult), Error>)
    ensures FindWallet(s.wallets, fromWalletId).None? ==> r == Failure(WalletNotFound(fromWalletId))
    ensures FindWallet(s.wallets, fromWalletId).Some? && !FindWallet(s.wallets, fromWalletId).value.IsActive() ==>
              r == Failure(IllegalState(WalletNotActive))
    ensures FindWallet(s.wallets, fromWalletId).Some? && FindWallet(s.wallets, fromWalletId).value.IsActive() ==>
              r == if Compare(totalDebit, SumLegs(legs)) != 0 then Failure(IllegalArgument(TotalMismatch))
                   else Settle(s, FindWallet(s.wallets, fromWalletId).value, referenceId, currencyCode, totalDebit, legs, description, now)
    ensures r.Success? ==> Evolves(s.entries, r.value.0.entries)
    ensures r.Success? && Valid(s) ==> Valid(r.value.0)
  {
    match FindWallet(s.wallets, fromWalletId)
    case None => Failure(WalletNotFound(fromWalletId))
    case Some(from) =>
      if !from.IsActive() then Failure(IllegalState(WalletNotActive))
      else if Compare(totalDebit, SumLegs(legs)) != 0 then Failure(IllegalArgument(TotalMismatch))
      else Settle(s, from, referenceId, currencyCode, totalDebit, legs, description, now)
  }

  /** When the total and every leg have at most four decimals nothing is rounded,
      and a transfer moves money without creating or destroying any: the debit
      equals the sum of the credits. */
  lemma ExactTransferConserves(s: LedgerState, fromWalletId: Uuid, referenceId: string, currencyCode: string,
                               totalDebit: Decimal, legs: seq<CreditLeg>, description: Option<string>, now: Instant)
    requires totalDebit.scale <= Scale
    requires forall k :: 0 <= k < |legs| ==> legs[k].amount.scale <= Scale
    requires Execute(s, fromWalletId, referenceId, currencyCode, totalDebit, legs, description, now).Success?
    requires !Execute(s, fromWalletId, referenceId, currencyCode, totalDebit, legs, description, now).value.1.reused
    ensures var t := Execute(s, fromWalletId, referenceId, currencyCode, totalDebit, legs, description, now).value.1;
            t.debitEntry.Some? && t.debitEntry.value.amountValue == Total(t.creditEntries)
  {
    SumLegsExact(legs);
    CompareExact(totalDebit, SumLegs(legs));
  }

  /** For legs of at most four decimals the exact sum rounds to the rounded sum. */
  lemma {:induction false} SumLegsExact(legs: seq<CreditLeg>)
    requires forall k :: 0 <= k < |legs| ==> legs[k].amount.scale <= Scale
    ensures SumLegs(legs).scale <= Scale
    ensures SetScale4(SumLegs(legs)) == RoundedSum(legs)
  {
    if |legs| > 0 {
      var n := |legs| - 1;
      SumLegsExact(legs[..n]);
      SetScale4Add(SumLegs(legs[..n]), legs[n].amount);
    }
  }
}

=== FILE: update_wallet_status.dfy ===
/** `UpdateWalletStatusUseCase`: sets a wallet's status, which decides whether
    money may move through it. */
module UpdateWalletStatus {
  import opened Wrappers
  import opened Base
  import opened Monetary
  import opened Wallets
  import opened LedgerStore
  import CreditWallet
  import DebitWallet

  /** `execute`: any status may be set, from any status. */
  function Execute(s: LedgerState, walletId: Uuid, status: WalletStatus, now: Instant): (r: Result<(LedgerState, Wallet), Error>)
    ensures FindWallet(s.wallets, walletId).None? <==> r == Failure(WalletNotFound(walletId))
    ensures r.Success? ==>
              var (s', w) := r.value;
              && w == FindWallet(s.wallets, walletId).value.(status := status, updatedAt := now)
              && FindWallet(s'.wallets, walletId) == Some(w)
              && (forall id :: id != walletId ==> FindWallet(s'.wallets, id) == FindWallet(s.wallets, id))
              && s' == s.(wallets := s'.wallets)
    ensures r.Success? && Valid(s) ==> Valid(r.value.0)
  {
    match FindWalletIndex(s.wallets, walletId)
    case None => Failure(WalletNotFound(walletId))
    case Some(i) =>
      FindWalletAtIndex(s.wallets, walletId);
      var w := s.wallets[i].(status := status, updatedAt := now);
      FindWalletUpdate(s.wallets, i, w, walletId);
      assert forall id :: id != walletId ==> FindWallet(s.wallets[i := w], id) == FindWallet(s.wallets, id) by {
        forall id | id != walletId
          ensures FindWallet(s.wallets[i := w], id) == FindWallet(s.wallets, id)
        {
          FindWalletUpdate(s.wallets, i, w, id);
        }
      }
      Success((UpdateWallet(s, i, w), w))
  }

  /** A wallet that is not set ACTIVE accepts neither credits nor debits. */
  lemma InactiveRefusesMovements(s: LedgerState, walletId: Uuid, status: WalletStatus, now: Instant,
                                 amount: Money, referenceType: Option<LedgerEntries.ReferenceType>,
                                 referenceId: string, description: Option<string>)
    requires status != ACTIVE
    requires Execute(s, walletId, status, now).Success?
    ensures var s' := Execute(s, walletId, status, now).value.0;
            && CreditWallet.Execute(s', walletId, amount, referenceType, referenceId, description, now)
               == Failure(IllegalState(WalletNotActive))
            && DebitWallet.Execute(s', walletId, amount, referenceType, referenceId, description, now)
               == Failure(IllegalState(WalletNotActive))
  {
  }
}

=== FILE: user.dfy ===
/** The `User` aggregate: credentials, roles and the merchant link. Columns that
    the builder may leave null are `Option`s until `ensureDefaults` fills them. */
module Users {
  import opened Wrappers
  import opened Base

  /** Declaration order of the Java enum: MERCHANT, VENDOR, ADMIN, SYSTEM. */
  datatype Role = MERCHANT | VENDOR | ADMIN | SYSTEM

  /** Only ACTIVE is named by the code; any other status is inactive. */
  datatype UserStatus = ACTIVE | INACTIVE

  datatype User = User(
    id: Option<Uuid>,
    username: string,
    passwordHash: string,
    roles: Option<set<Role>>,
    merchantId: Option<Uuid>,
    status: Option<UserStatus>,
    createdAt: Option<Instant>,
    updatedAt: Option<Instant>)
  {
    /** `isActive`. */
    predicate IsActive() {
      status == Some(ACTIVE)
    }

    /** `hasRole`: a null role set holds no role. */
    predicate HasRole(role: Role) {
      roles.Some? && role in roles.value
    }

    /** No column is null any more. */
    predicate Complete() {
      id.Some? && roles.Some? && status.Some? && createdAt.Some? && updatedAt.Some?
    }
  }

  /** `ensureDefaults`: a fresh id, an empty role set, ACTIVE and the current
      instant, each only where the field is null. */
  function EnsureDefaults(u: User, freshId: Uuid, now: Instant): (r: User)
    ensures r.Complete()
    ensures u.id.Some? ==> r.id == u.id
    ensures u.roles.Some? ==> r.roles == u.roles
    ensures u.status.Some? ==> r.status == u.status
    ensures u.createdAt.Some? ==> r.createdAt == u.createdAt
    ensures u.updatedAt.Some? ==> r.updatedAt == u.updatedAt
    ensures u.roles.None? ==> r.roles == Some({})
    ensures u.status.None? ==> r.status == Some(ACTIVE)
    ensures r.username == u.username && r.passwordHash == u.passwordHash && r.merchantId == u.merchantId
  {
    User(
      if u.id.Some? then u.id else Some(freshId),
      u.username, u.passwordHash,
      if u.roles.Some? then u.roles else Some({}),
      u.merchantId,
      if u.status.Some? then u.status else Some(ACTIVE),
      if u.createdAt.Some? then u.createdAt else Some(now),
      if u.updatedAt.Some? then u.updatedAt else Some(now))
  }

  /** Filling defaults a second time changes nothing, whatever id and instant it is
      given; and a complete user is left as it is. */
  lemma EnsureDefaultsIdempotent(u: User, id1: Uuid, now1: Instant, id2: Uuid, now2: Instant)
    ensures EnsureDefaults(EnsureDefaults(u, id1, now1), id2, now2) == EnsureDefaults(u, id1, now1)
    ensures u.Complete() ==> EnsureDefaults(u, id2, now2) == u
  {
  }

  /** A user whose roles were never set holds no role, and neither does one whose
      defaults gave it the empty set. */
  lemma NoRolesNoRole(u: User, role: Role, id: Uuid, now: Instant)
    requires u.roles.None?
    ensures !u.HasRole(role) && !EnsureDefaults(u, id, now).HasRole(role)
  {
  }
}

=== FILE: wallet.dfy ===
/** The `Wallet` aggregate. It stores no balance: the balance is always derived
    from the ledger and only checked against the wallet's currency here. */
module Wallets {
  import opened Wrappers
  import opened Base
  import opened Monetary

  datatype WalletType = MAIN | ESCROW | VENDOR

  /** Only ACTIVE wallets accept money movements. */
  datatype WalletStatus = ACTIVE | FROZEN | SUSPENDED | CLOSED

  /** The unique constraint `uk_wallets_merchant_currency_type_vendor`. The stored
      wallet type may be null (legacy rows), so it is kept as an `Option`. */
  datatype WalletKey = WalletKey(
    merchantId: Uuid, currencyCode: string, walletType: Option<WalletType>, vendorUserId: Option<Uuid>)

  datatype Wallet = Wallet(
    id: Uuid,
    merchantId: Uuid,
    walletType: Option<WalletType>,
    vendorUserId: Option<Uuid>,
    currencyCode: string,
    status: WalletStatus,
    createdAt: Instant,
    updatedAt: Instant)
  {
    function Key(): WalletKey {
      WalletKey(merchantId, currencyCode, walletType, vendorUserId)
    }

    /** `getWalletType`: a null stored type reads as MAIN. */
    function GetWalletType(): (t: WalletType)
      ensures walletType.Some? ==> t == walletType.value
      ensures walletType.None? ==> t == MAIN
    {
      walletType.GetOr(MAIN)
    }

    /** `getCurrency`: the stored code goes through `Currency.of` on every read. */
    function GetCurrency(iso: set<string>): Result<Currency, Error> {
      CurrencyOf(iso, Some(currencyCode))
    }

    /** `balance(computed)`: the computed balance is returned unchanged when it is in
        the wallet's currency; any other currency is refused. */
    function Balance(iso: set<string>, computed: Money): (r: Result<Money, Error>)
      ensures r.Success? <==> GetCurrency(iso) == Success(computed.currency)
      ensures r.Success? ==> r.value == computed
      ensures GetCurrency(iso).Success? && GetCurrency(iso).value != computed.currency ==>
                r == Failure(IllegalArgument(CurrencyMismatch))
    {
      var c :- GetCurrency(iso);
      if c != computed.currency then Failure(IllegalArgument(CurrencyMismatch)) else Success(computed)
    }

    /** `isActive`: FROZEN, SUSPENDED and CLOSED wallets are all inactive. */
    predicate IsActive() {
      status == ACTIVE
    }
  }
}

=== FILE: wallet_controller.dfy ===
/** The money-moving endpoints of `WalletController`: credit, debit, reserve and
    transfer, each wrapped in the idempotency store. A cached key answers 200 with
    the stored body and runs nothing; a fresh key runs the use case and caches
    its response only after success, answering 201. */
module WalletController {
  import opened Wrappers
  import opened Base
  import opened Monetary
  import Text
  import opened LedgerEntries
  import opened Users
  import opened LedgerStore
  import opened IdempotencyStore
  import CreditWallet
  import DebitWallet
  import ReserveWallet
  import Transfer
  import Findings
  import GetWallet

  /** `MoneyMovementRequest`; the reference type is the raw name, if any. */
  datatype MoneyMovementRequest = MoneyMovementRequest(amount: Decimal, currencyCode: string, referenceId: string,
                                                       referenceType: Option<string>, description: Option<string>)

  /** `TransferRequest`, with its legs already mapped to `TransferUseCase.CreditLeg`. */
  datatype TransferRequest = TransferRequest(fromWalletId: Uuid, referenceId: string, currencyCode: string,
                                             totalAmount: Decimal, creditLegs: seq<Transfer.CreditLeg>,
                                             description: Option<string>)

  /** `ReferenceType.name()`. */
  function RefTypeName(t: ReferenceType): string {
    match t
    case ORDER => "ORDER"
    case PAYOUT => "PAYOUT"
    case REFUND => "REFUND"
    case REVERSAL => "REVERSAL"
  }

  /** `ReferenceType.valueOf`: exact, case-sensitive match on a constant's name. */
  function RefTypeValueOf(name: string): (r: Result<ReferenceType, Error>)
    ensures r.Success? ==> RefTypeName(r.value) == name
    ensures r.Failure? ==> r.error == IllegalArgument(UnknownEnumName) && forall t :: RefTypeName(t) != name
  {
    if name == "ORDER" then Success(ORDER)
    else if name == "PAYOUT" then Success(PAYOUT)
    else if name == "REFUND" then Success(REFUND)
    else if name == "REVERSAL" then Success(REVERSAL)
    else Failure(IllegalArgument(UnknownEnumName))
  }

  /** The reference type of a credit or debit request: ORDER when absent,
      otherwise the constant named by the upper-cased text. */
  function RequestedRefType(name: Option<string>): (r: Result<ReferenceType, Error>)
    ensures name.None? ==> r == Success(ORDER)
    ensures name.Some? ==> (r.Success? <==> exists t :: RefTypeName(t) == Text.ToUpper(name.value))
    ensures name.Some? && r.Success? ==> RefTypeName(r.value) == Text.ToUpper(name.value)
  {
    if name.None? then Success(ORDER)
    else
      var r := RefTypeValueOf(Text.ToUpper(name.value));
      assert r.Success? ==> RefTypeName(r.value) == Text.ToUpper(name.value);
      r
  }

  /** Any constant's own name is accepted. */
  lemma RequestedRefTypeOfName(t: ReferenceType)
    ensures RequestedRefType(Some(RefTypeName(t))) == Success(t)
  {
    var n := RefTypeName(t);
    assert Text.ToUpper(n) == n by {
      assert forall i :: 0 <= i < |n| ==> 'A' <= n[i] <= 'Z';
      assert forall i :: 0 <= i < |n| ==> Text.UpperChar(n[i]) == n[i];
    }
  }

  /** The response body of a transfer: a reused transfer maps to the idempotent
      response, with no debit and no credits. */
  function ToTransferResponse(t: Transfer.TransferResult): (r: TransferResponse)
    ensures r.idempotent == t.reused
    ensures t.reused ==> r.debitEntry.None? && r.creditEntries == []
    ensures !t.reused ==> r.debitEntry == t.debitEntry && r.creditEntries == t.creditEntries
  {
    if t.reused then TransferResponse(None, [], true)
    else TransferResponse(t.debitEntry, t.creditEntries, false)
  }

  /** `creditWallet`. */
  function Credit(srv: Server, walletId: Uuid, key: string, req: MoneyMovementRequest, now: Instant)
    : (r: Result<(Server, Response), Error>)
    ensures key in srv.cache ==> r == Success((srv, Response(Ok, srv.cache[key])))
    ensures key !in srv.cache ==>
              (r.Success? <==>
                 && MoneyOf(srv.ledger.iso, req.amount, req.currencyCode).Success?
                 && RequestedRefType(req.referenceType).Success?
                 && CreditWallet.Execute(srv.ledger, walletId, MoneyOf(srv.ledger.iso, req.amount, req.currencyCode).value,
                                         Some(RequestedRefType(req.referenceType).value), req.referenceId, req.description, now).Success?)
    ensures key !in srv.cache && r.Success? ==>
              var (s', e) := CreditWallet.Execute(srv.ledger, walletId, MoneyOf(srv.ledger.iso, req.amount, req.currencyCode).value,
                                                  Some(RequestedRefType(req.referenceType).value), req.referenceId, req.description, now).value;
              r.value == (Server(s', Put(srv.cache, key, EntryBody(e))), Response(Created, EntryBody(e)))
  {
    match GetIfPresent(srv.cache, key)
    case Some(cached) => Success((srv, Response(Ok, cached)))
    case None =>
      var amount :- MoneyOf(srv.ledger.iso, req.amount, req.currencyCode);
      var refType :- RequestedRefType(req.referenceType);
      var done :- CreditWallet.Execute(srv.ledger, walletId, amount, Some(refType), req.referenceId, req.description, now);
      Success((Server(done.0, Put(srv.cache, key, EntryBody(done.1))), Response(Created, EntryBody(done.1))))
  }

  /** `debitWallet`. */
  function Debit(srv: Server, walletId: Uuid, key: string, req: MoneyMovementRequest, now: Instant)
    : (r: Result<(Server, Response), Error>)
    ensures key in srv.cache ==> r == Success((srv, Response(Ok, srv.cache[key])))
    ensures key !in srv.cache ==>
              (r.Success? <==>
                 && MoneyOf(srv.ledger.iso, req.amount, req.currencyCode).Success?
                 && RequestedRefType(req.referenceType).Success?
                 && DebitWallet.Execute(srv.ledger, walletId, MoneyOf(srv.ledger.iso, req.amount, req.currencyCode).value,
                                        Some(RequestedRefType(req.referenceType).value), req.referenceId, req.description, now).Success?)
    ensures key !in srv.cache && r.Success? ==>
              var (s', e) := DebitWallet.Execute(srv.ledger, walletId, MoneyOf(srv.ledger.iso, req.amount, req.currencyCode).value,
                                                 Some(RequestedRefType(req.referenceType).value), req.referenceId, req.description, now).value;
              r.value == (Server(s', Put(srv.cache, key, EntryBody(e))), Response(Created, EntryBody(e)))
  {
    match GetIfPresent(srv.cache, key)
    case Some(cached) => Success((srv, Response(Ok, cached)))
    case None =>
      var amount :- MoneyOf(srv.ledger.iso, req.amount, req.currencyCode);
      var refType :- RequestedRefType(req.referenceType);
      var done :- DebitWallet.Execute(srv.ledger, walletId, amount, Some(refType), req.referenceId, req.description, now);
      Success((Server(done.0, Put(srv.cache, key, EntryBody(done.1))), Response(Created, EntryBody(done.1))))
  }

  /** The vendor check that opens `reserveWallet`: an authenticated VENDOR may
      reserve only a wallet linked to their own user id. Reading the wallet goes
      through `GetWalletUseCase`, whose failures surface here. */
  function VendorMayReserve(s: LedgerState, principal: Option<string>, walletId: Uuid): (r: Outcome<Error>)
    ensures principal.Some? && FindUser(s.users, principal.value).None? ==> r == Fail(UserNotFound(principal.value))
    ensures r.Pass? <==>
              || principal.None?
              || (&& FindUser(s.users, principal.value).Some?
                  && (FindUser(s.users, principal.value).value.HasRole(Role.VENDOR) ==>
                        && GetWallet.Execute(s, walletId).Success?
                        && GetWallet.Execute(s, walletId).value.wallet.vendorUserId.Some?
                        && GetWallet.Execute(s, walletId).value.wallet.vendorUserId == FindUser(s.users, principal.value).value.id))
    ensures (&& principal.Some? && FindUser(s.users, principal.value).Some?
             && FindUser(s.users, principal.value).value.HasRole(Role.VENDOR)
             && GetWallet.Execute(s, walletId).Success?
             && r.Fail?) ==> r.error == AccessDenied
  {
    match principal
    case None => Pass
    case Some(username) =>
      match FindUser(s.users, username)
      case None => Fail(UserNotFound(username))
      case Some(user) =>
        if !user.HasRole(Role.VENDOR) then Pass
        else match GetWallet.Execute(s, walletId)
          case Failure(e) => Fail(e)
          case Success(found) =>
            if found.wallet.vendorUserId.None? || found.wallet.vendorUserId != user.id then Fail(AccessDenied) else Pass
  }

  /** `reserveWallet`: the vendor check runs before the cache lookup, so even a
      replay is refused to a vendor who does not own the wallet. */
  function Reserve(srv: Server, principal: Option<string>, walletId: Uuid, key: string, req: MoneyMovementRequest, now: Instant)
    : (r: Result<(Server, Response), Error>)
    ensures VendorMayReserve(srv.ledger, principal, walletId).Fail? ==>
              r == Failure(VendorMayReserve(srv.ledger, principal, walletId).error)
    ensures VendorMayReserve(srv.ledger, principal, walletId).Pass? && key in srv.cache ==>
              r == Success((srv, Response(Ok, srv.cache[key])))
    ensures VendorMayReserve(srv.ledger, principal, walletId).Pass? && key !in srv.cache ==>
              (r.Success? <==>
                 && MoneyOf(srv.ledger.iso, req.amount, req.currencyCode).Success?
                 && ReserveWallet.Execute(srv.ledger, walletId, MoneyOf(srv.ledger.iso, req.amount, req.currencyCode).value,
                                          req.referenceId, req.description, now).Success?)
    ensures key !in srv.cache && r.Success? ==>
              var (s', e) := ReserveWallet.Execute(srv.ledger, walletId, MoneyOf(srv.ledger.iso, req.amount, req.currencyCode).value,
                                                   req.referenceId, req.description, now).value;
              r.value == (Server(s', Put(srv.cache, key, EntryBody(e))), Response(Created, EntryBody(e)))
  {
    if VendorMayReserve(srv.ledger, principal, walletId).Fail? then Failure(VendorMayReserve(srv.ledger, principal, walletId).error) else
    match GetIfPresent(srv.cache, key)
    case Some(cached) => Success((srv, Response(Ok, cached)))
    case None =>
      var amount :- MoneyOf(srv.ledger.iso, req.amount, req.currencyCode);
      var done :- ReserveWallet.Execute(srv.ledger, walletId, amount, req.referenceId, req.description, now);
      Success((Server(done.0, Put(srv.cache, key, EntryBody(done.1))), Response(Created, EntryBody(done.1))))
  }

  /** `transfer`, composed with the corrected leg check of
      `Findings.TransferRounded`. */
  function TransferFunds(srv: Server, key: string, req: TransferRequest, now: Instant)
    : (r: Result<(Server, Response), Error>)
    ensures key in srv.cache ==> r == Success((srv, Response(Ok, srv.cache[key])))
    ensures key !in srv.cache ==>
              (r.Success? <==> Findings.TransferRounded(srv.ledger, req.fromWalletId, req.referenceId, req.currencyCode,
                                                        req.totalAmount, req.creditLegs, req.description, now).Success?)
    ensures key !in srv.cache && r.Success? ==>
              var (s', t) := Findings.TransferRounded(srv.ledger, req.fromWalletId, req.referenceId, req.currencyCode,
                                                      req.totalAmount, req.creditLegs, req.description, now).value;
              r.value == (Server(s', Put(srv.cache, key, TransferBody(ToTransferResponse(t)))),
                          Response(Created, TransferBody(ToTransferResponse(t))))
  {
    match GetIfPresent(srv.cache, key)
    case Some(cached) => Success((srv, Response(Ok, cached)))
    case None =>
      var done :- Findings.TransferRounded(srv.ledger, req.fromWalletId, req.referenceId, req.currencyCode,
                                   req.totalAmount, req.creditLegs, req.description, now);
      var body := TransferBody(ToTransferResponse(done.1));
      Success((Server(done.0, Put(srv.cache, key, body)), Response(Created, body)))
  }

  // ---- what the cache does and does not promise

  /** A replayed debit answers 200 with the first body and writes nothing, while
      the use case run again would fail: the cache alone makes debit retry-safe. */
  lemma DebitReplayIsCached(srv: Server, walletId: Uuid, key: string, req: MoneyMovementRequest, now: Instant, now2: Instant)
    requires key !in srv.cache
    requires Debit(srv, walletId, key, req, now).Success?
    ensures var (srv', first) := Debit(srv, walletId, key, req, now).value;
            && first.status == Created
            && Debit(srv', walletId, key, req, now2) == Success((srv', Response(Ok, first.body)))
            && DebitWallet.Execute(srv'.ledger, walletId, MoneyOf(srv.ledger.iso, req.amount, req.currencyCode).value,
                                   Some(RequestedRefType(req.referenceType).value), req.referenceId, req.description, now2).Failure?
  {
    var amount := MoneyOf(srv.ledger.iso, req.amount, req.currencyCode).value;
    var t := RequestedRefType(req.referenceType).value;
    DebitWallet.RetryFails(srv.ledger, walletId, amount, Some(t), req.referenceId, req.description, now, now2);
  }

  /** Once the key has expired, retrying the same debit fails. */
  lemma DebitRetryAfterEviction(srv: Server, walletId: Uuid, key: string, req: MoneyMovementRequest, now: Instant, now2: Instant)
    requires key !in srv.cache
    requires Debit(srv, walletId, key, req, now).Success?
    ensures var srv' := Debit(srv, walletId, key, req, now).value.0;
            Debit(srv'.(cache := Evict(srv'.cache, key)), walletId, key, req, now2).Failure?
  {
    var amount := MoneyOf(srv.ledger.iso, req.amount, req.currencyCode).value;
    var t := RequestedRefType(req.referenceType).value;
    var srv' := Debit(srv, walletId, key, req, now).value.0;
    DebitWallet.RetryFails(srv.ledger, walletId, amount, Some(t), req.referenceId, req.description, now, now2);
    assert MoneyOf(srv'.ledger.iso, req.amount, req.currencyCode) == MoneyOf(srv.ledger.iso, req.amount, req.currencyCode);
  }

  /** Keys are not scoped by endpoint or wallet: after a credit under `key`, a
      debit of any wallet under the same key answers with the credit's entry and
      moves no money. */
  lemma KeysNotScoped(srv: Server, walletId: Uuid, key: string, req: MoneyMovementRequest, now: Instant,
                      otherWallet: Uuid, other: MoneyMovementRequest, now2: Instant)
    requires key !in srv.cache
    requires Credit(srv, walletId, key, req, now).Success?
    ensures var (srv', first) := Credit(srv, walletId, key, req, now).value;
            && first.body.EntryBody?
            && Debit(srv', otherWallet, key, other, now2) == Success((srv', Response(Ok, first.body)))
  {
  }

  /** A reservation is replayed to the same caller: the ownership check passes
      again, since reserving changes neither users, wallets nor balances. */
  lemma ReserveReplay(srv: Server, principal: Option<string>, walletId: Uuid, key: string, req: MoneyMovementRequest,
                      now: Instant, now2: Instant)
    requires key !in srv.cache
    requires Reserve(srv, principal, walletId, key, req, now).Success?
    ensures var (srv', first) := Reserve(srv, principal, walletId, key, req, now).value;
            Reserve(srv', principal, walletId, key, req, now2) == Success((srv', Response(Ok, first.body)))
  {
    var s := srv.ledger;
    var s' := Reserve(srv, principal, walletId, key, req, now).value.0.ledger;
    assert s'.users == s.users && s'.wallets == s.wallets && s'.iso == s.iso;
    assert Balance(s', walletId) == Balance(s, walletId);
    assert GetWallet.Execute(s', walletId) == GetWallet.Execute(s, walletId);
  }
}

=== FILE: wallet_port.dfy ===
/** `WalletServiceClient`: the orchestrator's only way to touch the ledger. The
    port is abstract here. Each call the orchestrator makes is recorded, and the
    reply (or the exception thrown in its place) is an input of the operation
    that makes the call, so every outcome the remote service could give is
    covered. */
module WalletPort {
  import opened Wrappers
  import opened Base
  import opened Monetary
  import Transfer

  /** One remote call, with the arguments the orchestrator passes. The caller
      token of `confirmLedgerEntry` and `reverseLedgerEntry` is not part of the
      port's two-argument signature and is not recorded. */
  datatype PortCall =
    | CreditCall(walletId: Uuid, amount: Decimal, currencyCode: string, referenceId: string,
                 referenceType: string, description: string, idempotencyKey: string, token: Option<string>)
    | ReserveCall(walletId: Uuid, amount: Decimal, currencyCode: string, referenceId: string,
                  description: string, idempotencyKey: string, token: Option<string>)
    | ConfirmCall(entryId: Uuid, idempotencyKey: string)
    | ReverseCall(entryId: Uuid, idempotencyKey: string)
    | TransferCall(fromWalletId: Uuid, referenceId: string, currencyCode: string, totalAmount: Decimal,
                   legs: seq<Transfer.CreditLeg>, description: string, idempotencyKey: string, token: Option<string>)
    | WalletByTypeCall(merchantId: Uuid, currencyCode: string, walletType: string, vendorUserId: Option<Uuid>)

  /** What an operation that talks to the port produced: its result, and the
      calls it made on the way. The calls stay recorded when the result is a
      failure, since a remote effect is not undone by a local rollback. */
  datatype Attempt<+T> = Attempt(result: Result<T, Error>, calls: seq<PortCall>)

  /** `getWalletByType` as seen by the orchestrator: the wallet id the service
      answers for (merchant, currency, type, vendor), or the failure it raises. */
  type Directory = (Uuid, string, string, Option<Uuid>) -> Result<Uuid, Error>

  /** A wallet id given by the caller is used as is; a missing one is looked up. */
  function ResolveWallet(given: Option<Uuid>, directory: Directory, merchantId: Uuid, currencyCode: string,
                   walletType: string, vendorUserId: Option<Uuid>): (r: Attempt<Uuid>)
    ensures given.Some? ==> r == Attempt(Success(given.value), [])
    ensures given.None? ==>
              && r.calls == [WalletByTypeCall(merchantId, currencyCode, walletType, vendorUserId)]
              && r.result == directory(merchantId, currencyCode, walletType, vendorUserId)
  {
    match given
    case Some(id) => Attempt(Success(id), [])
    case None =>
      Attempt(directory(merchantId, currencyCode, walletType, vendorUserId),
              [WalletByTypeCall(merchantId, currencyCode, walletType, vendorUserId)])
  }
}

=== FILE: wrappers.dfy ===
/** Failure-compatible wrappers: Java's nullable references become `Option`,
    and thrown exceptions become the `Failure` arm of `Result`. */
module Wrappers {

  datatype Option<+T> = None | Some(value: T) {

    predicate IsFailure() {
      None?
    }

    function PropagateFailure<U>(): Option<U>
      requires None?
    {
      None
    }

    function Extract(): T
      requires Some?
    {
      value
    }

    /** The value, or `default` where Java would have seen null. */
    function GetOr(default: T): T {
      match this
      case Some(v) => v
      case None => default
    }
  }

  datatype Result<+R, +E> = Success(value: R) | Failure(error: E) {

    predicate IsFailure() {
      Failure?
    }

    function PropagateFailure<U>(): Result<U, E>
      requires Failure?
    {
      Failure(error)
    }

    function Extract(): R
      requires Success?
    {
      value
    }
  }

  /** A result that carries no value, for `void` Java methods that may throw. */
  datatype Outcome<+E> = Pass | Fail(error: E) {

    predicate IsFailure() {
      Fail?
    }

    function PropagateFailure<U>(): Result<U, E>
      requires Fail?
    {
      Failure(error)
    }
  }
}
